=== FILE: README.md ===
# Fisherman's engine core, modelled in Dafny

Fisherman is a pygame fishing game built on `epg`, a small engine of its own. This project models
the parts of that engine and of the game's bookkeeping that carry logic. Pure functions state the
behaviour and lemmas prove properties about it. The parts modelled are:

- the **action algebra** of `epg/action.py`. Leaf actions are built with keyword validation and
  class defaults. They combine with `>>` and `+`, where equal neighbours merge. They repeat with
  `*` and reverse with unary `-` and `~`.
- **playback** of actions. Python generators are modelled as explicit run states. One `send` is
  one step of the state machine. The step covers leaf passes with their time throttle, special
  actions, `yield from` chains, and parallel sweeps that remove finished children in place.
- the **ActionManager** and **ActionObject**: starting playback, folding covers over the original
  frame, updating, `recover`, `act` and `stop`.
- `init` and `get` of every leaf class: endpoint resolution for `MoveBy`, `MoveTo`, `ScaleTo` and
  `Erase`, and each class's frame transformation.
- `epg/math.py`: `counter`, `mix` and `round_to_int`.
- `epg/image.py`: `SpriteSheet`, `FileSheet`, `Animation` and `StaticAnimation`.
- `epg/renderer.py`: `get_padded` with `Text` and `Ln`, `render`, `renders` and `Style`.
- `epg/__init__.py`: `_throw`, `_check_attr` and `get_time`.
- `main.py`: `Level.update_level` and `reach_max_level`, the next-level requirement,
  `Score.increase` and `update`, `Sky.increase_period` and the sky's day cycle, and `get_sth`.

Python semantics are written out wherever they matter:

- floor division and modulo;
- negative indexing;
- truthiness;
- `bool` counting as `int`;
- `isinstance(v, int)`;
- `math.inf` and `nan` as repeat counts;
- exceptions as `Result` values;
- `random.choices` as CPython computes it, with cumulative weights and `bisect_right`.

Surfaces are symbolic terms that record how they were produced. Pixels are not modelled. Time and
randomness are parameters.

The `Delay(0) >> Kill()` trace shows how playback is paced. Every leaf pass takes one yield for
`get(0)` and one for `get(1)`, and the hand-over between children yields nothing. So the Kill fires
on the fourth update of the sprite.

## Model

| member | source | states |
|---|---|---|
| Epg.ThrowMessage | epg/__init__.py:8-12 | the message is `s` alone when `t` is empty; otherwise it is `t`, then " argument(s) ", then `s` |
| Epg.Throw | epg/__init__.py:8-12 | `_throw` always raises a pygame error carrying that message |
| Epg.CheckAttr | epg/__init__.py:14-17 | raises exactly when some keyword is not allowed, and reports exactly the non-allowed ones |
| Epg.PollEvents | epg/scene.py:88-94 | the ticks spent in `event.get()` are added to `time_offset`, so the ticks move on while `get_time()` (ticks minus offset, epg/__init__.py:52-55) stays unchanged |
| Epg.Advance | epg/__init__.py:52-55 | time outside polling reaches `get_time()` in full |
| Epg.OffsetLowersTime | epg/__init__.py:52-55 | growing the loss offset lowers the game time by the same amount |
| Mixing.Mix | epg/math.py:12-14 | gives `a` at 0 and `b` at 1, and stays between the two for positions in [0, 1] |
| Mixing.MixScalar | epg/math.py:12-14 | numeric `mix` equals `a + pos·(b − a)`; the result is an int exactly when all three inputs are ints |
| Mixing.MixVal | epg/math.py:12-16 | numbers mix as scalars; two sequences mix element-wise over `zip`, giving a list of the shorter length; any other pair raises TypeError |
| Mixing.ZipMix | epg/math.py:15-16 | the zip comprehension succeeds exactly when every zipped pair is numeric, and item k is the mix of the k-th pair |
| Mixing.MixValStart | epg/math.py:12-14 | mixing at position 0 returns the start value |
| Mixing.MixValEnd | epg/math.py:12-14 | mixing at position 1 returns the end value |
| Mixing.MixIntPairs | epg/math.py:15-16 | int pairs mixed at an int position stay ints, coordinate by coordinate |
| Mixing.Count | epg/math.py:3-10 | a missing or zero `stop` counts forever; otherwise it is `range`, whose k-th value is start + k·step; a zero step raises ValueError |
| Mixing.Nth | epg/math.py:5-8 | the endless counter's k-th value is start + k·step |
| Mixing.Range | epg/math.py:10 | `range` has the length counted independently, and item k is start + k·step |
| Mixing.RangeStaysBeforeStop | epg/math.py:10 | every value of `range` lies between start and stop, on the side the step runs toward |
| Mixing.RoundToInt | epg/math.py:18-20 | rounds half up for non-negative x; for negative x it truncates toward zero |
| Values.Item | epg/action.py:399 | `v[k]` with Python indexing: a TypeError on non-sequences and an IndexError out of range |
| Values.Reversed | epg/action.py:114 | `[::-1]` works exactly on sequences and keeps the type and the truthiness |
| Values.ReversedTwice | epg/action.py:114 | reversing twice gives the value back |
| Values.ValEqRefl | epg/action.py:106 | Python `==` on keyword values is reflexive |
| Values.ValEqSym | epg/action.py:106 | Python `==` on keyword values is symmetric |
| Values.Times | epg/action.py:432 | a number times a number is their numeric product |
| Py.FloorDiv | epg/image.py:50 | `//` rounds toward negative infinity |
| Py.Mod | epg/image.py:87 | `%` takes the divisor's sign and pairs with `//` to rebuild the dividend |
| Py.Index | epg/image.py:77 | `s[k]` succeeds exactly for −len ≤ k < len, and a negative k counts from the end |
| Py.Reverse | epg/action.py:217 | `[::-1]` puts item i at position len − 1 − i |
| Py.ReverseReverse | epg/action.py:217 | reversing twice restores the list |
| Py.Sum | epg/renderer.py:54 | `sum` of non-negative numbers is non-negative |
| Py.Max | epg/renderer.py:54 | `max` is at least every element and equals one of them |
| Py.MapRElements | epg/renderer.py:46-52 | a loop that may raise succeeds exactly when every call does, and then holds each item's result in order |
| Py.MapRFirstError | epg/renderer.py:46-52 | a failing loop fails with the error of its first failing item, every earlier item having succeeded |
| Py.MapRConcat | epg/renderer.py:46-52 | running the loop over two lists joined is running it over the first and, if that succeeded, over the second |
| Py.MapRSplit | epg/renderer.py:46-52 | running the loop on a list equals running it on a prefix and then on the rest |
| Geometry.ParseAttr | epg/renderer.py:60 | names the anchor attributes the engine uses: `topleft`, `center` and `topright` |
| Geometry.SetAttr | epg/renderer.py:60 | `setattr(rect, a, v)`: a positional attribute moves the box without resizing it and then reads back as v; a value of the wrong shape raises |
| Geometry.Move | epg/action.py:403 | `rect.move(dx, dy)` shifts every point by (dx, dy) and keeps the size |
| Geometry.MoveBy | epg/action.py:403 | `rect.move(*v)` succeeds exactly for a number pair and keeps the size |
| Actions.TotalTimes | epg/action.py:125-128 | `*` on repeat counts multiplies ints; infinities give nan exactly when the other factor is zero |
| Actions.TotalPlus | epg/action.py:272 | `+` on repeat counts adds ints |
| Actions.Passes | epg/action.py:151-162 | `while i < total` runs once for each i below the total, and never stops for `inf` |
| Actions.PassesMultiply | epg/action.py:125-128 | repeating m times, n times over, makes m·n passes |
| Actions.Make | epg/action.py:78-86 | a keyword outside ATTR raises, listing the bad names; otherwise `kw` is ATTR overlaid with the given keywords, and its snapshot equals `kw` |
| Actions.CoverFalseIsIgnored | epg/action.py:81-82 | `cover=False` cannot switch off a class's COVER |
| Actions.CallOf | epg/action.py:135 | a plain function operand becomes `Call(func=f)` with one pass |
| Actions.Copy | epg/action.py:138-140 | a copy keeps class, timing, total, cover and keywords, and its snapshot is the current `kw`; a group copies every child |
| Actions.CopyChecked | epg/action.py:138-140 | re-running the constructor succeeds exactly when every leaf's keywords lie within its class's ATTR, and then gives the copy; a leaf reports exactly its keywords outside ATTR |
| Actions.CheckedChildren | epg/action.py:245-247 | a group's copy succeeds exactly when every child's does, children checked in list order |
| Actions.CopyKeepsValid | epg/action.py:138-140 | a copy passes the keyword check exactly when its original does |
| Actions.NegKeepsValid | epg/action.py:220-223 | a negation passes the keyword check exactly when its original does |
| Actions.SetKwBreaksCopy | epg/action.py:101-102 | after `a[key] = v` with a key outside the class's ATTR, `copy()` raises and names that key |
| Actions.CopyIdempotent | epg/action.py:138-140 | copying a copy changes nothing |
| Actions.CopyIsSame | epg/action.py:104-109 | a copy `==` its original |
| Actions.SameRefl | epg/action.py:104-109 | action `==` is reflexive |
| Actions.SameSym | epg/action.py:104-109 | action `==` is symmetric |
| Actions.SameIgnoresTotal | epg/action.py:104-109 | `==` does not look at `total` |
| Actions.Neg | epg/action.py:111-115 | `-a` succeeds exactly when every truthy range can be sliced; otherwise it raises TypeError |
| Actions.NegOf | epg/action.py:220-223 | a leaf's truthy range is reversed and the snapshot keeps the old range; a group's children are negated and put in reverse order |
| Actions.NegOfCopy | epg/action.py:220-223 | negating a copy is negating the original |
| Actions.NegNeg | epg/action.py:220-223 | `--a` plays exactly as `a` does: same keywords at every leaf and the same child order |
| Actions.Invert | epg/action.py:215-218 | `~` on a leaf is `-`; on a group it reverses the copied child list and nothing else |
| Actions.InvertInvertGroup | epg/action.py:215-218 | `~~g` is a plain copy of the group |
| Actions.Mul | epg/action.py:125-128 | `a * n` is a copy whose total is multiplied, and it `==` the original |
| Actions.Insert | epg/action.py:261-273 | a negative index counts from the end and an index past the end raises; an action `==` its new predecessor only adds its total to that predecessor; otherwise it lands at the clamped position with the rest of the list unchanged |
| Actions.InsertUndone | epg/action.py:261-273 | an insertion is undone either by removing the new action at its landing position or by taking its total back from the `==` predecessor |
| Actions.Append | epg/action.py:275-276 | an `==` last element absorbs the new action's total; otherwise the action is added at the end |
| Actions.AppendNeverDuplicates | epg/action.py:269-276 | appending an action `==` the last one never lengthens the list |
| Actions.Combine | epg/action.py:249-259 | a group of the requested mode with an equal total gets the operand appended, merge rule included; anything else becomes a new two-child group |
| Actions.Base | epg/action.py:134-136 | a leaf is first wrapped in a one-child group carrying its own total |
| Actions.ThenReflected | epg/action.py:131 | `f >> x` with a plain function puts the call last, after x |
| Actions.LastIsCall | epg/action.py:249-257 | `x >> f` always ends with a Call of f |
| Actions.Extend | epg/action.py:278-280 | `extend` always raises AttributeError |
| Actions.Leaves | epg/action.py:234-243 | `.all` yields only leaves, and a leaf is its own list |
| Actions.LeavesInOrder | epg/action.py:234-243 | a group's leaves are its children's leaves, child after child, nested groups flattened in order |
| Actions.LeavesAllConcat | epg/action.py:234-243 | the leaves of two lists in a row are the leaves of the first list followed by those of the second |
| Actions.NegReversesLeaves | epg/action.py:220-223 | the leaves of `-a` are the leaves of `a` in reverse order, each negated |
| Actions.GetKw | epg/action.py:98-99 | `a[key]` succeeds exactly for a present key |
| Actions.SetKw | epg/action.py:101-102 | `a[key] = v` sets one key, keeps the others and leaves the snapshot alone |
| Effects.LeadsWithInt | epg/action.py:399 | `isinstance(range[0], int)` is defined exactly when the range can be indexed |
| Effects.InitMoveBy | epg/action.py:397-400 | an int-led range becomes ((0, 0), range); any other range is kept |
| Effects.InitEndpoints | epg/action.py:408-416 | MoveTo and ScaleTo `init` changes only the range |
| Effects.InitErase | epg/action.py:426-432 | Erase `init` builds an eraser box at the origin and scales both range points by the sprite's size |
| Effects.Init | epg/action.py:374-432 | `init` keeps a leaf's class, timing, cover and snapshot, and does nothing for classes without an `init` |
| Effects.InitIdempotent | epg/action.py:397-432 | `init` reads only the snapshot, so running it again changes nothing |
| Effects.OnlyLastFalsyEndpointFilled | epg/action.py:413-416 | when both endpoints are falsy, only the second is filled from the sprite: each pass restarts from the snapshot |
| Effects.IntLedEndpointFromOrigin | epg/action.py:411-416 | an int-led range means "from where the sprite was to this point" |
| Effects.Mixture | epg/action.py:185-186 | the mixture is `interp(*range, pos)`; a one-element range mixes toward `pos` at the default 0.5 |
| Effects.FadeGet | epg/action.py:349-352 | Fade sets the alpha to the mixture and keeps the rect |
| Effects.TransformGet | epg/action.py:363-367 | Transform applies its function to the mixture, resizes to the new surface and keeps the anchor point |
| Effects.MoveToGet | epg/action.py:418-421 | MoveTo sets the anchor attribute to the mixture and keeps the image; a missing anchor key raises KeyError first, then a failing mixture, then a bad attribute name |
| Effects.EraseGet | epg/action.py:434-440 | Erase keeps the rect and records the cleared area when `fill` is truthy; a truthy `eraser` is stamped when it is a surface and raises TypeError otherwise; a failing mixture is reported before a bad anchor name |
| Effects.ShakeGet | epg/action.py:444-448 | Shake moves by the wave values times the distance, truncated, and keeps size and image |
| Effects.Get | epg/action.py:188-189 | what each class's `get` leaves unchanged; Act reports its call and yields None |
| Effects.MoveByEndpoints | epg/action.py:397-403 | `MoveBy((dx, dy))` shows the original rect at 0 and the rect moved by (dx, dy) at 1 |
| Effects.NegatedOffsetIsSwapped | epg/action.py:111-115 | `-MoveBy((dx, dy))` moves by (dy, dx): negation reverses the pair itself, not the path |
| Effects.MoveToEndpoints | epg/action.py:408-421 | `MoveTo((x, y))` starts at the sprite's original top-left and ends at (x, y) |
| Effects.MoveToTopLeft | epg/action.py:418-421 | a `topleft` anchor puts the rect's corner at the mixed point |
| Playback.Prime | epg/action.py:150-153 | starting a generator: specials arm, leaves run `init`, parallel groups wait for their first send |
| Playback.FirstLive | epg/action.py:305-307 | the first child from a position whose generator does not finish while starting |
| Playback.PrimeSeq | epg/action.py:303-308 | a sequential group resumes at the next live child, on a pass still below the total |
| Playback.Progress | epg/action.py:174-175 | progress is elapsed / duration capped at 1, and lies in [0, 1] for time running forward |
| Playback.StartPass | epg/action.py:164-168 | a leaf pass records the start time and yields `get(0)` |
| Playback.Fire | epg/action.py:312-332 | Clear empties the covers; Kill calls the end function when asked and one exists, then kills; End detaches the sprite |
| Playback.Reinit | epg/action.py:179-183 | at the end of a pass a covering leaf runs `init` again against the sprite as it is now; a non-covering leaf is untouched; timing, total and class are kept |
| Playback.Register | epg/action.py:179 | a finished cover leaf adds a snapshot of itself as its cover (see Left out); a detached sprite raises instead |
| Playback.Step | epg/action.py:150-183 | one `send` keeps the run state well formed, every cover a leaf and the end function unchanged |
| Playback.ClosingReinitialises | epg/action.py:176-183 | ending a covering leaf's pass reports an `init` error first, then a missing manager; otherwise the re-initialised leaf is both the new cover and what the next pass plays |
| Playback.ReinitSameSprite | epg/action.py:179-183 | against the sprite playback was primed with, the re-run `init` gives back the primed leaf |
| Playback.MoveToCoverFollowsSprite | epg/action.py:408-416 | a MoveTo cover whose range starts with None takes its start point from the sprite's original rect as it is at the end of the pass |
| Playback.Round | epg/action.py:290-298 | a parallel sweep keeps the children before the cursor and every live child is one of the group's |
| Playback.PrimeAll | epg/action.py:287-288 | every child is started, in order |
| Playback.ParPass | epg/action.py:283-300 | a fresh parallel pass yields a well-formed state or finishes |
| Playback.LeafHoldsBetweenResamples | epg/action.py:170-176 | inside the throttle interval a leaf yields `get` at the progress it last computed |
| Playback.LeafResamples | epg/action.py:171-176 | after the interval the progress is recomputed from the pass start |
| Playback.InstantLeafTrace | epg/action.py:164-179 | a zero-duration leaf yields get(0), then get(1), then registers its cover and finishes |
| Playback.SpecialFiresOnFirstSend | epg/action.py:192-194 | a special action does its work on the first send and yields nothing |
| Playback.SpecialSecondSend | epg/action.py:334-336 | on the second send a special finishes, except Remain, which yields None forever |
| Playback.SequentialHandoverYieldsNothing | epg/action.py:305-307 | when one child finishes and the next takes over, that send yields nothing |
| Playback.RoundSkipsSuccessor | epg/action.py:291-295 | removing a finished child skips its successor in that sweep |
| Playback.RoundPipes | epg/action.py:291-293 | each live child in a sweep receives the previous child's output |
| Playback.RoundEmptiesOnlySingleton | epg/action.py:291-297 | a sweep empties the list only from a single child, and then leaves the loop index at 0 |
| Playback.ParallelNeverFinishes | epg/action.py:284-300 | the enumerate index overwrites the pass counter, so a parallel group with total above 1 never finishes |
| Playback.ParPassNeverFinishes | epg/action.py:284-300 | a fresh parallel pass with total above 1 yields whenever it succeeds |
| Managers.FoldCovers | epg/action.py:23-27 | no covers leave the frame as it is (covers are snapshots, see Left out) |
| Managers.FoldCoversCompose | epg/action.py:23-27 | folding two cover lists one after the other is folding their concatenation |
| Managers.DelayCoversAreNeutral | epg/action.py:23-27 | Delay covers pass the frame through unchanged |
| Managers.Start | epg/action.py:6-15 | playback starts only when the first action is truthy; a root that finishes while starting raises StopIteration |
| Managers.Update | epg/action.py:35-47 | an idle manager changes nothing; when the generator finishes the frame is kept and the end function is called last |
| Managers.UpdateAfterFinishIsIdle | epg/action.py:35-45 | after the generator finishes, further updates change nothing, so the end function runs once |
| Managers.UpdateShowsYieldedFrame | epg/action.py:36-47 | a yielded frame is shown, and a None keeps the current one |
| Managers.CoverLeaves | epg/action.py:31-33 | the cover leaves are exactly the leaves with `cover` set |
| Managers.RecoverCovers | epg/action.py:29-33 | succeeds exactly when every cover leaf initialises, and gives one cover per cover leaf, in order |
| Managers.Recover | epg/action.py:29-33 | `recover` replaces only the covers, leaving the running generator's leaves as they are (see Left out); a manager that never started raises |
| Managers.RecoveredCoversAreStable | epg/action.py:181-183 | a rebuilt cover is a leaf already in its `init` state |
| Managers.Act | epg/action.py:62-64 | a given end function replaces the kept one and a fresh manager starts; on an ended sprite `act` is None, so the call raises TypeError |
| Managers.NewActor | epg/action.py:50-54 | `act` runs only when some action is given |
| Managers.Stop | epg/action.py:66-69 | the manager is dropped and whether the sprite has ended is kept; calling the end function raises AttributeError after `end()` or without a manager, and TypeError without an end function |
| Managers.ActorUpdate | epg/action.py:71-73 | the manager, if any, is updated, and the sprite has ended exactly when that update ran an End; an ended sprite stays as it is |
| Managers.StoppedEndedStaysEnded | epg/sprite.py:45-49 | after `end()`, `stop(False)` leaves the sprite ended: `act` raises TypeError, `update` ignores actions and `stop(True)` raises AttributeError |
| Traces.KillFiresOnFourthUpdate | epg/action.py:302-327 | `Delay(0) >> Kill()`: three updates pass quietly and the fourth calls the end function and kills |
| Sheets.Subsurface | epg/image.py:81-84 | a subsurface needs the box inside the surface and has the box's size |
| Sheets.Len | epg/image.py:72-73 | `len` is x·y cells (a negative product raises) or the number of files |
| Sheets.WithIdRestores | epg/image.py:128-130 | setting the index back restores the sheet |
| Sheets.GetPosById | epg/image.py:86-87 | a grid maps an index to (id % x, id // x), which rebuilds the index; x = 0 raises ZeroDivisionError |
| Sheets.PosOfIndex | epg/image.py:86-87 | row-major numbering is inverted by `get_pos_by_id` |
| Sheets.Crop | epg/image.py:81-84 | the cell at (col, row) is the tile-sized box at col·tile.w, row·tile.h |
| Sheets.GetSurface | epg/image.py:75-84 | a cached sheet returns its cached entry at `id`; otherwise the cell at `id`'s position is cut out, and a file sheet, which has no original image, raises AttributeError |
| Sheets.NextIdInRange | epg/image.py:92-94 | one advance from an in-range index is (id + 1) mod len |
| Sheets.NextImage | epg/image.py:89-96 | returns the current frame, then advances the index |
| Sheets.IdAfterWraps | epg/image.py:92-94 | k advances from an in-range index give (id + k) mod len |
| Sheets.FullCircle | epg/image.py:62 | len advances bring an in-range index back to itself |
| Sheets.Fill | epg/image.py:62 | the cache list holds, in order, the frames at the successive indices |
| Sheets.GridOf | epg/image.py:49-55 | x and y without a tile give the tile by floor division; a tile fills in a missing x or y; neither raises "Miss argument(s)" |
| Sheets.NewGrid | epg/image.py:48-62 | a cached sheet holds one frame per cell, and its index is where the cache-building advances leave it |
| Sheets.CacheKeepsIndex | epg/image.py:62 | building the cache leaves an in-range index unchanged |
| Sheets.CacheIsRotated | epg/image.py:62 | cache entry j is the frame at (id + j) mod len, so the cache is rotated unless the sheet starts at 0 |
| Sheets.Iter | epg/image.py:64-67 | iteration yields x·y surfaces, and a file sheet cannot be iterated |
| Sheets.IterRowsCell | epg/image.py:65-67 | item k·x + c of the rows from `row` on is the cell in column c of row row + k |
| Sheets.IterCols | epg/image.py:66-67 | one row yields its cells left to right |
| Sheets.IterIsIndexOrder | epg/image.py:64-67 | on an uncached grid, item i of the iteration is the frame at index i |
| Sheets.NewFiles | epg/image.py:101-107 | a file sheet has one frame per surface; no surfaces raises "No images in this sheet" |
| Sheets.NewAnimation | epg/image.py:116-123 | a delay postpones the last-update time |
| Sheets.Id | epg/image.py:125-150 | an animation's index is its sheet's; a static animation's is always 0 |
| Sheets.SetId | epg/image.py:128-153 | setting the index reaches the sheet, and a static animation ignores it |
| Sheets.Update | epg/image.py:138-163 | an animation advances on a reset or once more than `interval` has passed, then records the time; a static one returns its image only on a reset |
| Sheets.DelayPostponesFirstFrame | epg/image.py:121-142 | a fresh animation with a delay first advances unprompted only after delay + interval |
| Renderer.NewCanvas | epg/renderer.py:54 | a surface of negative size raises "Invalid resolution for Surface" |
| Renderer.Pad | epg/renderer.py:18-23 | with no padding the surface is returned as is; otherwise it is drawn at (padx, pady) on a transparent canvas 2·pad larger |
| Renderer.PadCentres | epg/renderer.py:18-23 | padding leaves equal margins on both sides |
| Renderer.PadArgs | epg/renderer.py:15 | `padx` and `pady` default to 0 and are removed from the keywords passed on |
| Renderer.Text | epg/renderer.py:27-29 | `Text` is the text renderer with the padding applied |
| Renderer.ItemPicture | epg/renderer.py:47-48 | a string item is drawn with the text style; a surface is used as is |
| Renderer.Align | epg/renderer.py:59-60 | an item's box takes its cell's anchor point and keeps its own size |
| Renderer.AlignWithin | epg/renderer.py:59-60 | a box no larger than its cell, anchored by any attribute, stays inside the cell |
| Renderer.RowItemsFitTheirCells | epg/renderer.py:57-62 | item i of a row starts at the sum of the earlier widths and lies within the row's height |
| Renderer.RowAnchorsMatchCells | epg/renderer.py:59-60 | each item shares its cell's anchor point |
| Renderer.ColumnsTile | epg/renderer.py:57-62 | row cells are laid end to end without overlap and fill the whole width |
| Renderer.RenderRow | epg/renderer.py:43-63 | a row is as wide as the sum of widths and as tall as the tallest item; an empty row raises ValueError and an unknown anchor AttributeError |
| Renderer.Render | epg/renderer.py:43-63 | the loop with a running x computes the row |
| Renderer.DrawItems | epg/renderer.py:46-52 | the drawing loop stops at the first failing text |
| Renderer.PlaceRow | epg/renderer.py:57-62 | the placement loop puts item j at the running x |
| Renderer.Ln | epg/renderer.py:35-37 | `Ln` is `render` with the padding applied |
| Renderer.RowItems | epg/renderer.py:70 | a string line is the row of its characters |
| Renderer.TextLineIsCharacterRow | epg/renderer.py:70 | each character of a string line is drawn on its own |
| Renderer.LinePicture | epg/renderer.py:69-70 | a surface line is used as is; anything else is rendered as a row with the line style |
| Renderer.ColumnLinesFitTheirCells | epg/renderer.py:79-84 | line i starts at the sum of the earlier heights and lies within the column's width |
| Renderer.RowsTile | epg/renderer.py:79-84 | column cells are stacked without overlap and fill the whole height |
| Renderer.RenderColumn | epg/renderer.py:65-85 | a column is as wide as the widest line and as tall as the sum of heights, with the same errors as a row |
| Renderer.Renders | epg/renderer.py:65-85 | the loop with a running y computes the column |
| Renderer.DrawLines | epg/renderer.py:68-74 | each line is drawn in order, and the first failure ends the loop |
| Renderer.PlaceColumn | epg/renderer.py:79-84 | the placement loop puts line j at the running y |
| Renderer.Get | epg/renderer.py:7-8 | `get` returns the stored keywords |
| Renderer.Set | epg/renderer.py:10-12 | `set` drops every old keyword not given again |
| Renderer.SetThenGet | epg/renderer.py:10-12 | after `set(**kw)`, `get()` is exactly kw, and setting twice is setting once |
| Game.Descending | configs.py:14-15 | `SCORE_REQUIREMENT` is the ascending thresholds reversed |
| Game.AscendingIsSorted | configs.py:14-15 | the thresholds strictly increase |
| Game.LevelFor | configs.py:14-15 | the level a score earns lies between −1 and the maximum level |
| Game.CountSorted | configs.py:14-15 | a score meets exactly the thresholds up to the last one it reaches |
| Game.UpdateLevel | main.py:118-125 | the scan from the highest threshold changes the level exactly when the score earns a higher one, and then sets it to that level |
| Game.LevelNeverDrops | main.py:118-125 | a non-negative score always earns level 0 or more, and a higher score never earns a lower level |
| Game.CountAtMostGrows | main.py:118-125 | a higher score meets at least as many thresholds |
| Game.NextRequirement | main.py:139 | "Next Level Requires" shows the threshold of the next level, and raises IndexError past the end |
| Game.NextRequirementEarnsNextLevel | main.py:94-96 | reaching the displayed requirement earns exactly the next level, and the top level is the one `reach_max_level` reports |
| Game.RoundHalfEven | main.py:53 | rounding stays within half a unit and sends ties to the even neighbour |
| Game.Round | main.py:53 | `round(x, n)` is the multiple of 10^−n whose count of steps is x·10^n rounded half-to-even, and lies within half a step of x |
| Game.RoundError | main.py:53 | k·10^−n is within half a step of x when k is within a half of x·10^n |
| Game.WithinHalfStep | main.py:53 | a value whose scaled distance to x is at most a half is within half a step |
| Game.PositiveStep | main.py:56-58 | a positive one-decimal gain has a positive step |
| Game.Increase | main.py:52-68 | a zero gain changes nothing; otherwise the score moves and is clamped at 0, a gain adds to the pending increment with a twentieth as its step, and the level is updated |
| Game.IncreaseKeepsBoard | main.py:52-68 | an increase keeps the score non-negative and a pending increment drainable, and never lowers the level |
| Game.Update | main.py:71-77 | a pending increment drops by one step, never below 0, and nothing else changes |
| Game.UpdateDrains | main.py:71-77 | an update keeps the board sound and strictly shrinks a pending increment |
| Game.IncreasePeriod | main.py:521-522 | the period cycles through the four sky colours |
| Game.SkyColour | main.py:529-531 | each of the three channels is the mix, at `pos`, of that channel of the previous colour (the last one before the first) and of the current colour; an int position gives int channels |
| Game.PreviousColour | main.py:529-531 | `colors[period - 1]` is the previous colour, wrapping to the last one for period 0 |
| Game.SkyWrapIsSeamless | main.py:521-536 | a period starts on exactly the colour the previous period ends on |
| Game.MixSeam | epg/math.py:12-16 | ending a mix on a colour and starting the next mix from it give the same int colour |
| Game.SkyUpdate | main.py:528-536 | pos moves on by the rate and wraps to 0 past 1, moving to the next period |
| Game.SkyDrifts | main.py:533-536 | within a period pos after n updates is n times the rate |
| Game.PeriodLength | main.py:533-536 | a period lasts 3334 updates, and the last one starts the next period |
| Game.ColourContinuesAcrossWrap | main.py:529-536 | the colour at the end of a period equals the colour the next one starts with |
| Game.Unlocked | main.py:21 | the pool is exactly the entries the level has unlocked |
| Game.CumulativeIsPrefixSum | main.py:22 | the i-th running total is the sum of the first i + 1 weights |
| Game.CumulativeStep | main.py:22 | each running total is the previous one plus the next weight |
| Game.CumulativeSorted | main.py:22 | non-negative weights give running totals that never decrease |
| Game.Scale | main.py:22 | a draw in [0, 1) scales a positive total to a point in [0, total) |
| Game.ScaleIsProduct | main.py:22 | the scaled draw is the product of the draw and the total |
| Game.Locate | main.py:22 | on non-decreasing totals the bisection lands on the entry whose interval contains the scaled draw |
| Game.BisectRight | main.py:22 | on sorted input the index splits the totals into those at most x and those above |
| Game.Choose | main.py:22 | an empty pool raises IndexError and a non-positive total ValueError; otherwise the chosen entry's running-total interval contains u·total |
| Game.ChosenHasWeight | main.py:22 | with non-negative weights and u in [0, 1), an entry of weight 0 is never chosen |
| Game.GetSth | main.py:19-22 | an empty pool raises IndexError; a non-empty pool raises ValueError exactly when its total weight is not positive; the name returned is that of the pool entry whose running-total interval contains the scaled draw, and it has positive weight |
| Game.UnlockedConcat | main.py:21 | the pool keeps the list's order: filtering a concatenation filters each part in turn |
| Game.UnlockedOne | main.py:21 | a one-entry list keeps its entry exactly when it is unlocked |
| Game.FirstLevelOnlyCommonFish | configs.py:16-25 | at level 0 only the common fish is unlocked |

## Left out

- Pixel work is not modelled: blitting, filling, alpha, scaling, rotating, flipping and text
  rasterising. Surfaces are symbolic terms, and their sizes after a transform come from a parameter.
- Text drawing (`epg.text_render`, in epg/font.py) is a parameter of the renderer. epg/font.py is not
  part of this model.
- `Image()`, the padded `epg.image.get_surface`, is left out, because it loads files.
- Image loading (`load`, `loads`, `load_sheet`, `load_static_animation`) is left out, because it is file I/O.
- The trigonometric functions of Shake and any user `interp` other than `mix` are parameters.
- Floats are exact reals. Float rounding, accumulated error and the float-to-int coercion of pygame
  Rect are not modelled; the coercion is taken as truncation.
- Game.PeriodLength: the count of 3334 updates holds for exact reals; accumulated float error can
  move the wrap by one update.
- The state a Python object has after an exception escapes mid-call is not modelled. An error ends the
  computation.
- Renderer.PadArgs: a non-integer `padx` or `pady` is modelled as a TypeError. Floats that pygame
  would accept are not modelled.
- Renderer.RenderRow: `textstyle` and `lnstyle` are given as a parsed options record. An unknown
  keyword passed on to `render`, which raises TypeError, is not modelled. `imagestyle` is unused by
  the code and is left out.
- Negative subsurface sizes are rejected like any box outside the surface.
- Actions.Copy: the operators `-`, `~`, `*`, `>>` and `+` use the unchecked Copy. The source re-runs
  keyword validation there, so after `a[key] = v` with a key outside the class's ATTR, `-a` or `a * 2`
  raises InvalidArguments while the model's operators succeed. CopyChecked states when the source raises,
  and CopyKeepsValid and NegKeepsValid show that this cannot happen to trees built by the constructors.
- Actions.Mul: a non-integer repeat count such as `a * 0.5` or `total=1.5` cannot be represented. A
  total is an int, `math.inf`, `-math.inf` or `nan`.
- Playback.Register: a cover is stored as a snapshot of its leaf, taken when the pass ends. The
  source registers `partial(self.get, 1)`, which is bound to the leaf object itself. So when a leaf
  with `total > 1` is re-initialised at a later pass end, its earlier covers follow the new state in
  the source but keep the old one in the model, as with `Erase(0, cover=True) * 2` under a changed
  `orig_rect`.
- Managers.FoldCovers: folds the stored snapshots. The source calls each bound `get` on the leaf's
  current state, which is the same as the snapshot unless the leaf was re-initialised since.
- Managers.Recover: rebuilds the cover list from freshly initialised copies, while the generator keeps
  playing its own leaves unchanged. In the source `init` mutates the very leaves being played, so a
  pass in flight picks up the re-initialised range.
- Actions.Insert: a group's `list` keyword is a sequence. A group whose `list` is a tuple cannot be
  represented. In the source, `insert` and `append` on such a group raise AttributeError, since a
  tuple has no `insert`, and the `except TypeError` does not catch that. Every group the
  constructors and main.py build holds a Python list.
- Actions.Combine: `>>` and `+` store their operands by reference, both in a new two-child group
  and when appending to a copy. So in the source, a later `b[key] = v` or `b.total = n` on an
  operand shows through the composed action. `*` copies first, but the copy still shares mutable
  keyword values such as a range list. The model's actions are values, so this aliasing cannot be
  shown. main.py never changes an action after composing it, and a manager copies its actions
  before playing them.
- A pass of a Parallel or Sequential group can end within the same tick it started, with another
  pass due. Python then loops forever inside one `send`. The model reports this as an
  `Unterminated` error, because such a pass has no input-dependent behaviour.
- The sprite classes of epg/sprite.py beyond what ActionObject needs are left out. So are the
  scene loop of epg/scene.py and the mixer, font, mask, collision and data modules, which are I/O or
  pygame glue.
- Randomness is a parameter: `random()` is the number u.
- Game.GetSth: `eval` of the chosen name is left out, so the name itself is returned.
- The fish and activity behaviour of main.py is left out.
- `Sky.in_period`, the stars and clouds, and `Game.increase_period` with its `add_activity` are left
  out, because they only drive scenery.
- The level-up message and the score and level images are left out, because they are text rendering.

=== FILE: actions.dfy ===
/**
 * The action algebra of epg/action.py: leaf and special actions, Sequential (AsyncActions) and
 * Parallel (SyncActions) groups, construction with keyword validation, copying, structural
 * equality, and the operators `-`, `~`, `*`, `>>`, `+` with the merge-on-insert rule.
 * Every operator returns a new value; operands are never changed.
 */
module Actions {
  import opened Errors
  import opened Values
  import Py
  import Epg
  import Geometry

  /** The concrete action classes. Call, Clear, Kill, End and Remain are the special (instant) ones. */
  datatype Kind =
    | Delay | Act | Fade | FadeIn | FadeOut | Transform | ScaleBy | ScaleTo | Rotate | Flip
    | MoveBy | MoveTo | Erase | Shake | Call | Clear | Kill | End | Remain

  predicate IsSpecial(k: Kind) {
    k.Call? || k.Clear? || k.Kill? || k.End? || k.Remain?
  }

  /** Identity tokens of the library functions that appear as defaults; user functions use other tokens. */
  const MixInterp: nat := 0
  const ScaleByFunc: nat := 1
  const ScaleFunc: nat := 2
  const RotateFunc: nat := 3
  const SinFunc: nat := 4

  /** Each class's ATTR: the keyword names it accepts, with their defaults. */
  function Defaults(k: Kind): map<string, Val> {
    match k
    case Delay => map[]
    case Act => map["func" := VNone]
    case Fade => map["range" := IntPair(0, 255)]
    case FadeIn => map["range" := IntPair(0, 255)]
    case FadeOut => map["range" := IntPair(255, 0)]
    case Transform => map["range" := IntPair(1, 2), "anchor" := VStr("center"), "func" := VFunc(ScaleByFunc)]
    case ScaleBy => map["range" := IntPair(1, 2), "anchor" := VStr("center"), "func" := VFunc(ScaleByFunc)]
    case ScaleTo => map["range" := IntPair(0, 0), "anchor" := VStr("center"), "func" := VFunc(ScaleFunc)]
    case Rotate => map["range" := IntPair(0, 360), "anchor" := VStr("center"), "func" := VFunc(RotateFunc)]
    case Flip => map["x" := VBool(true), "y" := VBool(false)]
    case MoveBy => map["range" := IntPair(0, 0)]
    case MoveTo => map["range" := IntPair(0, 0), "anchor" := VStr("topleft")]
    case Erase =>
      map["range" := Pair(IntPair(0, 0), IntPair(1, 0)), "anchor" := VStr("topleft"),
          "size" := IntPair(1, 1), "eraser" := VNone, "fill" := VBool(true)]
    case Shake => map["dist" := IntPair(10, 0), "func" := Pair(VFunc(SinFunc), VFunc(SinFunc))]
    case Call => map["func" := VNone]
    case Clear => map[]
    case Kill => map["call_end_func" := VBool(true)]
    case End => map[]
    case Remain => map[]
  }

  /** Each class's COVER: whether its final effect persists by default. */
  predicate DefaultCover(k: Kind) {
    k.Fade? || k.FadeIn? || k.FadeOut? || k.Transform? || k.ScaleBy? || k.ScaleTo? || k.Rotate?
    || k.Flip? || k.MoveBy? || k.MoveTo?
  }

  /** A repeat count: an int, or one of the floats `math.inf`, `-math.inf`, `nan` that `*` can produce. */
  datatype Total = Count(n: int) | PosInf | NegInf | NaN

  predicate TotalTruthy(t: Total) {
    !(t.Count? && t.n == 0)
  }

  /** Python's `i < total`. */
  predicate Below(i: int, t: Total) {
    match t
    case Count(n) => i < n
    case PosInf => true
    case NegInf => false
    case NaN => false
  }

  /** Python's `==` on totals: nan equals nothing. */
  predicate TotalEq(a: Total, b: Total) {
    !a.NaN? && !b.NaN? && a == b
  }

  function Sign(t: Total): int
    requires !t.NaN?
  {
    match t
    case Count(n) => if n > 0 then 1 else if n < 0 then -1 else 0
    case PosInf => 1
    case NegInf => -1
  }

  /** Python's `*` on totals. */
  function TotalTimes(a: Total, b: Total): (r: Total)
    ensures a.Count? && b.Count? ==> r == Count(a.n * b.n)
    ensures r.NaN? <==> a.NaN? || b.NaN? || (!(a.Count? && b.Count?) && Sign(a) * Sign(b) == 0)
  {
    if a.NaN? || b.NaN? then NaN
    else if a.Count? && b.Count? then Count(a.n * b.n)
    else
      var s := Sign(a) * Sign(b);
      if s > 0 then PosInf else if s < 0 then NegInf else NaN
  }

  /** Python's `+` on totals. */
  function TotalPlus(a: Total, b: Total): (r: Total)
    ensures a.Count? && b.Count? ==> r == Count(a.n + b.n)
  {
    match (a, b)
    case (Count(x), Count(y)) => Count(x + y)
    case (NaN, _) => NaN
    case (_, NaN) => NaN
    case (PosInf, NegInf) => NaN
    case (NegInf, PosInf) => NaN
    case (PosInf, _) => PosInf
    case (_, PosInf) => PosInf
    case (NegInf, _) => NegInf
    case (_, NegInf) => NegInf
  }

  /** How many passes `while i < total: ...; i += 1` makes; None when it never stops. */
  function Passes(t: Total): (p: Option<nat>)
    ensures p.None? <==> t.PosInf?
    ensures forall i: nat :: Below(i, t) <==> (p.None? || i < p.value)
  {
    match t
    case Count(n) => Some(if n > 0 then n else 0)
    case PosInf => None
    case NegInf => Some(0)
    case NaN => Some(0)
  }

  /** Repeating a finite action m times, n times over, makes m*n passes. */
  lemma PassesMultiply(m: nat, n: nat)
    ensures Passes(TotalTimes(Count(m), Count(n))) == Some(m * n)
  {
    assert m * n >= 0;
  }

  datatype Mode = Sequential | Parallel   // AsyncActions | SyncActions

  /**
   * An action. A leaf keeps its keyword map `kw`, the snapshot `origKw` that `init` resolves
   * from, and the eraser box Erase's `init` computes. A group keeps its children in order.
   */
  datatype Action =
    | Leaf(kind: Kind, duration: int, interval: int, total: Total, interp: nat, cover: bool,
           kw: map<string, Val>, origKw: map<string, Val>, eraserArea: Option<Geometry.Rect>)
    | Group(mode: Mode, duration: int, interval: int, total: Total, interp: nat, cover: bool,
            children: seq<Action>)

  /**
   * A leaf constructor call `Kind(duration, interval, total, interp, cover, **given)`.
   * A keyword outside the class's ATTR raises; otherwise `kw` is ATTR overlaid with `given`,
   * `origKw` is a snapshot of it, and a falsy `cover` falls back to the class's COVER.
   */
  function Make(kind: Kind, duration: int, interval: int, total: Total, interp: nat, cover: Val,
                given: map<string, Val>): (r: Result<Action>)
    ensures r.Ok? <==> given.Keys <= Defaults(kind).Keys
    ensures r.Err? ==> r.error == InvalidArguments(given.Keys - Defaults(kind).Keys)
    ensures r.Ok? ==> r.value.Leaf? && r.value.kind == kind && r.value.total == total
                      && r.value.duration == duration && r.value.interval == interval
    ensures r.Ok? ==> r.value.kw.Keys == Defaults(kind).Keys && r.value.origKw == r.value.kw
    ensures r.Ok? ==> forall k :: k in given ==> r.value.kw[k] == given[k]
    ensures r.Ok? ==> forall k :: k in Defaults(kind) && k !in given ==> r.value.kw[k] == Defaults(kind)[k]
    ensures r.Ok? ==> (r.value.cover <==> Truthy(cover) || DefaultCover(kind))
  {
    var _ :- Epg.CheckAttr(given.Keys, Defaults(kind).Keys);
    var kw := Defaults(kind) + given;
    Ok(Leaf(kind, duration, interval, total, interp, Truthy(cover) || DefaultCover(kind), kw, kw, None))
  }

  /** `cover=False` cannot switch persistence off for a class whose COVER is set. */
  lemma CoverFalseIsIgnored(kind: Kind, duration: int, interval: int, total: Total, given: map<string, Val>)
    requires DefaultCover(kind) && given.Keys <= Defaults(kind).Keys
    ensures Make(kind, duration, interval, total, MixInterp, VBool(false), given).value.cover
  {
  }

  /** `BaseActions(list=children, total=total)` as the combinators build it. */
  function MakeGroup(mode: Mode, total: Total, children: seq<Action>): Action {
    Group(mode, 0, 0, total, MixInterp, false, children)
  }

  /** `Call(func=f)`: how a plain function operand enters the algebra. */
  function CallOf(f: nat): (a: Action)
    ensures a.Leaf? && a.kind == Call && a.total == Count(1) && a.kw == map["func" := VFunc(f)]
    ensures Make(Call, 0, 0, Count(1), MixInterp, VNone, map["func" := VFunc(f)]) == Ok(a)
  {
    var kw := map["func" := VFunc(f)];
    assert kw.Keys <= Defaults(Call).Keys;
    assert Defaults(Call) + kw == kw;
    Leaf(Call, 0, 0, Count(1), MixInterp, false, kw, kw, None)
  }

  /** `bool(action)`: a leaf needs a non-zero total; a group also needs a non-empty list. */
  predicate IsTruthy(a: Action) {
    match a
    case Leaf(_, _, _, total, _, _, _, _, _) => TotalTruthy(total)
    case Group(_, _, _, total, _, _, children) => TotalTruthy(total) && |children| > 0
  }

  /**
   * `action.copy()`: the constructor re-run on the current keywords, so the copy's snapshot
   * `origKw` is the current `kw`; a group copies every child.
   */
  function Copy(a: Action): (c: Action)
    ensures c.Leaf? == a.Leaf? && c.total == a.total && c.cover == a.cover
    ensures c.duration == a.duration && c.interval == a.interval && c.interp == a.interp
    ensures c.Leaf? ==> c.kind == a.kind && c.kw == a.kw && c.origKw == a.kw && c.eraserArea == None
    ensures c.Group? ==> c.mode == a.mode && |c.children| == |a.children|
    ensures c.Group? ==> forall i :: 0 <= i < |c.children| ==> c.children[i] == Copy(a.children[i])
    decreases a
  {
    match a
    case Leaf(_, _, _, _, _, _, _, _, _) => a.(origKw := a.kw, eraserArea := None)
    case Group(_, _, _, _, _, _, children) =>
      a.(children := seq(|children|, i requires 0 <= i < |children| => Copy(children[i])))
  }

  /** Every leaf's keywords lie within its class's ATTR, so re-running the constructor accepts them. */
  predicate KwValid(a: Action)
    decreases a
  {
    match a
    case Leaf(_, _, _, _, _, _, kw, _, _) => kw.Keys <= Defaults(a.kind).Keys
    case Group(_, _, _, _, _, _, x) => forall k :: 0 <= k < |x| ==> KwValid(x[k])
  }

  /**
   * `copy()` with the constructor's keyword check run again, as the source does: a leaf holding a
   * keyword outside its class's ATTR (one set through `action[key] = v`) raises, and a group
   * raises with the first such child in list order.
   */
  function CopyChecked(a: Action): (r: Result<Action>)
    ensures r.Ok? <==> KwValid(a)
    ensures r.Ok? ==> r.value == Copy(a)
    ensures a.Leaf? && r.Err? ==> r.error == InvalidArguments(a.kw.Keys - Defaults(a.kind).Keys)
    decreases a, 1, 0
  {
    match a
    case Leaf(_, _, _, _, _, _, kw, _, _) =>
      var _ :- Epg.CheckAttr(kw.Keys, Defaults(a.kind).Keys);
      Ok(Copy(a))
    case Group(_, _, _, _, _, _, _) =>
      var _ :- CheckedChildren(a, 0);
      Ok(Copy(a))
  }

  /** The children's copies from index i on, in list order. */
  function CheckedChildren(a: Action, i: nat): (r: Result<()>)
    requires a.Group? && i <= |a.children|
    ensures r.Ok? <==> forall k :: i <= k < |a.children| ==> KwValid(a.children[k])
    decreases a, 0, |a.children| - i
  {
    if i == |a.children| then Ok(())
    else
      var _ :- CopyChecked(a.children[i]);
      CheckedChildren(a, i + 1)
  }

  /** Whatever the constructors build passes the check, and so does any copy of it. */
  lemma MadeIsValid(kind: Kind, duration: int, interval: int, total: Total, interp: nat, cover: Val,
                    given: map<string, Val>)
    requires Make(kind, duration, interval, total, interp, cover, given).Ok?
    ensures CopyChecked(Make(kind, duration, interval, total, interp, cover, given).value).Ok?
  {
  }

  /**
   * Copying and negating keep the keyword sets, so on trees built by the constructors and the
   * operators the check never fires; only `action[key] = v` can make it fire.
   */
  lemma {:induction false} CopyKeepsValid(a: Action)
    ensures KwValid(Copy(a)) <==> KwValid(a)
    decreases a
  {
    if a.Group? {
      forall k | 0 <= k < |a.children| ensures KwValid(Copy(a).children[k]) <==> KwValid(a.children[k]) {
        CopyKeepsValid(a.children[k]);
      }
    }
  }

  lemma {:induction false} NegKeepsValid(a: Action)
    requires Negatable(a)
    ensures KwValid(NegOf(a)) <==> KwValid(a)
    decreases a
  {
    if a.Group? {
      var n := |a.children|;
      forall k | 0 <= k < n ensures KwValid(NegOf(a).children[k]) <==> KwValid(a.children[n - 1 - k]) {
        NegKeepsValid(a.children[n - 1 - k]);
      }
      if KwValid(NegOf(a)) {
        forall k | 0 <= k < n ensures KwValid(a.children[k]) {
          assert KwValid(NegOf(a).children[n - 1 - k]);
        }
      }
    }
  }

  /** A keyword outside the class's ATTR, once set, makes every later copy raise. */
  lemma SetKwBreaksCopy(a: Action, key: string, v: Val)
    requires a.Leaf? && key !in Defaults(a.kind)
    ensures CopyChecked(SetKw(a, key, v)).Err?
    ensures key in CopyChecked(SetKw(a, key, v)).error.bad
  {
  }

  /** Copying a copy changes nothing. */
  lemma {:induction false} CopyIdempotent(a: Action)
    ensures Copy(Copy(a)) == Copy(a)
    decreases a
  {
    if a.Group? {
      var c := Copy(a);
      forall i | 0 <= i < |a.children|
        ensures Copy(c.children[i]) == c.children[i]
      {
        CopyIdempotent(a.children[i]);
      }
      assert Copy(c).children == c.children;
    }
  }

  /**
   * `a == b`: same class, equal keyword maps (a group's list compared element-wise with this
   * same rule), equal interval, duration and interp. `total` and `cover` are ignored.
   */
  predicate Same(a: Action, b: Action)
    decreases a
  {
    match (a, b)
    case (Leaf(_, _, _, _, _, _, _, _, _), Leaf(_, _, _, _, _, _, _, _, _)) =>
      a.kind == b.kind && KwEq(a.kw, b.kw)
      && a.interval == b.interval && a.duration == b.duration && a.interp == b.interp
    case (Group(_, _, _, _, _, _, x), Group(_, _, _, _, _, _, y)) =>
      a.mode == b.mode && |x| == |y| && (forall i :: 0 <= i < |x| ==> Same(x[i], y[i]))
      && a.interval == b.interval && a.duration == b.duration && a.interp == b.interp
    case _ => false
  }

  lemma {:induction false} SameRefl(a: Action)
    ensures Same(a, a)
    decreases a
  {
    match a
    case Leaf(_, _, _, _, _, _, kw, _, _) => KwEqRefl(kw);
    case Group(_, _, _, _, _, _, x) =>
      forall i | 0 <= i < |x| ensures Same(x[i], x[i]) { SameRefl(x[i]); }
  }

  lemma {:induction false} SameSym(a: Action, b: Action)
    requires Same(a, b)
    ensures Same(b, a)
    decreases a
  {
    match (a, b)
    case (Leaf(_, _, _, _, _, _, _, _, _), Leaf(_, _, _, _, _, _, _, _, _)) => KwEqSym(a.kw, b.kw);
    case (Group(_, _, _, _, _, _, x), Group(_, _, _, _, _, _, y)) =>
      forall i | 0 <= i < |y| ensures Same(y[i], x[i]) { SameSym(x[i], y[i]); }
  }

  /** A copy equals (`==`) its original, whatever its total and cover. */
  lemma {:induction false} CopyIsSame(a: Action)
    ensures Same(Copy(a), a)
    decreases a
  {
    match a
    case Leaf(_, _, _, _, _, _, kw, _, _) => KwEqRefl(kw);
    case Group(_, _, _, _, _, _, x) =>
      var c := Copy(a);
      forall i | 0 <= i < |x| ensures Same(c.children[i], x[i]) { CopyIsSame(x[i]); }
  }

  /** Whether `-a` succeeds: every truthy `range` in the tree can be sliced with `[::-1]`. */
  predicate Negatable(a: Action)
    decreases a
  {
    match a
    case Leaf(_, _, _, _, _, _, kw, _, _) => "range" !in kw || !Truthy(kw["range"]) || IsSeq(kw["range"])
    case Group(_, _, _, _, _, _, x) => forall k :: 0 <= k < |x| ==> Negatable(x[k])
  }

  /**
   * Unary `-`. A leaf is copied and a truthy `range` reversed; only `kw` changes, so the copy's
   * snapshot keeps the unreversed range. A group is copied, its list reversed and every child
   * negated. A range that cannot be sliced raises.
   */
  function Neg(a: Action): (r: Result<Action>)
    ensures r.Ok? <==> Negatable(a)
    ensures r.Err? ==> r.error == TypeError
    ensures r.Ok? ==> r.value == NegOf(a)
  {
    if Negatable(a) then Ok(NegOf(a)) else Err(TypeError)
  }

  function NegOf(a: Action): (r: Action)
    requires Negatable(a)
    ensures r.Leaf? == a.Leaf? && r.total == a.total && r.cover == a.cover
    ensures r.duration == a.duration && r.interval == a.interval && r.interp == a.interp
    ensures r.Leaf? ==> r.kind == a.kind && r.origKw == a.kw && r.eraserArea == None
    ensures r.Leaf? && "range" in a.kw && Truthy(a.kw["range"]) ==>
              r.kw == a.kw["range" := Reversed(a.kw["range"]).value] && Truthy(r.kw["range"])
    ensures r.Leaf? && !("range" in a.kw && Truthy(a.kw["range"])) ==> r.kw == a.kw
    ensures r.Group? ==> r.mode == a.mode && |r.children| == |a.children|
    ensures r.Group? ==> forall k :: 0 <= k < |r.children| ==> r.children[k] == NegOf(a.children[|a.children| - 1 - k])
    decreases a
  {
    match a
    case Leaf(_, _, _, _, _, _, kw, _, _) =>
      // the copy's snapshot is the current kw; the copy's group list is replaced below anyway
      var kw' := if "range" in kw && Truthy(kw["range"]) then kw["range" := Reversed(kw["range"]).value] else kw;
      a.(kw := kw', origKw := kw, eraserArea := None)
    case Group(_, _, _, _, _, _, x) =>
      a.(children := seq(|x|, k requires 0 <= k < |x| => NegOf(x[|x| - 1 - k])))
  }

  /** The source negates the copied children; negating a copy is negating the original. */
  lemma {:induction false} NegOfCopy(a: Action)
    requires Negatable(a)
    ensures Negatable(Copy(a)) && NegOf(Copy(a)) == NegOf(a)
    decreases a
  {
    if a.Group? {
      var c := Copy(a);
      var n := |a.children|;
      forall k | 0 <= k < n
        ensures Negatable(c.children[k]) && NegOf(c.children[k]) == NegOf(a.children[k])
      {
        NegOfCopy(a.children[k]);
      }
      assert NegOf(c).children == NegOf(a).children;
    }
  }

  /** Unary `~`: a leaf behaves as `-`; a group is copied with its list reversed. */
  function Invert(a: Action): (r: Result<Action>)
    ensures a.Leaf? ==> r == Neg(a)
    ensures a.Group? ==> r.Ok? && r.value.Group? && r.value.mode == a.mode && r.value.total == a.total
                         && r.value.children == Py.Reverse(Copy(a).children)
  {
    match a
    case Leaf(_, _, _, _, _, _, _, _, _) => Neg(a)
    case Group(_, _, _, _, _, _, _) =>
      var c := Copy(a);
      Ok(c.(children := Py.Reverse(c.children)))
  }

  /** `~~g` is a plain copy of the group: the child order is restored. */
  lemma InvertInvertGroup(g: Action)
    requires g.Group?
    ensures Invert(Invert(g).value) == Ok(Copy(g))
  {
    var c := Copy(g);
    var i1 := c.(children := Py.Reverse(c.children));
    CopyIdempotent(g);
    assert Copy(i1).children == i1.children by {
      forall k | 0 <= k < |i1.children|
        ensures Copy(i1.children[k]) == i1.children[k]
      {
        CopyIdempotent(g.children[|g.children| - 1 - k]);
      }
    }
    Py.ReverseReverse(c.children);
  }

  /**
   * `--a` restores `a`: after the copy every playback takes, it is indistinguishable from `a`
   * (same keywords and ranges at every leaf, same child order).
   */
  lemma {:induction false} NegNeg(a: Action)
    requires Negatable(a)
    ensures Negatable(NegOf(a))
    ensures Copy(NegOf(NegOf(a))) == Copy(a)
    decreases a, 1
  {
    if a.Leaf? {
      NegNegLeaf(a);
    } else {
      NegNegGroup(a);
    }
  }

  lemma NegNegLeaf(a: Action)
    requires a.Leaf? && Negatable(a)
    ensures Negatable(NegOf(a))
    ensures Copy(NegOf(NegOf(a))) == Copy(a)
  {
    var kw := a.kw;
    if "range" in kw && Truthy(kw["range"]) {
      ReversedTwice(kw["range"]);
      assert kw["range" := kw["range"]] == kw;
    }
  }

  lemma {:induction false} NegNegGroup(a: Action)
    requires a.Group? && Negatable(a)
    ensures Negatable(NegOf(a))
    ensures Copy(NegOf(NegOf(a))) == Copy(a)
    decreases a, 0
  {
    var x := a.children;
    var n := |x|;
    var n1 := NegOf(a);
    forall k | 0 <= k < n
      ensures Negatable(n1.children[k])
      ensures Copy(NegOf(n1.children[k])) == Copy(x[n - 1 - k])
    {
      NegNeg(x[n - 1 - k]);
    }
    var n2 := NegOf(n1);
    forall j | 0 <= j < n
      ensures Copy(n2.children[j]) == Copy(x[j])
    {
      assert n2.children[j] == NegOf(n1.children[n - 1 - j]);
    }
    assert Copy(n2).children == Copy(a).children;
  }

  /** `a * n`: a copy whose total is multiplied by n. */
  function Mul(a: Action, n: Total): (r: Action)
    ensures r.total == TotalTimes(a.total, n)
    ensures Same(r, a) && r.cover == a.cover
    ensures r.(total := a.total) == Copy(a)
  {
    SameIgnoresTotal(a, Copy(a), TotalTimes(a.total, n));
    Copy(a).(total := TotalTimes(a.total, n))
  }

  /** `==` does not look at `total`. */
  lemma SameIgnoresTotal(a: Action, c: Action, t: Total)
    requires c == Copy(a)
    ensures Same(c.(total := t), a)
  {
    CopyIsSame(a);
    match a
    case Leaf(_, _, _, _, _, _, _, _, _) =>
    case Group(_, _, _, _, _, _, x) =>
      forall i | 0 <= i < |x| ensures Same(c.children[i], x[i]) { CopyIsSame(x[i]); }
  }

  /** An operand of `>>` or `+`: an action, or a plain callable (a function token). */
  datatype Operand = Action(a: Action) | Callable(f: nat)

  function AsAction(o: Operand): (a: Action)
    ensures o.Callable? ==> a == CallOf(o.f)
  {
    match o
    case Action(a) => a
    case Callable(f) => CallOf(f)
  }

  /**
   * `list.insert(index, action)` followed by the merge rule: a negative index counts from the
   * end; when the new action `==` its immediate predecessor, the predecessor's total grows by the
   * new total and the insertion is undone. An index past the end raises.
   */
  function Insert(lst: seq<Action>, index: int, a: Action): (r: Result<seq<Action>>)
    ensures var idx := if index < 0 then |lst| + index else index;
            r.Err? <==> idx > |lst|
    ensures r.Ok? ==> |lst| <= |r.value| <= |lst| + 1
    ensures var idx := if index < 0 then |lst| + index else index;
            1 <= idx <= |lst| && Same(lst[idx - 1], a) ==>
              r == Ok(lst[..idx - 1] + [lst[idx - 1].(total := TotalPlus(lst[idx - 1].total, a.total))] + lst[idx..])
    ensures var idx := if index < 0 then |lst| + index else index;
            var pos := if idx < 0 then (if |lst| + idx < 0 then 0 else |lst| + idx) else idx;
            idx <= |lst| && !(1 <= idx && Same(lst[idx - 1], a)) ==> r == Ok(lst[..pos] + [a] + lst[pos..])
  {
    var n := |lst|;
    var idx := if index < 0 then n + index else index;
    // Python's list.insert clamps the position into [0, n].
    var pos := if idx < 0 then (if n + idx < 0 then 0 else n + idx) else (if idx > n then n else idx);
    var ins := lst[..pos] + [a] + lst[pos..];
    if idx > 0 then
      if idx - 1 < |ins| then
        var last := ins[idx - 1];
        if Same(last, a) then
          if idx < |ins| then
            InsertedAround(lst, idx, a);
            Ok(ins[..idx - 1] + [last.(total := TotalPlus(last.total, a.total))] + ins[idx + 1..])
          else Err(IndexError)   // idx == n + 1: the new action meets itself, then `pop` fails
        else
          SelfMeets(lst, pos, a);
          Ok(ins)
      else Err(IndexError)
    else Ok(ins)
  }

  /**
   * An insertion is undone in one of two ways: either the list grew by one and removing the new
   * action at its landing position gives the old list back, or the list kept its length and only
   * the total of the `==` predecessor grew by the new action's total.
   */
  lemma InsertUndone(lst: seq<Action>, index: int, a: Action)
    requires Insert(lst, index, a).Ok?
    ensures var r := Insert(lst, index, a).value;
            var idx := if index < 0 then |lst| + index else index;
            var pos := if idx < 0 then (if |lst| + idx < 0 then 0 else |lst| + idx) else idx;
            (|r| == |lst| + 1 ==> 0 <= pos < |r| && r[pos] == a && r[..pos] + r[pos + 1..] == lst)
            && (|r| == |lst| ==> 1 <= idx <= |lst| && Same(lst[idx - 1], a)
                                 && r == lst[idx - 1 := lst[idx - 1].(total := TotalPlus(lst[idx - 1].total, a.total))])
  {
    var r := Insert(lst, index, a).value;
    var idx := if index < 0 then |lst| + index else index;
    var pos := if idx < 0 then (if |lst| + idx < 0 then 0 else |lst| + idx) else idx;
    if 1 <= idx && Same(lst[idx - 1], a) {
      var p := idx - 1;
      SpliceIsUpdate(lst, p, lst[p].(total := TotalPlus(lst[p].total, a.total)));
    } else {
      RemoveInserted(lst, pos, a);
    }
  }

  lemma SpliceIsUpdate(lst: seq<Action>, p: int, m: Action)
    requires 0 <= p < |lst|
    ensures lst[..p] + [m] + lst[p + 1..] == lst[p := m]
  {
  }

  lemma RemoveInserted(lst: seq<Action>, pos: int, a: Action)
    requires 0 <= pos <= |lst|
    ensures var ins := lst[..pos] + [a] + lst[pos..];
            ins[pos] == a && ins[..pos] + ins[pos + 1..] == lst
  {
    var ins := lst[..pos] + [a] + lst[pos..];
    assert ins[..pos] == lst[..pos] && ins[pos + 1..] == lst[pos..];
  }

  /** Around an insertion at pos, the list is the old one on either side of the new action. */
  lemma InsertedAround(lst: seq<Action>, pos: int, a: Action)
    requires 1 <= pos <= |lst|
    ensures var ins := lst[..pos] + [a] + lst[pos..];
            ins[..pos - 1] == lst[..pos - 1] && ins[pos - 1] == lst[pos - 1] && ins[pos + 1..] == lst[pos..]
  {
  }

  /** Past the end (idx == n + 1) the inserted action is its own predecessor, which it `==`. */
  lemma SelfMeets(lst: seq<Action>, pos: int, a: Action)
    requires 0 <= pos <= |lst|
    ensures (lst[..pos] + [a] + lst[pos..])[pos] == a && Same(a, a)
  {
    SameRefl(a);
  }

  /**
   * `append(action)`: the merge rule applied at the end. The list grows by one unless the last
   * element `==` the new action, in which case only that element's total changes.
   */
  function Append(lst: seq<Action>, a: Action): (r: seq<Action>)
    ensures var merged := |lst| > 0 && Same(lst[|lst| - 1], a);
            && (merged ==> |r| == |lst| && r[..|lst| - 1] == lst[..|lst| - 1]
                           && r[|lst| - 1] == lst[|lst| - 1].(total := TotalPlus(lst[|lst| - 1].total, a.total)))
            && (!merged ==> r == lst + [a])
  {
    var r := Insert(lst, |lst|, a);
    assert lst[..|lst|] + [a] + lst[|lst|..] == lst + [a];
    r.value
  }

  /** Appending never grows a list by more than one, and an `==` neighbour is never duplicated. */
  lemma AppendNeverDuplicates(lst: seq<Action>, a: Action)
    requires |lst| > 0 && Same(lst[|lst| - 1], a)
    ensures |Append(lst, a)| == |lst|
  {
  }

  /**
   * `x.combine(cls, y)` behind `>>` (Sequential) and `+` (Parallel). A callable becomes
   * `Call(func=...)`; a leaf is first wrapped in a one-child group of `mode` carrying the leaf's
   * own total. A group of the requested mode whose total equals the operand's is copied and the
   * operand appended (merge rule included); anything else becomes a new two-child group of total 1.
   */
  function Combine(x: Action, mode: Mode, y: Operand): (r: Action)
    ensures r.Group? && r.mode == mode
    ensures var base := Base(x, mode); var v := AsAction(y);
            if base.mode == mode && TotalEq(v.total, base.total)
            then r.total == base.total && r.children == Append(Copy(base).children, v)
            else r.total == Count(1) && r.children == [base, v]
  {
    var v := AsAction(y);
    var self := Base(x, mode);
    if TotalEq(v.total, self.total) && self.mode == mode then
      var c := Copy(self);
      c.(children := Append(c.children, v))
    else MakeGroup(mode, Count(1), [self, v])
  }

  /** The group `combine` works on: a group itself, or a leaf wrapped with its own total. */
  function Base(x: Action, mode: Mode): (g: Action)
    ensures g.Group?
    ensures x.Leaf? ==> g == MakeGroup(mode, x.total, [x])
    ensures x.Group? ==> g == x
  {
    if x.Leaf? then MakeGroup(mode, x.total, [x]) else x
  }

  /** `x >> y`. */
  function Then(x: Action, y: Operand): Action {
    Combine(x, Sequential, y)
  }

  /** `x + y`. */
  function With(x: Action, y: Operand): Action {
    Combine(x, Parallel, y)
  }

  /** `f >> x` with a plain function f reuses `x.__rshift__`, so f runs after x, not before. */
  function ThenReflected(f: nat, x: Action): (r: Action)
    ensures r.Group? && r.mode == Sequential && |r.children| >= 1
    ensures var last := r.children[|r.children| - 1]; last.Leaf? && last.kind == Call && Same(last, CallOf(f))
  {
    LastIsCall(x, f);
    Combine(x, Sequential, Callable(f))
  }

  lemma LastIsCall(x: Action, f: nat)
    ensures var r := Combine(x, Sequential, Callable(f));
            |r.children| >= 1 && var last := r.children[|r.children| - 1];
            last.Leaf? && last.kind == Call && Same(last, CallOf(f))
  {
    var base := Base(x, Sequential);
    var v := CallOf(f);
    var r := Combine(x, Sequential, Callable(f));
    assert AsAction(Callable(f)) == v;
    SameRefl(v);
    if base.mode == Sequential && TotalEq(v.total, base.total) {
      var kids := Copy(base).children;
      assert r.children == Append(kids, v);
      if |kids| > 0 && Same(kids[|kids| - 1], v) {
        // the merged predecessor is an `==` Call of f; only its total changed
        var m := kids[|kids| - 1];
        assert m.Leaf? && m.kind == Call;
      } else {
        assert r.children == kids + [v];
      }
    } else {
      assert r.children == [base, v];
    }
  }

  /** `extend` reads an attribute groups never have, so it always raises. */
  function Extend(g: Action, xs: seq<Action>): (r: Result<Action>)
    ensures r == Err(AttributeError)
  {
    Err(AttributeError)
  }

  /** `BaseActions.all`: the leaves of a tree, left to right. */
  function Leaves(a: Action): (r: seq<Action>)
    ensures forall l :: l in r ==> l.Leaf?
    ensures a.Leaf? ==> r == [a]
    decreases a
  {
    match a
    case Leaf(_, _, _, _, _, _, _, _, _) => [a]
    case Group(_, _, _, _, _, _, x) => LeavesOf(a, 0)
  }

  function LeavesOf(a: Action, i: nat): (r: seq<Action>)
    requires a.Group? && i <= |a.children|
    ensures forall l :: l in r ==> l.Leaf?
    decreases a, |a.children| - i
  {
    if i == |a.children| then [] else Leaves(a.children[i]) + LeavesOf(a, i + 1)
  }

  /** The leaves of a list of trees: each tree's leaves in turn, as `extend` builds them. */
  function LeavesAll(xs: seq<Action>): (r: seq<Action>)
    ensures forall l :: l in r ==> l.Leaf?
  {
    if |xs| == 0 then [] else Leaves(xs[0]) + LeavesAll(xs[1..])
  }

  /** A group's leaves are its children's leaves, child after child, nested groups flattened. */
  lemma LeavesInOrder(g: Action)
    requires g.Group?
    ensures Leaves(g) == LeavesAll(g.children)
    ensures |g.children| > 0 ==> Leaves(g) == Leaves(g.children[0]) + LeavesAll(g.children[1..])
  {
    LeavesOfSuffix(g, 0);
  }

  lemma {:induction false} LeavesOfSuffix(g: Action, i: nat)
    requires g.Group? && i <= |g.children|
    ensures LeavesOf(g, i) == LeavesAll(g.children[i..])
    decreases |g.children| - i
  {
    if i < |g.children| {
      LeavesOfSuffix(g, i + 1);
      assert g.children[i..][1..] == g.children[i + 1..];
    }
  }

  lemma {:induction false} LeavesAllConcat(x: seq<Action>, y: seq<Action>)
    ensures LeavesAll(x + y) == LeavesAll(x) + LeavesAll(y)
    decreases |x|
  {
    if |x| > 0 {
      assert (x + y)[1..] == x[1..] + y;
      LeavesAllConcat(x[1..], y);
    } else {
      assert x + y == y;
    }
  }

  /** t lists the elements of s in reverse order, each negated. */
  predicate RevNeg(s: seq<Action>, t: seq<Action>) {
    |s| == |t| && (forall k :: 0 <= k < |s| ==> Negatable(s[k]))
    && forall k :: 0 <= k < |s| ==> t[k] == NegOf(s[|s| - 1 - k])
  }

  lemma RevNegConcat(s0: seq<Action>, t0: seq<Action>, s1: seq<Action>, t1: seq<Action>)
    requires RevNeg(s0, t0) && RevNeg(s1, t1)
    ensures RevNeg(s0 + s1, t1 + t0)
  {
    var s, t := s0 + s1, t1 + t0;
    forall k | 0 <= k < |s| ensures Negatable(s[k]) {
      if k < |s0| { assert s[k] == s0[k]; } else { assert s[k] == s1[k - |s0|]; }
    }
    forall k | 0 <= k < |s| ensures t[k] == NegOf(s[|s| - 1 - k]) {
      if k < |t1| {
        assert t[k] == t1[k] && s[|s| - 1 - k] == s1[|s1| - 1 - k];
      } else {
        assert t[k] == t0[k - |t1|] && s[|s| - 1 - k] == s0[|s0| - 1 - (k - |t1|)];
      }
    }
  }

  /** Unary `-` on a tree plays its leaves backwards, each of them negated. */
  lemma {:induction false} NegReversesLeaves(a: Action)
    requires Negatable(a)
    ensures RevNeg(Leaves(a), Leaves(NegOf(a)))
    decreases a
  {
    if a.Group? {
      var x, y := a.children, NegOf(a).children;
      forall k | 0 <= k < |x| ensures RevNeg(Leaves(x[k]), Leaves(NegOf(x[k]))) {
        NegReversesLeaves(x[k]);
      }
      LeavesInOrder(a);
      LeavesInOrder(NegOf(a));
      NegReversesLeavesAll(x, y);
    }
  }

  lemma {:induction false} NegReversesLeavesAll(x: seq<Action>, y: seq<Action>)
    requires |x| == |y| && forall k :: 0 <= k < |x| ==> Negatable(x[k])
    requires forall k :: 0 <= k < |x| ==> y[k] == NegOf(x[|x| - 1 - k])
    requires forall k :: 0 <= k < |x| ==> RevNeg(Leaves(x[k]), Leaves(NegOf(x[k])))
    ensures RevNeg(LeavesAll(x), LeavesAll(y))
    decreases |x|
  {
    if |x| > 0 {
      var n := |x|;
      var y' := y[..n - 1];
      assert y == y' + [y[n - 1]] && y[n - 1] == NegOf(x[0]);
      forall k | 0 <= k < n - 1 ensures y'[k] == NegOf(x[1..][n - 2 - k]) {
        assert x[1..][n - 2 - k] == x[n - 1 - k];
      }
      NegReversesLeavesAll(x[1..], y');
      LeavesAllConcat(y', [y[n - 1]]);
      assert LeavesAll([y[n - 1]]) == Leaves(y[n - 1]) by {
        assert [y[n - 1]][1..] == [];
      }
      RevNegConcat(Leaves(x[0]), Leaves(NegOf(x[0])), LeavesAll(x[1..]), LeavesAll(y'));
    }
  }

  /** `action[key]`. */
  function GetKw(a: Action, key: string): (r: Result<Val>)
    requires a.Leaf?
    ensures r.Ok? <==> key in a.kw
  {
    if key in a.kw then Ok(a.kw[key]) else Err(KeyError)
  }

  /** `action[key] = v`: no keyword validation, and the snapshot is left alone. */
  function SetKw(a: Action, key: string, v: Val): (r: Action)
    requires a.Leaf?
    ensures r.Leaf? && r.kw.Keys == a.kw.Keys + {key} && r.kw[key] == v
    ensures forall k :: k in a.kw && k != key ==> r.kw[k] == a.kw[k]
    ensures r.origKw == a.origKw
  {
    a.(kw := a.kw[key := v])
  }
}

=== FILE: effects.dfy ===
/**
 * What a leaf action does to the (image, rect) it is sent: the start-value resolution of `init`
 * and the per-frame `get` of epg/action.py. Images are symbolic terms recording the effects
 * applied; rects are integer boxes.
 */
module Effects {
  import opened Errors
  import opened Values
  import Py
  import Mixing
  import opened Geometry
  import opened Actions

  /** A surface as the record of the effects that produced it. */
  datatype Image =
    | Source(id: nat)
    | Alpha(src: Image, alpha: Val)                     // a copy with `set_alpha`
    | Transformed(func: nat, src: Image, arg: Val)      // `func(surface, arg)`
    | Flipped(src: Image, x: Val, y: Val)
    | Erased(src: Image, area: Rect, fill: bool, stamp: Option<Val>)  // cleared, then stamped

  /** The (image, rect) pair a sprite shows and actions transform. */
  datatype Frame = Frame(image: Image, rect: Rect)

  /**
   * What the engine reads from the sprite and from code outside the model: the original image
   * and rect, the size of a transformed surface, the periodic functions of Shake evaluated at
   * pos·τ, and any interpolation function other than `mix`, applied to the unpacked range and pos.
   */
  datatype Env = Env(origImage: Image, origRect: Rect,
                     sizeOf: Image -> (int, int),
                     wave: (nat, real) -> real,
                     interp: (nat, seq<Val>, Val) -> Result<Val>)

  /** Calls the engine makes into user code and into the sprite. */
  datatype Event = Called(func: nat) | Acted(func: nat, pos: Val) | EndCalled | Killed | Ended

  /** The frame positions `get` receives: the ints 0 and 1 at the ends, a fraction in between. */
  predicate IsPos(pos: Val) {
    IsNumber(pos)
  }

  /** `isinstance(kw["range"][0], int)`. */
  function LeadsWithInt(kw: map<string, Val>): (r: Result<bool>)
    ensures r.Ok? <==> "range" in kw && Item(kw["range"], 0).Ok?
    ensures r.Ok? ==> r.value == IsIntLike(Item(kw["range"], 0).value)
  {
    if "range" !in kw then Err(KeyError)
    else
      var first :- Item(kw["range"], 0);
      Ok(IsIntLike(first))
  }

  /**
   * One step of the endpoint loop of MoveTo/ScaleTo `init`: a falsy endpoint i of the candidate
   * range x makes `kw["range"]` a fresh list of x with endpoint i replaced by `fill`.
   */
  function ResolveEndpoint(kw: map<string, Val>, x: Val, i: nat, fill: Result<Val>): (r: Result<map<string, Val>>)
    ensures Item(x, i).Ok? && Truthy(Item(x, i).value) ==> r == Ok(kw)
    ensures Item(x, i).Ok? && !Truthy(Item(x, i).value) && fill.Ok? ==>
              r.Ok? && i < |Elements(x)| && r.value == kw["range" := VList(Elements(x)[i := fill.value])]
    ensures Item(x, i).Err? ==> r.Err?
  {
    var xi :- Item(x, i);
    if Truthy(xi) then Ok(kw)
    else
      var v :- fill;
      Ok(kw["range" := VList(Elements(x)[i := v])])
  }

  /**
   * MoveTo/ScaleTo `init`: an int-led original range r becomes the candidate [None, r]; then each
   * falsy endpoint of the candidate, in order, is filled from the sprite's original rect. Each
   * replacement starts again from the candidate, so when both are falsy only the last survives.
   */
  function InitEndpoints(a: Action, fill: Result<Val>): (r: Result<Action>)
    requires a.Leaf?
    ensures r.Ok? ==> r.value.Leaf? && r.value == a.(kw := r.value.kw) && r.value.kw.Keys <= a.kw.Keys + {"range"}
    ensures r.Ok? ==> forall k :: k in a.kw && k != "range" ==> k in r.value.kw && r.value.kw[k] == a.kw[k]
  {
    var intLed :- LeadsWithInt(a.origKw);
    var x := if intLed then VList([VNone, a.origKw["range"]]) else a.origKw["range"];
    var k0 :- ResolveEndpoint(a.kw, x, 0, fill);
    var k1 :- ResolveEndpoint(k0, x, 1, fill);
    Ok(a.(kw := k1))
  }

  /** `getattr(rect, name)` for an attribute name held in a keyword value. */
  function AttrOf(name: Val): (r: Result<Attr>)
    ensures r.Ok? <==> name.VStr? && ParseAttr(name.s).Some?
    ensures r.Ok? ==> r.value == ParseAttr(name.s).value
  {
    if !name.VStr? then Err(TypeError)
    else match ParseAttr(name.s)
      case Some(at) => Ok(at)
      case None => Err(AttributeError)
  }

  function Kw(a: Action, key: string): (r: Result<Val>)
    requires a.Leaf?
    ensures r.Ok? <==> key in a.kw
    ensures r.Ok? ==> r.value == a.kw[key]
  {
    if key in a.kw then Ok(a.kw[key]) else Err(KeyError)
  }

  /** MoveBy `init`: an int-led original range (an offset) becomes ((0, 0), offset). */
  function InitMoveBy(a: Action): (r: Result<Action>)
    requires a.Leaf?
    ensures r.Ok? <==> LeadsWithInt(a.origKw).Ok?
    ensures r.Ok? && LeadsWithInt(a.origKw).value ==>
              r.value == a.(kw := a.kw["range" := Pair(IntPair(0, 0), a.origKw["range"])])
    ensures r.Ok? && !LeadsWithInt(a.origKw).value ==> r.value == a
  {
    var intLed :- LeadsWithInt(a.origKw);
    if intLed then Ok(a.(kw := a.kw["range" := Pair(IntPair(0, 0), a.origKw["range"])])) else Ok(a)
  }

  /** `(y[0] * sz[0], y[1] * sz[1])`: a fraction pair scaled by a size. */
  function ScalePair(y: Val, w: int, h: int): (r: Result<Val>)
    ensures r.Ok? ==> r.value.VTuple? && |r.value.items| == 2
    ensures y.VTuple? && |y.items| == 2 && IsNumber(y.items[0]) && IsNumber(y.items[1]) ==>
              r.Ok? && IsNumber(r.value.items[0]) && IsNumber(r.value.items[1])
              && NumValue(r.value.items[0]) == NumValue(y.items[0]) * w as real
              && NumValue(r.value.items[1]) == NumValue(y.items[1]) * h as real
  {
    var y0 :- Item(y, 0);
    var p0 :- Times(y0, VInt(w));
    var y1 :- Item(y, 1);
    var p1 :- Times(y1, VInt(h));
    Ok(Pair(p0, p1))
  }

  /**
   * Erase `init`: the eraser box is `size` scaled by the sprite's original size, and the first
   * two entries of a list copy of the current range become the original range's endpoints
   * scaled the same way.
   */
  function InitErase(a: Action, env: Env): (r: Result<Action>)
    requires a.Leaf?
    ensures r.Ok? ==> r.value.Leaf? && r.value.eraserArea.Some?
                      && r.value.eraserArea.value.x == 0 && r.value.eraserArea.value.y == 0
    ensures r.Ok? ==> r.value == a.(kw := r.value.kw, eraserArea := r.value.eraserArea)
    ensures r.Ok? ==> "range" in r.value.kw && r.value.kw["range"].VList? && |r.value.kw["range"].items| >= 2
    ensures r.Ok? ==> forall k :: k in a.kw && k != "range" ==> k in r.value.kw && r.value.kw[k] == a.kw[k]
  {
    var w, h := env.origRect.w, env.origRect.h;
    var x :- Kw(a.(kw := a.origKw), "size");
    var x0 :- Item(x, 0);
    var bw :- Times(x0, VInt(w));
    var x1 :- Item(x, 1);
    var bh :- Times(x1, VInt(h));
    var ew :- Coord(bw);
    var eh :- Coord(bh);
    var cur :- Kw(a, "range");
    if !IsSeq(cur) then Err(TypeError)
    else
      var orig :- Kw(a.(kw := a.origKw), "range");
      var y0 :- Item(orig, 0);
      var s0 :- ScalePair(y0, w, h);
      var l0 := Elements(cur);
      if |l0| < 1 then Err(IndexError)
      else
        var y1 :- Item(orig, 1);
        var s1 :- ScalePair(y1, w, h);
        if |l0| < 2 then Err(IndexError)
        else Ok(a.(kw := a.kw["range" := VList(l0[0 := s0][1 := s1])], eraserArea := Some(Rect(0, 0, ew, eh))))
  }

  /** `init(sprite)`: resolve the start values a pass plays from. Other kinds do nothing. */
  function Init(a: Action, env: Env): (r: Result<Action>)
    requires a.Leaf?
    ensures r.Ok? ==> r.value.Leaf? && r.value.kind == a.kind && r.value.origKw == a.origKw
    ensures r.Ok? ==> r.value.total == a.total && r.value.duration == a.duration && r.value.interval == a.interval
    ensures r.Ok? ==> r.value.cover == a.cover && r.value.interp == a.interp
    ensures !(a.kind.MoveBy? || a.kind.MoveTo? || a.kind.ScaleTo? || a.kind.Erase?) ==> r == Ok(a)
  {
    match a.kind
    case MoveBy => InitMoveBy(a)
    case ScaleTo => InitEndpoints(a, Ok(SizeOf(env.origRect)))
    case MoveTo =>
      var fill := (var name :- Kw(a, "anchor"); var at :- AttrOf(name); Ok(GetAttr(env.origRect, at)));
      InitEndpoints(a, fill)
    case Erase => InitErase(a, env)
    case _ => Ok(a)
  }

  /**
   * `init` reads only `orig_kw`, the sprite's original rect and keywords it does not write, so
   * running it again on its own result changes nothing: every pass resolves the same start values.
   */
  lemma InitIdempotent(a: Action, env: Env)
    requires a.Leaf? && Init(a, env).Ok?
    ensures Init(Init(a, env).value, env) == Init(a, env)
  {
    var b := Init(a, env).value;
    match a.kind
    case MoveBy =>
      if LeadsWithInt(a.origKw).value {
        assert b.kw["range" := Pair(IntPair(0, 0), a.origKw["range"])] == b.kw;
      }
    case ScaleTo => InitEndpointsIdempotent(a, Ok(SizeOf(env.origRect)));
    case MoveTo =>
      var fill := (var name :- Kw(a, "anchor"); var at :- AttrOf(name); Ok(GetAttr(env.origRect, at)));
      assert "anchor" in a.kw ==> "anchor" in b.kw && b.kw["anchor"] == a.kw["anchor"];
      InitEndpointsIdempotent(a, fill);
    case Erase => InitEraseIdempotent(a, env);
    case _ =>
  }

  lemma InitEndpointsIdempotent(a: Action, fill: Result<Val>)
    requires a.Leaf? && InitEndpoints(a, fill).Ok?
    ensures InitEndpoints(InitEndpoints(a, fill).value, fill) == InitEndpoints(a, fill)
  {
    var b := InitEndpoints(a, fill).value;
    var x := if LeadsWithInt(a.origKw).value then VList([VNone, a.origKw["range"]]) else a.origKw["range"];
    var k0 := ResolveEndpoint(a.kw, x, 0, fill).value;
    var k1 := ResolveEndpoint(k0, x, 1, fill).value;
    assert b.kw == k1;
    var j0 := ResolveEndpoint(k1, x, 0, fill).value;
    var j1 := ResolveEndpoint(j0, x, 1, fill).value;
    if Truthy(Item(x, 1).value) {
      if Truthy(Item(x, 0).value) {
        assert j1 == k1;
      } else {
        assert k1 == k0 && j0 == k0["range" := VList(Elements(x)[0 := fill.value])];
        assert j0 == k0;
      }
    } else {
      assert j1 == j0["range" := VList(Elements(x)[1 := fill.value])];
      assert k1 == k0["range" := VList(Elements(x)[1 := fill.value])];
      assert j1 == k1;
    }
  }

  lemma InitEraseIdempotent(a: Action, env: Env)
    requires a.Leaf? && InitErase(a, env).Ok?
    ensures InitErase(InitErase(a, env).value, env) == InitErase(a, env)
  {
    var b := InitErase(a, env).value;
    var l := b.kw["range"].items;
    assert Elements(VList(l)) == l;
    assert l[0 := l[0]][1 := l[1]] == l;
    assert b.kw["range" := VList(l)] == b.kw;
  }

  /** Both endpoints falsy: the second endpoint is filled and the first is left falsy. */
  lemma OnlyLastFalsyEndpointFilled(a: Action, fill: Val)
    requires a.Leaf? && "range" in a.origKw
    requires a.origKw["range"].VTuple? && |a.origKw["range"].items| == 2
    requires !Truthy(a.origKw["range"].items[0]) && !Truthy(a.origKw["range"].items[1])
    requires !IsIntLike(a.origKw["range"].items[0])
    ensures InitEndpoints(a, Ok(fill)).Ok?
    ensures InitEndpoints(a, Ok(fill)).value.kw["range"] == VList([a.origKw["range"].items[0], fill])
  {
    var x := a.origKw["range"];
    assert Elements(x)[1 := fill] == [x.items[0], fill];
  }

  /** An int-led original range r resolves to [value from the original rect, r]. */
  lemma IntLedEndpointFromOrigin(a: Action, fill: Val)
    requires a.Leaf? && "range" in a.origKw && IsSeq(a.origKw["range"]) && |Elements(a.origKw["range"])| > 0
    requires IsIntLike(Elements(a.origKw["range"])[0])
    ensures InitEndpoints(a, Ok(fill)).Ok?
    ensures InitEndpoints(a, Ok(fill)).value.kw["range"] == VList([fill, a.origKw["range"]])
  {
    var r := a.origKw["range"];
    var x := VList([VNone, r]);
    assert Truthy(r);
    assert Elements(x)[0 := fill] == [fill, r];
  }

  /**
   * `get_mixture(pos)`: the interpolation function applied to the unpacked range and pos. With
   * `mix`, a one-element range r means `mix(r, pos)`, that is the point halfway from r to pos.
   */
  function Mixture(a: Action, pos: Val, env: Env): (r: Result<Val>)
    requires a.Leaf? && IsPos(pos)
    ensures a.interp == MixInterp && "range" in a.kw && a.kw["range"].VTuple? && |a.kw["range"].items| == 2 ==>
              r == Mixing.MixVal(a.kw["range"].items[0], a.kw["range"].items[1], pos)
    ensures a.interp == MixInterp && "range" in a.kw && IsSeq(a.kw["range"]) && |Elements(a.kw["range"])| == 1 ==>
              r == Mixing.MixVal(Elements(a.kw["range"])[0], pos, VReal(0.5))
    ensures "range" !in a.kw ==> r == Err(KeyError)
  {
    var rg :- Kw(a, "range");
    if !IsSeq(rg) then Err(TypeError)
    else
      var items := Elements(rg);
      if a.interp != MixInterp then env.interp(a.interp, items, pos)
      else if |items| == 2 then Mixing.MixVal(items[0], items[1], pos)
      else if |items| == 1 then Mixing.MixVal(items[0], pos, VReal(0.5))
      else Err(TypeError)
  }

  /** What one `get` produces: the new frame (None from Act) and the user call it made, if any. */
  datatype Sample = Sample(out: Option<Frame>, event: Option<Event>)

  /** `set_alpha` takes a number or None. */
  function FadeGet(a: Action, pos: Val, f: Frame, env: Env): (r: Result<Frame>)
    requires a.Leaf? && IsPos(pos)
    ensures r.Ok? ==> Mixture(a, pos, env).Ok? && r.value.rect == f.rect
                      && r.value.image == Alpha(f.image, Mixture(a, pos, env).value)
  {
    var m :- Mixture(a, pos, env);
    if IsNumber(m) || m.VNone? then Ok(Frame(Alpha(f.image, m), f.rect)) else Err(TypeError)
  }

  /**
   * Transform `get`: the surface goes through `func` with the mixture, and the new rect is the
   * transformed surface's size placed so that its `anchor` point is the input rect's.
   */
  function TransformGet(a: Action, pos: Val, f: Frame, env: Env): (r: Result<Frame>)
    requires a.Leaf? && IsPos(pos)
    ensures r.Ok? ==> "func" in a.kw && a.kw["func"].VFunc? && "anchor" in a.kw && AttrOf(a.kw["anchor"]).Ok?
    ensures r.Ok? ==> Mixture(a, pos, env).Ok? && r.value.image == Transformed(a.kw["func"].fid, f.image, Mixture(a, pos, env).value)
    ensures r.Ok? ==> var at := AttrOf(a.kw["anchor"]).value;
                      at.Point? ==> GetAttr(r.value.rect, at) == GetAttr(f.rect, at)
                                    && (r.value.rect.w, r.value.rect.h) == env.sizeOf(r.value.image)
  {
    var func :- Kw(a, "func");
    var m :- Mixture(a, pos, env);
    if !func.VFunc? then Err(TypeError)
    else
      var surf := Transformed(func.fid, f.image, m);
      var size := env.sizeOf(surf);
      var name :- Kw(a, "anchor");
      var at :- AttrOf(name);
      var nr :- SetAttr(Rect(0, 0, size.0, size.1), at, GetAttr(f.rect, at));
      Ok(Frame(surf, nr))
  }

  /** MoveTo `get`: a copy of the rect with its `anchor` set to the mixture. */
  function MoveToGet(a: Action, pos: Val, f: Frame, env: Env): (r: Result<Frame>)
    requires a.Leaf? && IsPos(pos)
    ensures r.Ok? ==> r.value.image == f.image
    ensures r.Ok? ==> "anchor" in a.kw && AttrOf(a.kw["anchor"]).Ok? && Mixture(a, pos, env).Ok?
    ensures r.Ok? ==> SetAttr(f.rect, AttrOf(a.kw["anchor"]).value, Mixture(a, pos, env).value).Ok?
                      && r.value.rect == SetAttr(f.rect, AttrOf(a.kw["anchor"]).value, Mixture(a, pos, env).value).value
    ensures r.Ok? && IsPositional(AttrOf(a.kw["anchor"]).value) ==> r.value.rect.w == f.rect.w && r.value.rect.h == f.rect.h
    ensures "anchor" !in a.kw ==> r == Err(KeyError)
    ensures "anchor" in a.kw && Mixture(a, pos, env).Err? ==> r == Err(Mixture(a, pos, env).error)
    ensures "anchor" in a.kw && Mixture(a, pos, env).Ok? && AttrOf(a.kw["anchor"]).Err? ==> r == Err(AttrOf(a.kw["anchor"]).error)
  {
    // `setattr(rect, self["anchor"], self.get_mixture(pos))`: the key, then the mixture, then the name
    var name :- Kw(a, "anchor");
    var m :- Mixture(a, pos, env);
    var at :- AttrOf(name);
    var nr :- SetAttr(f.rect, at, m);
    Ok(Frame(f.image, nr))
  }

  /**
   * Erase `get`: the eraser box placed at the mixture, cleared when `fill`, stamped with a truthy
   * `eraser`. Blitting anything but a surface raises TypeError.
   */
  function EraseGet(a: Action, pos: Val, f: Frame, env: Env): (r: Result<Frame>)
    requires a.Leaf? && IsPos(pos)
    ensures r.Ok? ==> r.value.rect == f.rect && r.value.image.Erased? && r.value.image.src == f.image
    ensures a.eraserArea.None? ==> r == Err(AttributeError)
    ensures a.eraserArea.Some? && "anchor" in a.kw && Mixture(a, pos, env).Err? ==> r == Err(Mixture(a, pos, env).error)
    ensures r.Ok? ==> "fill" in a.kw && "eraser" in a.kw && r.value.image.fill == Truthy(a.kw["fill"])
    ensures r.Ok? ==> (r.value.image.stamp.Some? <==> Truthy(a.kw["eraser"]))
                      && (r.value.image.stamp.Some? ==> r.value.image.stamp.value == a.kw["eraser"] && a.kw["eraser"].VImage?)
    ensures "eraser" in a.kw && Truthy(a.kw["eraser"]) && !a.kw["eraser"].VImage? ==> r.Err?
  {
    if a.eraserArea.None? then Err(AttributeError)
    else
      var name :- Kw(a, "anchor");
      var m :- Mixture(a, pos, env);
      var at :- AttrOf(name);
      var area :- SetAttr(a.eraserArea.value, at, m);
      var fill :- Kw(a, "fill");
      var eraser :- Kw(a, "eraser");
      if !Truthy(eraser) then Ok(Frame(Erased(f.image, area, Truthy(fill), None), f.rect))
      else if eraser.VImage? then Ok(Frame(Erased(f.image, area, Truthy(fill), Some(eraser)), f.rect))
      else Err(TypeError)
  }

  /** `func[k](pos·τ) * dist[k]`, one Shake offset component, as a float. */
  function ShakeOffset(a: Action, pos: Val, k: nat, env: Env): (r: Result<real>)
    requires a.Leaf? && IsPos(pos)
  {
    var funcs :- Kw(a, "func");
    var fk :- Item(funcs, k);
    if !fk.VFunc? then Err(TypeError)
    else
      var dists :- Kw(a, "dist");
      var dk :- Item(dists, k);
      if !IsNumber(dk) then Err(TypeError)
      else Ok(env.wave(fk.fid, NumValue(pos)) * NumValue(dk))
  }

  /** Shake `get`: the rect moved by the two periodic offsets, truncated to whole pixels. */
  function ShakeGet(a: Action, pos: Val, f: Frame, env: Env): (r: Result<Frame>)
    requires a.Leaf? && IsPos(pos)
    ensures r.Ok? ==> r.value.image == f.image && r.value.rect.w == f.rect.w && r.value.rect.h == f.rect.h
    ensures r.Ok? ==> ShakeOffset(a, pos, 0, env).Ok? && ShakeOffset(a, pos, 1, env).Ok?
    ensures r.Ok? ==> r.value.rect.x == f.rect.x + Py.Trunc(ShakeOffset(a, pos, 0, env).value)
                      && r.value.rect.y == f.rect.y + Py.Trunc(ShakeOffset(a, pos, 1, env).value)
  {
    var dx :- ShakeOffset(a, pos, 0, env);
    var dy :- ShakeOffset(a, pos, 1, env);
    Ok(Frame(f.image, Move(f.rect, Py.Trunc(dx), Py.Trunc(dy))))
  }

  /**
   * `get(pos, *upd)`. The frame is unpacked at the call, so None raises. Delay returns it as is;
   * Act calls a truthy `func` and returns None.
   */
  function Get(a: Action, pos: Val, upd: Option<Frame>, env: Env): (r: Result<Sample>)
    requires a.Leaf? && IsPos(pos)
    ensures upd.None? ==> r == Err(TypeError)
    ensures r.Ok? && a.kind.Act? ==> r.value.out.None?
    ensures r.Ok? && !a.kind.Act? ==> r.value.out.Some? && r.value.event.None?
    ensures r.Ok? && (a.kind.Delay? || IsSpecial(a.kind)) ==> r.value.out == upd
    ensures r.Ok? && (a.kind.Delay? || a.kind.Fade? || a.kind.FadeIn? || a.kind.FadeOut? || a.kind.Flip? || a.kind.Erase?) ==>
              r.value.out.value.rect == upd.value.rect
    ensures r.Ok? && (a.kind.MoveBy? || a.kind.Shake?) ==>
              r.value.out.value.image == upd.value.image
              && r.value.out.value.rect.w == upd.value.rect.w && r.value.out.value.rect.h == upd.value.rect.h
    ensures upd.Some? && a.kind.Act? ==>
              (r.Ok? <==> "func" in a.kw && (!Truthy(a.kw["func"]) || a.kw["func"].VFunc?))
              && (r.Ok? ==> r.value.event == if Truthy(a.kw["func"]) then Some(Acted(a.kw["func"].fid, pos)) else None)
  {
    if upd.None? then Err(TypeError)
    else
      var f := upd.value;
      match a.kind
      case Act =>
        var func :- Kw(a, "func");
        if !Truthy(func) then Ok(Sample(None, None))
        else if func.VFunc? then Ok(Sample(None, Some(Acted(func.fid, pos))))
        else Err(TypeError)
      case Fade => var g :- FadeGet(a, pos, f, env); Ok(Sample(Some(g), None))
      case FadeIn => var g :- FadeGet(a, pos, f, env); Ok(Sample(Some(g), None))
      case FadeOut => var g :- FadeGet(a, pos, f, env); Ok(Sample(Some(g), None))
      case Transform => var g :- TransformGet(a, pos, f, env); Ok(Sample(Some(g), None))
      case ScaleBy => var g :- TransformGet(a, pos, f, env); Ok(Sample(Some(g), None))
      case ScaleTo => var g :- TransformGet(a, pos, f, env); Ok(Sample(Some(g), None))
      case Rotate => var g :- TransformGet(a, pos, f, env); Ok(Sample(Some(g), None))
      case Flip =>
        var x :- Kw(a, "x");
        var y :- Kw(a, "y");
        Ok(Sample(Some(Frame(Flipped(f.image, x, y), f.rect)), None))
      case MoveBy =>
        var m :- Mixture(a, pos, env);
        var nr :- Geometry.MoveBy(f.rect, m);
        Ok(Sample(Some(Frame(f.image, nr)), None))
      case MoveTo => var g :- MoveToGet(a, pos, f, env); Ok(Sample(Some(g), None))
      case Erase => var g :- EraseGet(a, pos, f, env); Ok(Sample(Some(g), None))
      case Shake => var g :- ShakeGet(a, pos, f, env); Ok(Sample(Some(g), None))
      case _ => Ok(Sample(upd, None))
  }

  /**
   * A MoveBy built with an offset (dx, dy) starts where the rect is and, at progress 1, has moved
   * it by exactly (dx, dy).
   */
  lemma MoveByEndpoints(a: Action, dx: int, dy: int, f: Frame, env: Env)
    requires a.Leaf? && a.kind.MoveBy? && a.interp == MixInterp && a.origKw == a.kw
    requires "range" in a.kw && a.kw["range"] == IntPair(dx, dy)
    ensures Init(a, env).Ok?
    ensures Get(Init(a, env).value, VInt(0), Some(f), env) == Ok(Sample(Some(f), None))
    ensures Get(Init(a, env).value, VInt(1), Some(f), env) == Ok(Sample(Some(Frame(f.image, Move(f.rect, dx, dy))), None))
  {
    var b := Init(a, env).value;
    assert b.kw["range"] == Pair(IntPair(0, 0), IntPair(dx, dy));
    Mixing.MixIntPairs(0, 0, dx, dy, 0);
    Mixing.MixIntPairs(0, 0, dx, dy, 1);
    assert Move(f.rect, 0, 0) == f.rect;
  }

  /**
   * Negating a MoveBy built with an offset (dx, dy), then playing it (playback takes a copy),
   * moves by (dy, dx): the reversed pair is read back as a new offset instead of the way back.
   */
  lemma NegatedOffsetIsSwapped(a: Action, dx: int, dy: int, f: Frame, env: Env)
    requires a.Leaf? && a.kind.MoveBy? && a.interp == MixInterp
    requires "range" in a.kw && a.kw["range"] == IntPair(dx, dy)
    ensures Negatable(a)
    ensures var played := Copy(NegOf(a));
            Init(played, env).Ok?
            && Get(Init(played, env).value, VInt(1), Some(f), env)
               == Ok(Sample(Some(Frame(f.image, Move(f.rect, dy, dx))), None))
  {
    var n := NegOf(a);
    assert n.kw["range"] == VTuple(Py.Reverse([VInt(dx), VInt(dy)]));
    assert Py.Reverse([VInt(dx), VInt(dy)]) == [VInt(dy), VInt(dx)];
    MoveByEndpoints(Copy(n), dy, dx, f, env);
  }

  /** A MoveTo to an int-pair target reaches it at progress 1 with the size unchanged, from the original anchor point. */
  lemma MoveToEndpoints(a: Action, tx: int, ty: int, f: Frame, env: Env)
    requires a.Leaf? && a.kind.MoveTo? && a.interp == MixInterp && a.origKw == a.kw
    requires "range" in a.kw && a.kw["range"] == IntPair(tx, ty)
    requires "anchor" in a.kw && a.kw["anchor"] == VStr("topleft")
    ensures Init(a, env).Ok?
    ensures var g := Get(Init(a, env).value, VInt(1), Some(f), env);
            g.Ok? && g.value.out == Some(Frame(f.image, f.rect.(x := tx, y := ty)))
    ensures var g := Get(Init(a, env).value, VInt(0), Some(f), env);
            g.Ok? && g.value.out == Some(Frame(f.image, f.rect.(x := env.origRect.x, y := env.origRect.y)))
  {
    var start := GetAttr(env.origRect, Point(LeftEdge, TopEdge));
    assert start == IntPair(env.origRect.x, env.origRect.y);
    IntLedEndpointFromOrigin(a, start);
    var b := Init(a, env).value;
    assert b.kw["range"] == VList([start, IntPair(tx, ty)]);
    Mixing.MixIntPairs(env.origRect.x, env.origRect.y, tx, ty, 0);
    Mixing.MixIntPairs(env.origRect.x, env.origRect.y, tx, ty, 1);
    MoveToTopLeft(b, VInt(1), tx, ty, f, env);
    MoveToTopLeft(b, VInt(0), env.origRect.x, env.origRect.y, f, env);
  }

  lemma MoveToTopLeft(b: Action, pos: Val, px: int, py: int, f: Frame, env: Env)
    requires b.Leaf? && b.kind.MoveTo? && IsPos(pos) && "anchor" in b.kw && b.kw["anchor"] == VStr("topleft")
    requires Mixture(b, pos, env) == Ok(VList([VInt(px), VInt(py)]))
    ensures var g := Get(b, pos, Some(f), env); g.Ok? && g.value.out == Some(Frame(f.image, f.rect.(x := px, y := py)))
  {
    var m := VList([VInt(px), VInt(py)]);
    assert Elements(m) == [VInt(px), VInt(py)];
    assert CoordPair(m) == Ok((px, py));
    assert SetAttr(f.rect, Point(LeftEdge, TopEdge), m) == Ok(f.rect.(x := px, y := py));
  }
}

=== FILE: epg.dfy ===
/** Error raising, keyword validation and the game clock of epg/__init__.py. */
module Epg {
  import opened Errors

  const Infix: string := " argument(s) "

  /** The message `_throw(s, t)` raises: `s` alone when `t` is empty, else `t`, the infix, then `s`. */
  function ThrowMessage(s: string, t: string): (m: string)
    ensures t == "" ==> m == s
    ensures t != "" ==> |m| == |t| + |Infix| + |s| && m[..|t|] == t && m[|t|..|t| + |Infix|] == Infix
                        && m[|m| - |s|..] == s
  {
    if t != "" then t + Infix + s else s
  }

  /** `_throw` never returns normally. */
  function Throw<T>(s: string, t: string): (r: Result<T>)
    ensures r.Err? && r.error.PgError?
    ensures r.error.message == ThrowMessage(s, t)
  {
    Err(PgError(ThrowMessage(s, t)))
  }

  /** `_check_attr(kw, attr)`: raises exactly when some keyword is not an allowed name. */
  function CheckAttr(kw: set<string>, attr: set<string>): (r: Result<()>)
    ensures r.Ok? <==> kw <= attr
    ensures r.Err? ==> r.error == InvalidArguments(kw - attr) && kw - attr != {}
  {
    var bad := kw - attr;
    if |bad| > 0 then Err(InvalidArguments(bad))
    else
      assert forall x :: x in kw ==> x in attr by {
        forall x | x in kw ensures x in attr {
          assert x !in bad;
        }
      }
      Ok(())
  }

  /** The pygame tick counter and the accumulated event-poll time. */
  datatype Clock = Clock(ticks: int, offset: int)

  /** `get_time()`: game time with the event-poll losses removed. */
  function GetTime(c: Clock): int {
    c.ticks - c.offset
  }

  /** One frame of event polling (epg/scene.py) that took `spent` ticks: the offset absorbs it. */
  function PollEvents(c: Clock, spent: nat): (r: Clock)
    ensures r.ticks == c.ticks + spent
    ensures GetTime(r) == GetTime(c)
  {
    Clock(c.ticks + spent, c.offset + spent)
  }

  /** Growing the offset lowers the reported time by the same amount. */
  lemma OffsetLowersTime(c: Clock, d: int)
    ensures GetTime(c.(offset := c.offset + d)) == GetTime(c) - d
  {
  }

  /** Time outside event polling reaches actions unchanged. */
  function Advance(c: Clock, elapsed: nat): (r: Clock)
    ensures GetTime(r) == GetTime(c) + elapsed
    ensures r.offset == c.offset
  {
    c.(ticks := c.ticks + elapsed)
  }
}

=== FILE: errors.dfy ===
/** Failure-compatible result type and the exceptions the modelled code raises. */
module Errors {

  /** The exceptions of the modelled Python code, by kind. */
  datatype Error =
    | PgError(message: string)            // raised through epg._throw
    | InvalidArguments(bad: set<string>)  // epg._check_attr: the offending keyword names
    | TypeError
    | IndexError
    | KeyError
    | ValueError
    | ZeroDivisionError
    | AttributeError
    | RuntimeError                        // a StopIteration escaping a generator
    | StopIteration                       // a generator exhausted outside another generator
    | Unterminated                        // the source loops forever inside one call

  datatype Option<+T> = None | Some(value: T)

  datatype Result<+T> = Ok(value: T) | Err(error: Error) {
    predicate IsFailure() {
      Err?
    }

    function PropagateFailure<U>(): Result<U>
      requires Err?
    {
      Err(error)
    }

    function Extract(): T
      requires Ok?
    {
      value
    }
  }
}

=== FILE: game.dfy ===
/**
 * The game bookkeeping of main.py: the level a score earns, the score board with its animated
 * increment, the sky's day cycle, and the weighted choice of the next fish or activity.
 * Python floats are modelled as exact reals.
 */
module Game {
  import opened Errors
  import opened Values
  import Py
  import Mixing

  // ---------------------------------------------------------------------------------------------
  // Levels

  /** The score each level needs, lowest level first, as configs.py lists it before reversing. */
  const Ascending: seq<int> := [0, 10, 100, 200, 300, 500, 800, 1000, 1200, 1500, 2000, 3000, 5000, 10000, 20000, 50000]

  /** `SCORE_REQUIREMENT`: the same thresholds, highest first. */
  function Descending(): (d: seq<int>)
    ensures |d| == |Ascending| && forall i :: 0 <= i < |d| ==> d[i] == Ascending[|Ascending| - 1 - i]
  {
    Py.Reverse(Ascending)
  }

  const MaxLevel: int := |Ascending| - 1

  predicate StrictlyAscending(s: seq<int>) {
    forall i, j :: 0 <= i < j < |s| ==> s[i] < s[j]
  }

  lemma AscendingIsSorted()
    ensures StrictlyAscending(Ascending)
  {
    forall i, j | 0 <= i < j < |Ascending| ensures Ascending[i] < Ascending[j] {
      assert forall k :: 0 <= k < |Ascending| - 1 ==> Ascending[k] < Ascending[k + 1];
      AscendingChain(i, j);
    }
  }

  lemma {:induction false} AscendingChain(i: int, j: int)
    requires 0 <= i < j < |Ascending|
    requires forall k :: 0 <= k < |Ascending| - 1 ==> Ascending[k] < Ascending[k + 1]
    ensures Ascending[i] < Ascending[j]
    decreases j - i
  {
    if i + 1 < j {
      AscendingChain(i + 1, j);
    }
  }

  /** How many entries of `s` are at most `x`. */
  function CountAtMost(s: seq<int>, x: real): (n: nat)
    ensures n <= |s|
  {
    if |s| == 0 then 0
    else CountAtMost(s[..|s| - 1], x) + (if s[|s| - 1] as real <= x then 1 else 0)
  }

  /** The level a score earns: one less than the number of thresholds it meets, so -1 below 0. */
  function LevelFor(score: real): (lv: int)
    ensures -1 <= lv <= MaxLevel
  {
    CountAtMost(Ascending, score) - 1
  }

  lemma {:induction false} CountAllBelow(s: seq<int>, x: real)
    requires forall i :: 0 <= i < |s| ==> s[i] as real <= x
    ensures CountAtMost(s, x) == |s|
  {
    if |s| > 0 {
      CountAllBelow(s[..|s| - 1], x);
    }
  }

  lemma {:induction false} CountNoneBelow(s: seq<int>, x: real)
    requires forall i :: 0 <= i < |s| ==> s[i] as real > x
    ensures CountAtMost(s, x) == 0
  {
    if |s| > 0 {
      CountNoneBelow(s[..|s| - 1], x);
    }
  }

  /** In a strictly ascending list, x meets exactly the thresholds up to the last one it reaches. */
  lemma {:induction false} CountSorted(s: seq<int>, x: real, j: int)
    requires StrictlyAscending(s) && 0 <= j < |s| && s[j] as real <= x
    requires j + 1 < |s| ==> s[j + 1] as real > x
    ensures CountAtMost(s, x) == j + 1
    decreases |s|
  {
    var p := s[..|s| - 1];
    if j == |s| - 1 {
      CountAllBelow(p, x);
    } else {
      assert s[|s| - 1] as real > x by {
        if j + 1 < |s| - 1 {
          assert s[j + 1] < s[|s| - 1];
        }
      }
      CountSorted(p, x, j);
    }
  }

  /**
   * `Level.update_level()`: the thresholds are scanned from the highest; at the first one the score
   * meets, the level is raised to it if that is higher, and the scan stops either way. The result
   * is true exactly when the level changed.
   */
  method UpdateLevel(level: int, score: real) returns (changed: bool, level': int)
    ensures changed <==> LevelFor(score) > level && LevelFor(score) >= 0
    ensures level' == (if changed then LevelFor(score) else level)
  {
    AscendingIsSorted();
    var d := Descending();
    var i := 0;
    while i < |d|
      invariant 0 <= i <= |d|
      invariant forall k :: 0 <= k < i ==> score < d[k] as real
    {
      var lv := |d| - i - 1;
      if score >= d[i] as real {
        assert Ascending[lv] as real <= score;
        assert lv + 1 < |Ascending| ==> Ascending[lv + 1] as real > score by {
          if lv + 1 < |Ascending| {
            assert d[i - 1] == Ascending[lv + 1];
          }
        }
        CountSorted(Ascending, score, lv);
        if lv > level {
          return true, lv;
        }
        return false, level;
      }
      i := i + 1;
    }
    CountNoneBelow(Ascending, score) by {
      forall k | 0 <= k < |Ascending| ensures Ascending[k] as real > score {
        assert d[|d| - 1 - k] == Ascending[k];
      }
    }
    return false, level;
  }

  /** A non-negative score always earns a level, and a higher score never earns a lower one. */
  lemma LevelNeverDrops(score: real, more: real)
    ensures score >= 0.0 ==> LevelFor(score) >= 0
    ensures score <= more ==> LevelFor(score) <= LevelFor(more)
  {
    if score >= 0.0 {
      AscendingIsSorted();
      var c := CountAtMost(Ascending[..1], score);
      assert Ascending[..1] == [0];
      CountAtLeastPrefix(Ascending, 1, score);
    }
    if score <= more {
      CountAtMostGrows(Ascending, score, more);
    }
  }

  lemma {:induction false} CountAtMostGrows(s: seq<int>, x: real, y: real)
    requires x <= y
    ensures CountAtMost(s, x) <= CountAtMost(s, y)
    decreases |s|
  {
    if |s| > 0 {
      CountAtMostGrows(s[..|s| - 1], x, y);
    }
  }

  /** A longer list meets at least as many thresholds as its prefix. */
  lemma {:induction false} CountAtLeastPrefix(s: seq<int>, k: int, x: real)
    requires 0 <= k <= |s|
    ensures CountAtMost(s, x) >= CountAtMost(s[..k], x)
    decreases |s|
  {
    if k < |s| {
      assert s[..|s| - 1][..k] == s[..k];
      CountAtLeastPrefix(s[..|s| - 1], k, x);
    } else {
      assert s[..k] == s;
    }
  }

  /** `Level.reach_max_level`. */
  predicate ReachMax(level: int) {
    level == |Descending()| - 1
  }

  /** The tooltip's "Next Level Requires": the ascending threshold one above the current level. */
  function NextRequirement(level: int): (r: Result<int>)
    ensures -1 <= level < MaxLevel ==> r == Ok(Ascending[level + 1])
    ensures !(-|Ascending| - 1 <= level < MaxLevel) ==> r == Err(IndexError)
  {
    Py.ReverseReverse(Ascending);
    Py.Index(Py.Reverse(Descending()), level + 1)
  }

  /** Reaching the next requirement earns exactly the next level; the last level is the maximum. */
  lemma NextRequirementEarnsNextLevel(level: int)
    requires -1 <= level < MaxLevel
    ensures LevelFor(NextRequirement(level).value as real) == level + 1
    ensures ReachMax(level + 1) <==> level + 1 == MaxLevel
  {
    AscendingIsSorted();
    var x := Ascending[level + 1] as real;
    if level + 2 < |Ascending| {
      assert Ascending[level + 1] < Ascending[level + 2];
    }
    CountSorted(Ascending, x, level + 1);
  }

  // ---------------------------------------------------------------------------------------------
  // Rounding

  function Pow10(n: nat): (p: nat)
    ensures p >= 1
  {
    if n == 0 then 1 else 10 * Pow10(n - 1)
  }

  /** Rounding to the nearest integer, a tie going to the even neighbour. */
  function RoundHalfEven(r: real): (i: int)
    ensures i as real - 0.5 <= r <= i as real + 0.5
    ensures (r - r.Floor as real == 0.5) ==> i % 2 == 0
  {
    var f := r.Floor;
    var d := r - f as real;
    if d < 0.5 then f
    else if d > 0.5 then f + 1
    else if f % 2 == 0 then f else f + 1
  }

  /** x measured in steps of 10^-n. */
  function Scaled(x: real, n: nat): real {
    x * Pow10(n) as real
  }

  /** `round(x, n)` on the exact value of x. */
  function Round(x: real, n: nat): (r: real)
    ensures Scaled(r, n) == RoundHalfEven(Scaled(x, n)) as real
    ensures -0.5 / Pow10(n) as real <= r - x <= 0.5 / Pow10(n) as real
  {
    var k := RoundHalfEven(Scaled(x, n));
    RoundError(x, n, k);
    k as real / Pow10(n) as real
  }

  /** k·10^-n lies within half a step of x when k is within a half of x·10^n. */
  lemma RoundError(x: real, n: nat, k: int)
    requires k as real - 0.5 <= Scaled(x, n) <= k as real + 0.5
    ensures Scaled(k as real / Pow10(n) as real, n) == k as real
    ensures -0.5 / Pow10(n) as real <= k as real / Pow10(n) as real - x <= 0.5 / Pow10(n) as real
  {
    var p := Pow10(n) as real;
    var q := k as real / p;
    var d := q - x;
    assert q * p == k as real;
    assert d * p == q * p - x * p;
    assert -0.5 <= d * p <= 0.5 by {
      assert Scaled(x, n) == x * p;
    }
    WithinHalfStep(d, p);
  }

  lemma WithinHalfStep(d: real, p: real)
    requires p >= 1.0 && -0.5 <= d * p <= 0.5
    ensures -0.5 / p <= d <= 0.5 / p
  {
    BelowHalfStep(d, p);
    assert (-d) * p <= 0.5;
    BelowHalfStep(-d, p);
  }

  lemma BelowHalfStep(d: real, p: real)
    requires p >= 1.0 && d * p <= 0.5
    ensures d <= 0.5 / p
  {
    var h := 0.5 / p;
    assert h * p == 0.5;
    CancelPositive(d, h, p);
  }

  /** Dividing both sides of an inequality by a positive number. */
  lemma CancelPositive(a: real, b: real, p: real)
    requires p > 0.0 && a * p <= b * p
    ensures a <= b
  {
    if a > b {
      PositiveProduct(a - b, p);
    }
  }

  lemma PositiveProduct(a: real, b: real)
    requires a > 0.0 && b > 0.0
    ensures a * b > 0.0
  {
  }

  lemma RoundZero(n: nat)
    ensures Round(0.0, n) == 0.0
  {
  }

  /** A non-zero one-decimal amount is at least 0.1 away from 0, so its twentieth rounds to a positive step. */
  lemma PositiveStep(x: real)
    requires Round(x, 1) > 0.0
    ensures Round(Round(x, 1) / 20.0, 3) > 0.0
  {
    var k := RoundHalfEven(x * 10.0);
    assert Round(x, 1) == k as real / 10.0;
    assert k >= 1;
    var y := Round(x, 1) / 20.0;
    assert y * 1000.0 == k as real * 5.0;
    assert y * 1000.0 >= 5.0;
    assert RoundHalfEven(y * 1000.0) >= 5;
  }

  // ---------------------------------------------------------------------------------------------
  // The score board

  /** Which of the score board's own actions an increase plays. */
  datatype Played = Idle | PlayIncrease | PlayDecrease

  /**
   * The score, the part of it not yet shown (`incr_score`), the amount the shown part catches up
   * per update (`incr_step`), and the level it has earned.
   */
  datatype Board = Board(score: real, incr: real, step: real, level: int)

  /** What the score board keeps true: no negative score, and a pending increment always drains. */
  predicate BoardOK(b: Board) {
    b.score >= 0.0 && b.incr >= 0.0 && (b.incr != 0.0 ==> b.step > 0.0) && b.level >= -1
  }

  /**
   * `Score.increase(x)`: x is rounded to one decimal; a zero amount changes nothing. A gain is
   * added to the pending increment, with a twentieth of it as the step, and plays the increase
   * action; a loss plays the decrease action. The score is then clamped at 0 and the level updated.
   */
  method Increase(b: Board, x: real) returns (b': Board, played: Played, levelUp: bool)
    ensures Round(x, 1) == 0.0 ==> b' == b && played == Idle && !levelUp
    ensures Round(x, 1) != 0.0 ==>
              var s := b.score + Round(x, 1);
              b'.score == (if s < 0.0 then 0.0 else s)
              && played == (if Round(x, 1) > 0.0 then PlayIncrease else PlayDecrease)
              && (levelUp <==> LevelFor(b'.score) > b.level && LevelFor(b'.score) >= 0)
              && b'.level == (if levelUp then LevelFor(b'.score) else b.level)
    ensures Round(x, 1) > 0.0 ==> b'.incr == b.incr + Round(x, 1) && b'.step == Round(Round(x, 1) / 20.0, 3)
    ensures Round(x, 1) < 0.0 ==> b'.incr == b.incr && b'.step == b.step
  {
    var dx := Round(x, 1);
    if dx == 0.0 {
      return b, Idle, false;
    }
    var incr, step := b.incr, b.step;
    if dx > 0.0 {
      incr := incr + dx;
      step := Round(dx / 20.0, 3);
      played := PlayIncrease;
    } else {
      played := PlayDecrease;
    }
    var score := b.score + dx;
    if score < 0.0 {
      score := 0.0;
    }
    var level;
    levelUp, level := UpdateLevel(b.level, score);
    b' := Board(score, incr, step, level);
  }

  /** `Score.update()`: a pending increment drops by one step, never below 0. */
  function Update(b: Board): (b': Board)
    ensures b'.score == b.score && b'.step == b.step && b'.level == b.level
    ensures b.incr == 0.0 ==> b' == b
    ensures b.incr != 0.0 ==> b'.incr == (if b.incr - b.step < 0.0 then 0.0 else b.incr - b.step)
  {
    if b.incr != 0.0 then
      var incr := b.incr - b.step;
      b.(incr := if incr < 0.0 then 0.0 else incr)
    else b
  }

  /** Both operations keep the board sound, the level never drops, and a pending increment shrinks. */
  lemma IncreaseKeepsBoard(b: Board, x: real, b': Board, played: Played, levelUp: bool)
    requires BoardOK(b)
    requires Round(x, 1) == 0.0 ==> b' == b && played == Idle && !levelUp
    requires Round(x, 1) != 0.0 ==>
               var s := b.score + Round(x, 1);
               b'.score == (if s < 0.0 then 0.0 else s)
               && (levelUp <==> LevelFor(b'.score) > b.level && LevelFor(b'.score) >= 0)
               && b'.level == (if levelUp then LevelFor(b'.score) else b.level)
    requires Round(x, 1) > 0.0 ==> b'.incr == b.incr + Round(x, 1) && b'.step == Round(Round(x, 1) / 20.0, 3)
    requires Round(x, 1) < 0.0 ==> b'.incr == b.incr && b'.step == b.step
    ensures BoardOK(b') && b'.level >= b.level
    ensures Round(x, 1) != 0.0 ==> b'.level == (if LevelFor(b'.score) > b.level then LevelFor(b'.score) else b.level)
  {
    if Round(x, 1) > 0.0 {
      PositiveStep(x);
    }
    if Round(x, 1) != 0.0 {
      LevelNeverDrops(b'.score, b'.score);
    }
  }

  lemma UpdateDrains(b: Board)
    requires BoardOK(b)
    ensures BoardOK(Update(b))
    ensures b.incr > 0.0 ==> Update(b).incr < b.incr
  {
  }

  // ---------------------------------------------------------------------------------------------
  // The sky

  /** `SKY_RATE`: how far the sky moves through a period per update. */
  const SkyRate: real := 0.0003

  /** The four sky colours of the day cycle. */
  const SkyColours: seq<Val> := [
    VTuple([VInt(128), VInt(255), VInt(255)]),
    VTuple([VInt(64), VInt(255), VInt(255)]),
    VTuple([VInt(255), VInt(128), VInt(0)]),
    VTuple([VInt(0), VInt(0), VInt(128)])]

  /** The current period and the position inside it (an int 0 right after a wrap, else a float). */
  datatype Sky = Sky(period: int, pos: Val)

  const SkyStart: Sky := Sky(1, VInt(0))

  predicate SkyOK(s: Sky) {
    0 <= s.period < |SkyColours| && IsNumber(s.pos) && 0.0 <= NumValue(s.pos) <= 1.0
  }

  /** `Sky.increase_period()`. */
  function IncreasePeriod(p: int): (q: int)
    ensures 0 <= q < |SkyColours|
    ensures 0 <= p < |SkyColours| - 1 ==> q == p + 1
    ensures p == |SkyColours| - 1 ==> q == 0
  {
    (p + 1) % |SkyColours|
  }

  /** The colour drawn: the previous period's colour mixed toward the current one by `pos`. */
  function SkyColour(s: Sky): (r: Result<Val>)
    requires SkyOK(s)
    ensures r.Ok? && r.value.VList? && |r.value.items| == 3
    ensures var from := if s.period == 0 then SkyColours[|SkyColours| - 1] else SkyColours[s.period - 1];
            var to := SkyColours[s.period];
            forall k :: 0 <= k < 3 ==>
              IsNumber(r.value.items[k])
              && NumValue(r.value.items[k]) == Mixing.Mix(NumValue(from.items[k]), NumValue(to.items[k]), NumValue(s.pos))
              && (r.value.items[k].VInt? <==> IsIntLike(s.pos))
  {
    var from := PreviousColour(s.period);
    var to := SkyColours[s.period];
    assert Elements(from) == from.items && Elements(to) == to.items;
    Mixing.MixVal(from, to, s.pos)
  }

  /** `colors[period - 1]`: the colour before the current one, the last one before the first. */
  function PreviousColour(p: int): (c: Val)
    requires 0 <= p < |SkyColours|
    ensures c == if p == 0 then SkyColours[|SkyColours| - 1] else SkyColours[p - 1]
  {
    Py.Index(SkyColours, p - 1).value
  }

  /** Each sky colour is a triple of int channels. */
  predicate IntColour(c: Val) {
    c.VTuple? && |c.items| == 3 && forall k :: 0 <= k < 3 ==> c.items[k].VInt?
  }

  lemma SkyColoursAreInt()
    ensures forall i :: 0 <= i < |SkyColours| ==> IntColour(SkyColours[i])
  {
  }

  /** The day cycle has no jump: a period starts on the colour the previous one ends on. */
  lemma SkyWrapIsSeamless(p: int)
    requires 0 <= p < |SkyColours|
    ensures SkyColour(Sky(IncreasePeriod(p), VInt(0))) == SkyColour(Sky(p, VInt(1)))
  {
    var q := IncreasePeriod(p);
    assert PreviousColour(q) == SkyColours[p];
    SkyColoursAreInt();
    MixSeam(PreviousColour(p), SkyColours[p], SkyColours[q]);
  }

  /** Ending a mix on y and starting the next one from y give the same int colour. */
  lemma MixSeam(x: Val, y: Val, z: Val)
    requires IntColour(x) && IntColour(y) && IntColour(z)
    ensures Mixing.MixVal(y, z, VInt(0)) == Mixing.MixVal(x, y, VInt(1))
  {
    var a := Mixing.MixVal(y, z, VInt(0)).value;
    var b := Mixing.MixVal(x, y, VInt(1)).value;
    assert Elements(x) == x.items && Elements(y) == y.items && Elements(z) == z.items;
    forall k | 0 <= k < 3 ensures a.items[k] == b.items[k] {
      assert a.items[k] == Mixing.MixScalar(y.items[k], z.items[k], VInt(0));
      assert b.items[k] == Mixing.MixScalar(x.items[k], y.items[k], VInt(1));
    }
    assert a.items == b.items;
  }

  /** `Sky.update()` minus the stars and clouds: pos moves on, wrapping to 0 and a new period past 1. */
  function SkyUpdate(s: Sky): (s': Sky)
    requires SkyOK(s)
    ensures SkyOK(s')
    ensures NumValue(s.pos) + SkyRate <= 1.0 ==> s' == Sky(s.period, VReal(NumValue(s.pos) + SkyRate))
    ensures NumValue(s.pos) + SkyRate > 1.0 ==> s' == Sky(IncreasePeriod(s.period), VInt(0))
  {
    var pos := NumValue(s.pos) + SkyRate;
    if pos > 1.0 then Sky(IncreasePeriod(s.period), VInt(0)) else Sky(s.period, VReal(pos))
  }

  /** The sky after n updates. */
  function SkyAfter(s: Sky, n: nat): (r: Sky)
    requires SkyOK(s)
    ensures SkyOK(r)
    decreases n
  {
    if n == 0 then s else SkyAfter(SkyUpdate(s), n - 1)
  }

  /** Within a period the position grows by the rate per update. */
  lemma {:induction false} SkyDrifts(p: int, n: nat)
    requires 0 <= p < |SkyColours| && n as real * SkyRate <= 1.0
    ensures SkyAfter(Sky(p, VInt(0)), n).period == p
    ensures NumValue(SkyAfter(Sky(p, VInt(0)), n).pos) == n as real * SkyRate
    decreases n
  {
    if n > 0 {
      SkyDriftsFrom(p, 0.0, n);
    }
  }

  lemma {:induction false} SkyDriftsFrom(p: int, start: real, n: nat)
    requires 0 <= p < |SkyColours| && 0.0 <= start && start + n as real * SkyRate <= 1.0
    ensures var s := Sky(p, if start == 0.0 then VInt(0) else VReal(start));
            SkyAfter(s, n).period == p && NumValue(SkyAfter(s, n).pos) == start + n as real * SkyRate
    decreases n
  {
    var s := Sky(p, if start == 0.0 then VInt(0) else VReal(start));
    if n > 0 {
      var next := start + SkyRate;
      assert SkyUpdate(s) == Sky(p, VReal(next));
      SkyDriftsFrom(p, next, n - 1);
      assert SkyAfter(s, n) == SkyAfter(Sky(p, VReal(next)), n - 1);
    }
  }

  /** A full period takes 3334 updates from a wrap: the 3334th pushes pos past 1 and starts the next period. */
  lemma PeriodLength(p: int)
    requires 0 <= p < |SkyColours|
    ensures SkyAfter(Sky(p, VInt(0)), 3333).period == p
    ensures SkyAfter(Sky(p, VInt(0)), 3334) == Sky(IncreasePeriod(p), VInt(0))
  {
    SkyDrifts(p, 3333);
    SkyAfterSplit(Sky(p, VInt(0)), 3333);
  }

  lemma {:induction false} SkyAfterSplit(s: Sky, n: nat)
    requires SkyOK(s)
    ensures SkyAfter(s, n + 1) == SkyUpdate(SkyAfter(s, n))
    decreases n
  {
    if n > 0 {
      SkyAfterSplit(SkyUpdate(s), n - 1);
    }
  }

  /** The colour is continuous across a wrap: the end of one period shows what the next begins with. */
  lemma ColourContinuesAcrossWrap(p: int)
    requires 0 <= p < |SkyColours|
    ensures var before := SkyColour(Sky(p, VReal(1.0))).value;
            var after := SkyColour(Sky(IncreasePeriod(p), VInt(0))).value;
            forall k :: 0 <= k < 3 ==> IsNumber(before.items[k]) && IsNumber(after.items[k])
                                       && NumValue(before.items[k]) == NumValue(after.items[k])
  {
    var q := IncreasePeriod(p);
    assert Py.Index(SkyColours, q - 1).value == SkyColours[p];
    var before := SkyColour(Sky(p, VReal(1.0))).value;
    var after := SkyColour(Sky(q, VInt(0))).value;
    assert Elements(SkyColours[p]) == SkyColours[p].items;
  }

  // ---------------------------------------------------------------------------------------------
  // Weighted choice

  /** An entry of `FISH` or `ACTIVITIES`: a name, the level that unlocks it, and its weight. */
  datatype Entry = Entry(name: string, unlock: int, weight: int)

  const Fish: seq<Entry> := [
    Entry("CommonFish", 0, 100), Entry("ThornFish", 1, 25), Entry("GoldFish", 2, 5),
    Entry("FastFish", 3, 40), Entry("BombFish", 4, 20), Entry("FishKing", 4, 5),
    Entry("IceFish", 5, 10), Entry("Shark", 5, 15)]

  const Activities: seq<Entry> := [
    Entry("CommonFishRush", 0, 30), Entry("GoldFishRush", 2, 3), Entry("VortexAppear", 3, 15),
    Entry("FishRush", 4, 60), Entry("SharkRush", 5, 10)]

  /** The entries a level has unlocked, in list order. */
  function Unlocked(lst: seq<Entry>, lv: int): (r: seq<Entry>)
    ensures forall e :: e in r ==> e in lst && e.unlock <= lv
    ensures forall i :: 0 <= i < |lst| && lst[i].unlock <= lv ==> lst[i] in r
  {
    if |lst| == 0 then []
    else
      var rest := Unlocked(lst[..|lst| - 1], lv);
      assert forall i :: 0 <= i < |lst| - 1 ==> lst[..|lst| - 1][i] == lst[i];
      if lst[|lst| - 1].unlock <= lv then rest + [lst[|lst| - 1]] else rest
  }

  /** `itertools.accumulate(weights)`. */
  function Cumulative(ws: seq<int>): (c: seq<int>)
    ensures |c| == |ws|
  {
    if |ws| == 0 then []
    else
      var p := Cumulative(ws[..|ws| - 1]);
      p + [(if |p| == 0 then 0 else p[|p| - 1]) + ws[|ws| - 1]]
  }

  /** `bisect.bisect_right(a, x, lo, hi)`, the binary search CPython runs. */
  method BisectRight(a: seq<int>, x: real, lo: int, hi: int) returns (r: int)
    requires 0 <= lo <= hi <= |a|
    ensures lo <= r <= hi
    ensures (forall i, j :: lo <= i <= j < hi ==> a[i] <= a[j]) ==>
              (forall k :: lo <= k < r ==> a[k] as real <= x) && (forall k :: r <= k < hi ==> x < a[k] as real)
  {
    var l, h := lo, hi;
    ghost var sorted := forall i, j :: lo <= i <= j < hi ==> a[i] <= a[j];
    while l < h
      invariant lo <= l <= h <= hi
      invariant sorted ==> forall k :: lo <= k < l ==> a[k] as real <= x
      invariant sorted ==> forall k :: h <= k < hi ==> x < a[k] as real
      decreases h - l
    {
      var mid := (l + h) / 2;
      if x < a[mid] as real {
        h := mid;
      } else {
        l := mid + 1;
      }
    }
    r := l;
  }

  /**
   * `random.choices(names, weights)[0]` with `u` standing for `random()`: no entries raise
   * IndexError, a non-positive total ValueError; otherwise u·total is located among the running
   * totals, the last entry catching anything at or past the last but one.
   */
  method Choose(lst: seq<Entry>, u: real) returns (r: Result<int>)
    ensures |lst| == 0 ==> r == Err(IndexError)
    ensures |lst| > 0 ==> (r.Err? <==> Py.Sum(Weights(lst)) <= 0) && (r.Err? ==> r.error == ValueError)
    ensures r.Ok? ==> 0 <= r.value < |lst|
    ensures r.Ok? && (forall i :: 0 <= i < |lst| ==> lst[i].weight >= 0) ==>
              var c := Cumulative(Weights(lst));
              Lands(c, u, r.value)
  {
    var ws := Weights(lst);
    var c := Cumulative(ws);
    if |c| == 0 {
      return Err(IndexError);
    }
    var total := c[|c| - 1];
    CumulativeLast(ws);
    if total <= 0 {
      return Err(ValueError);
    }
    if forall k :: 0 <= k < |lst| ==> lst[k].weight >= 0 {
      CumulativeSorted(ws);
    }
    var i := Locate(c, u);
    return Ok(i);
  }

  /** Running totals never decrease. */
  predicate Monotone(c: seq<int>) {
    forall a, b :: 0 <= a <= b < |c| ==> c[a] <= c[b]
  }

  /** The bisection step of `choices`: u·total looked up among the totals, the last one excluded. */
  method Locate(c: seq<int>, u: real) returns (i: int)
    requires |c| > 0
    ensures 0 <= i < |c|
    ensures Monotone(c) ==> Lands(c, u, i)
  {
    i := BisectRight(c, Scale(u, c[|c| - 1]), 0, |c| - 1);
    if Monotone(c) {
      ChoiceInterval(c, u, i);
    }
  }

  /**
   * Entry i owns the draw u: u·total is at or past the running total before i, and below i's own
   * unless i is last.
   */
  predicate Lands(c: seq<int>, u: real, i: int)
    requires 0 <= i < |c|
  {
    var t := Scale(u, c[|c| - 1]);
    (i == 0 || c[i - 1] as real <= t) && (i == |c| - 1 || t < c[i] as real)
  }

  /** Where `bisect_right` lands in sorted running totals: past every total at most t, before the rest. */
  lemma ChoiceInterval(c: seq<int>, u: real, i: int)
    requires |c| > 0 && 0 <= i <= |c| - 1
    requires Monotone(c)
    requires forall k :: 0 <= k < i ==> c[k] as real <= Scale(u, c[|c| - 1])
    requires forall k :: i <= k < |c| - 1 ==> Scale(u, c[|c| - 1]) < c[k] as real
    ensures Lands(c, u, i)
  {
  }

  function Weights(lst: seq<Entry>): (ws: seq<int>)
    ensures |ws| == |lst| && forall i :: 0 <= i < |lst| ==> ws[i] == lst[i].weight
  {
    seq(|lst|, i requires 0 <= i < |lst| => lst[i].weight)
  }

  lemma {:induction false} CumulativeSorted(ws: seq<int>)
    requires forall i :: 0 <= i < |ws| ==> ws[i] >= 0
    ensures Monotone(Cumulative(ws))
  {
    forall i, j | 0 <= i <= j < |ws| ensures Cumulative(ws)[i] <= Cumulative(ws)[j] {
      CumulativeGrows(ws, i, j);
    }
  }

  lemma {:induction false} CumulativeGrows(ws: seq<int>, i: int, j: int)
    requires forall k :: 0 <= k < |ws| ==> ws[k] >= 0
    requires 0 <= i <= j < |ws|
    ensures Cumulative(ws)[i] <= Cumulative(ws)[j]
    decreases j - i
  {
    if i < j {
      CumulativeGrows(ws, i, j - 1);
      CumulativeStep(ws, j);
    }
  }

  /** With non-negative weights and u in [0, 1), an entry of weight 0 is never chosen. */
  lemma ChosenHasWeight(ws: seq<int>, u: real, i: int)
    requires |ws| > 0 && forall k :: 0 <= k < |ws| ==> ws[k] >= 0
    requires 0.0 <= u < 1.0 && 0 <= i < |ws|
    requires var c := Cumulative(ws);
             c[|c| - 1] > 0 && Lands(c, u, i)
    ensures ws[i] > 0
  {
    CumulativeStep(ws, i);
    OwnsPositiveWeight(Cumulative(ws), u, i, ws[i]);
  }

  /** A point in [0, total) owned by entry i lies in a gap of width w, so w is positive. */
  lemma OwnsPositiveWeight(c: seq<int>, u: real, i: int, w: int)
    requires 0 <= i < |c| && c[|c| - 1] > 0 && 0.0 <= u < 1.0
    requires Lands(c, u, i) && c[i] == (if i == 0 then 0 else c[i - 1]) + w
    ensures w > 0
  {
    var t := Scale(u, c[|c| - 1]);
    var prev := if i == 0 then 0 else c[i - 1];
    assert prev as real <= t;
    assert t < c[i] as real by {
      if i == |c| - 1 {
        assert c[i] == c[|c| - 1];
      }
    }
  }

  /** The last running total is the sum of all weights. */
  lemma CumulativeLast(ws: seq<int>)
    requires |ws| > 0
    ensures Cumulative(ws)[|ws| - 1] == Py.Sum(ws)
  {
    CumulativeIsPrefixSum(ws, |ws| - 1);
    assert ws[..|ws|] == ws;
  }

  /** Each running total is the previous one plus the next weight. */
  lemma {:induction false} CumulativeStep(ws: seq<int>, i: int)
    requires 0 <= i < |ws|
    ensures Cumulative(ws)[i] == (if i == 0 then 0 else Cumulative(ws)[i - 1]) + ws[i]
    decreases |ws|
  {
    var init := ws[..|ws| - 1];
    if i < |ws| - 1 {
      CumulativeStep(init, i);
      assert init[i] == ws[i];
    }
  }

  /** `accumulate` yields the prefix sums: the i-th running total adds the first i + 1 weights. */
  lemma {:induction false} CumulativeIsPrefixSum(ws: seq<int>, i: int)
    requires 0 <= i < |ws|
    ensures Cumulative(ws)[i] == Py.Sum(ws[..i + 1])
    decreases i
  {
    CumulativeStep(ws, i);
    Py.SumStep(ws, i);
    if i > 0 {
      CumulativeIsPrefixSum(ws, i - 1);
    } else {
      assert ws[..0] == [];
    }
  }

  /**
   * `random() * total` for a whole-number total, written as repeated addition so that the
   * choice proofs stay linear; ScaleIsProduct shows it is the product.
   */
  function Scale(u: real, n: int): (t: real)
    ensures 0.0 <= u < 1.0 && n > 0 ==> 0.0 <= t < n as real
    decreases if n >= 0 then n else -n
  {
    if n == 0 then 0.0
    else if n > 0 then Scale(u, n - 1) + u
    else Scale(u, n + 1) - u
  }

  lemma {:induction false} ScaleIsProduct(u: real, n: int)
    ensures Scale(u, n) == u * n as real
    decreases if n >= 0 then n else -n
  {
    if n > 0 {
      ScaleIsProduct(u, n - 1);
      assert u * n as real == u * (n - 1) as real + u;
    } else if n < 0 {
      ScaleIsProduct(u, n + 1);
      assert u * n as real == u * (n + 1) as real - u;
    }
  }

  /**
   * `get_sth(lst)` at level `lv`: the name of an unlocked entry, chosen by weight. The name is
   * returned; evaluating it into a fish or activity is outside this model.
   */
  method GetSth(lst: seq<Entry>, lv: int, u: real) returns (r: Result<string>)
    ensures |Unlocked(lst, lv)| == 0 ==> r == Err(IndexError)
    ensures r.Ok? ==> exists e :: e in lst && e.unlock <= lv && e.name == r.value
    ensures r.Ok? && 0.0 <= u < 1.0 && (forall e :: e in lst ==> e.weight >= 0) ==>
              exists e :: e in lst && e.unlock <= lv && e.name == r.value && e.weight > 0
    ensures var pool := Unlocked(lst, lv);
            |pool| > 0 ==> (r.Err? <==> Py.Sum(Weights(pool)) <= 0) && (r.Err? ==> r.error == ValueError)
    ensures var pool := Unlocked(lst, lv);
            r.Ok? && (forall e :: e in lst ==> e.weight >= 0) ==>
              exists i :: 0 <= i < |pool| && r.value == pool[i].name && Lands(Cumulative(Weights(pool)), u, i)
  {
    var pool := Unlocked(lst, lv);
    var i := Choose(pool, u);
    if i.Err? {
      return Err(i.error);
    }
    var e := pool[i.value];
    if 0.0 <= u < 1.0 && (forall e :: e in lst ==> e.weight >= 0) {
      var ws := Weights(pool);
      assert forall k :: 0 <= k < |pool| ==> pool[k] in lst;
      CumulativeLast(ws);
      ChosenHasWeight(ws, u, i.value);
    }
    assert e in pool;
    if forall e :: e in lst ==> e.weight >= 0 {
      assert forall k :: 0 <= k < |pool| ==> Weights(pool)[k] >= 0;
      assert Lands(Cumulative(Weights(pool)), u, i.value);
    }
    return Ok(e.name);
  }

  /** The pool keeps the list's order: filtering a concatenation filters each part in turn. */
  lemma {:induction false} UnlockedConcat(a: seq<Entry>, b: seq<Entry>, lv: int)
    ensures Unlocked(a + b, lv) == Unlocked(a, lv) + Unlocked(b, lv)
    decreases |b|
  {
    if |b| == 0 {
      assert a + b == a;
    } else {
      var b' := b[..|b| - 1];
      assert (a + b)[..|a + b| - 1] == a + b';
      UnlockedConcat(a, b', lv);
      assert b[..|b| - 1] == b';
    }
  }

  lemma UnlockedOne(e: Entry, lv: int)
    ensures Unlocked([e], lv) == if e.unlock <= lv then [e] else []
  {
    assert [e][..0] == [];
  }

  /** When only the first entry is unlocked, it is the whole pool. */
  lemma {:induction false} OnlyFirstUnlocked(lst: seq<Entry>, lv: int)
    requires |lst| > 0 && lst[0].unlock <= lv
    requires forall i :: 1 <= i < |lst| ==> lst[i].unlock > lv
    ensures Unlocked(lst, lv) == [lst[0]]
  {
    if |lst| > 1 {
      OnlyFirstUnlocked(lst[..|lst| - 1], lv);
    }
  }

  /** At level 0 only the common fish is unlocked, so it is always the one chosen. */
  lemma FirstLevelOnlyCommonFish()
    ensures Unlocked(Fish, 0) == [Fish[0]]
  {
    OnlyFirstUnlocked(Fish, 0);
  }
}

=== FILE: geometry.dfy ===
/**
 * pygame's Rect as an integer box with named attributes. Every positional attribute is a
 * horizontal component (left, centre or right edge), a vertical one (top, middle, bottom), or both.
 * Float coordinates are truncated toward zero when stored.
 */
module Geometry {
  import opened Errors
  import opened Values
  import Py

  datatype Rect = Rect(x: int, y: int, w: int, h: int)

  datatype HSel = LeftEdge | CentreX | RightEdge
  datatype VSel = TopEdge | CentreY | BottomEdge

  /** A settable Rect attribute: a point, one coordinate, or a size component. */
  datatype Attr =
    | Point(hs: HSel, vs: VSel)   // topleft, midtop, ..., center, ..., bottomright
    | Horizontal(hs: HSel)        // x/left, centerx, right
    | Vertical(vs: VSel)          // y/top, centery, bottom
    | Width
    | Height
    | Size

  predicate IsPositional(a: Attr) {
    a.Point? || a.Horizontal? || a.Vertical?
  }

  /** The attribute a Python name denotes; None where `getattr` would raise. */
  function ParseAttr(name: string): (a: Option<Attr>)
    ensures name == "topleft" ==> a == Some(Point(LeftEdge, TopEdge))
    ensures name == "center" ==> a == Some(Point(CentreX, CentreY))
    ensures name == "topright" ==> a == Some(Point(RightEdge, TopEdge))
  {
    match name
    case "topleft" => Some(Point(LeftEdge, TopEdge))
    case "midtop" => Some(Point(CentreX, TopEdge))
    case "topright" => Some(Point(RightEdge, TopEdge))
    case "midleft" => Some(Point(LeftEdge, CentreY))
    case "center" => Some(Point(CentreX, CentreY))
    case "midright" => Some(Point(RightEdge, CentreY))
    case "bottomleft" => Some(Point(LeftEdge, BottomEdge))
    case "midbottom" => Some(Point(CentreX, BottomEdge))
    case "bottomright" => Some(Point(RightEdge, BottomEdge))
    case "x" => Some(Horizontal(LeftEdge))
    case "left" => Some(Horizontal(LeftEdge))
    case "centerx" => Some(Horizontal(CentreX))
    case "right" => Some(Horizontal(RightEdge))
    case "y" => Some(Vertical(TopEdge))
    case "top" => Some(Vertical(TopEdge))
    case "centery" => Some(Vertical(CentreY))
    case "bottom" => Some(Vertical(BottomEdge))
    case "w" => Some(Width)
    case "width" => Some(Width)
    case "h" => Some(Height)
    case "height" => Some(Height)
    case "size" => Some(Size)
    case _ => None
  }

  /** Distance of a horizontal component from the left edge. */
  function HOffset(r: Rect, s: HSel): int {
    match s
    case LeftEdge => 0
    case CentreX => Py.Half(r.w)
    case RightEdge => r.w
  }

  function VOffset(r: Rect, s: VSel): int {
    match s
    case TopEdge => 0
    case CentreY => Py.Half(r.h)
    case BottomEdge => r.h
  }

  function GetH(r: Rect, s: HSel): int {
    r.x + HOffset(r, s)
  }

  function GetV(r: Rect, s: VSel): int {
    r.y + VOffset(r, s)
  }

  function SetH(r: Rect, s: HSel, v: int): (r': Rect)
    ensures GetH(r', s) == v
    ensures r'.y == r.y && r'.w == r.w && r'.h == r.h
  {
    r.(x := v - HOffset(r, s))
  }

  function SetV(r: Rect, s: VSel, v: int): (r': Rect)
    ensures GetV(r', s) == v
    ensures r'.x == r.x && r'.w == r.w && r'.h == r.h
  {
    r.(y := v - VOffset(r, s))
  }

  /** `getattr(rect, a)`. */
  function GetAttr(r: Rect, a: Attr): Val {
    match a
    case Point(hs, vs) => IntPair(GetH(r, hs), GetV(r, vs))
    case Horizontal(hs) => VInt(GetH(r, hs))
    case Vertical(vs) => VInt(GetV(r, vs))
    case Width => VInt(r.w)
    case Height => VInt(r.h)
    case Size => IntPair(r.w, r.h)
  }

  /** A number stored as a Rect coordinate. */
  function Coord(v: Val): (r: Result<int>)
    ensures r.Ok? <==> IsNumber(v)
    ensures v.VInt? ==> r == Ok(v.i)
  {
    if IsIntLike(v) then Ok(IntValue(v))
    else if v.VReal? then Ok(Py.Trunc(v.r))
    else Err(TypeError)
  }

  /** A two-number sequence stored as a Rect point. */
  function CoordPair(v: Val): (r: Result<(int, int)>)
    ensures r.Ok? ==> IsSeq(v) && |Elements(v)| == 2
    ensures v.VTuple? && |v.items| == 2 && v.items[0].VInt? && v.items[1].VInt? ==>
              r == Ok((v.items[0].i, v.items[1].i))
  {
    if IsSeq(v) && |Elements(v)| == 2 then
      var a :- Coord(Elements(v)[0]);
      var b :- Coord(Elements(v)[1]);
      Ok((a, b))
    else Err(TypeError)
  }

  /** `setattr(rect, a, v)`: positional attributes move the box, size attributes resize it. */
  function SetAttr(r: Rect, a: Attr, v: Val): (res: Result<Rect>)
    ensures a.Point? || a.Size? ==> (res.Ok? <==> CoordPair(v).Ok?)
    ensures !(a.Point? || a.Size?) ==> (res.Ok? <==> IsNumber(v))
    ensures IsPositional(a) && res.Ok? ==> res.value.w == r.w && res.value.h == r.h
    ensures a.Point? && res.Ok? ==> GetAttr(res.value, a) == IntPair(CoordPair(v).value.0, CoordPair(v).value.1)
    ensures (a.Horizontal? || a.Vertical?) && res.Ok? ==> GetAttr(res.value, a) == VInt(Coord(v).value)
  {
    match a
    case Point(hs, vs) =>
      var p :- CoordPair(v);
      Ok(SetV(SetH(r, hs, p.0), vs, p.1))
    case Horizontal(hs) =>
      var c :- Coord(v);
      Ok(SetH(r, hs, c))
    case Vertical(vs) =>
      var c :- Coord(v);
      Ok(SetV(r, vs, c))
    case Width =>
      var c :- Coord(v);
      Ok(r.(w := c))
    case Height =>
      var c :- Coord(v);
      Ok(r.(h := c))
    case Size =>
      var p :- CoordPair(v);
      Ok(r.(w := p.0, h := p.1))
  }

  /** `rect.move(dx, dy)`. */
  function Move(r: Rect, dx: int, dy: int): (r': Rect)
    ensures r'.w == r.w && r'.h == r.h
    ensures forall a: Attr :: a.Point? ==> GetAttr(r', a) == IntPair(GetH(r, a.hs) + dx, GetV(r, a.vs) + dy)
  {
    r.(x := r.x + dx, y := r.y + dy)
  }

  /** `rect.move(*args)` with the arguments as keyword values. */
  function MoveBy(r: Rect, args: Val): (res: Result<Rect>)
    ensures res.Ok? ==> res.value.w == r.w && res.value.h == r.h
    ensures res.Ok? <==> CoordPair(args).Ok?
  {
    var d :- CoordPair(args);
    Ok(Move(r, d.0, d.1))
  }

  /** `rect.size` as a keyword value. */
  function SizeOf(r: Rect): Val {
    IntPair(r.w, r.h)
  }
}

=== FILE: manager.dfy ===
/**
 * The per-sprite driver of epg/action.py: `ActionManager` owns the root generator and the list
 * of covers, and `ActionObject` is the sprite-side handle that starts and stops a manager.
 */
module Managers {
  import opened Errors
  import opened Values
  import opened Actions
  import opened Effects
  import opened Playback

  /**
   * An `ActionManager`: the root group (None when nothing was started), its generator (None once
   * it finished), and the covers, calls and sprite state shared with the playback.
   */
  datatype Manager = Manager(actions: Option<Action>, gen: Option<Run>, ctx: Ctx)

  predicate Valid(m: Manager) {
    CoversOK(m.ctx) && (m.gen.Some? ==> WF(m.gen.value) && m.actions.Some? && m.gen.value.src == m.actions.value)
  }

  /** What a list of covers adds to the call log and produces from a frame. */
  datatype Folded = Folded(upd: Option<Frame>, events: seq<Event>)

  function EventsOf(e: Option<Event>): seq<Event> {
    if e.Some? then [e.value] else []
  }

  /**
   * `update_cover`: starting from a frame, every cover in registration order is applied to the
   * previous one's result. A cover is its leaf's `get` at 1; an Act cover returns None, and the
   * next cover then fails to unpack it.
   */
  function FoldCovers(covers: seq<Action>, upd: Option<Frame>, env: Env): (r: Result<Folded>)
    requires forall i :: 0 <= i < |covers| ==> covers[i].Leaf?
    ensures |covers| == 0 ==> r == Ok(Folded(upd, []))
    decreases |covers|
  {
    if |covers| == 0 then Ok(Folded(upd, []))
    else
      var n := |covers| - 1;
      var before :- FoldCovers(covers[..n], upd, env);
      var s :- Get(covers[n], VInt(1), before.upd, env);
      Ok(Folded(s.out, before.events + EventsOf(s.event)))
  }

  /** Applying two cover lists one after the other is applying their concatenation. */
  lemma {:induction false} FoldCoversCompose(a: seq<Action>, b: seq<Action>, upd: Option<Frame>, env: Env)
    requires forall i :: 0 <= i < |a| ==> a[i].Leaf?
    requires forall i :: 0 <= i < |b| ==> b[i].Leaf?
    ensures forall i :: 0 <= i < |a + b| ==> (a + b)[i].Leaf?
    ensures var x := FoldCovers(a, upd, env);
            FoldCovers(a + b, upd, env)
            == if x.Err? then Err(x.error)
               else var y := FoldCovers(b, x.value.upd, env);
                    if y.Err? then Err(y.error) else Ok(Folded(y.value.upd, x.value.events + y.value.events))
    decreases |b|
  {
    LeavesConcat(a, b);
    var x := FoldCovers(a, upd, env);
    if |b| == 0 {
      assert a + b == a;
      if x.Ok? {
        assert x.value.events + [] == x.value.events;
      }
    } else {
      var n := |b| - 1;
      var ab := a + b;
      assert ab[..|ab| - 1] == a + b[..n];
      assert ab[|ab| - 1] == b[n];
      FoldCoversCompose(a, b[..n], upd, env);
      if x.Ok? {
        var y := FoldCovers(b[..n], x.value.upd, env);
        if y.Ok? {
          var s := Get(b[n], VInt(1), y.value.upd, env);
          assert FoldCovers(b, x.value.upd, env)
                 == if s.Err? then Err(s.error) else Ok(Folded(s.value.out, y.value.events + EventsOf(s.value.event)));
          if s.Ok? {
            assert x.value.events + y.value.events + EventsOf(s.value.event)
                   == x.value.events + (y.value.events + EventsOf(s.value.event));
          }
        }
      }
    }
  }

  lemma LeavesConcat(a: seq<Action>, b: seq<Action>)
    requires forall i :: 0 <= i < |a| ==> a[i].Leaf?
    requires forall i :: 0 <= i < |b| ==> b[i].Leaf?
    ensures forall i :: 0 <= i < |a + b| ==> (a + b)[i].Leaf?
  {
    forall i | 0 <= i < |a + b| ensures (a + b)[i].Leaf? {
      if i < |a| { assert (a + b)[i] == a[i]; } else { assert (a + b)[i] == b[i - |a|]; }
    }
  }

  /** Delay covers and covers that leave the frame alone pass it through unchanged. */
  lemma {:induction false} DelayCoversAreNeutral(covers: seq<Action>, f: Frame, env: Env)
    requires forall i :: 0 <= i < |covers| ==> covers[i].Leaf? && covers[i].kind.Delay?
    ensures FoldCovers(covers, Some(f), env) == Ok(Folded(Some(f), []))
    decreases |covers|
  {
    if |covers| > 0 {
      var n := |covers| - 1;
      DelayCoversAreNeutral(covers[..n], f, env);
      assert Get(covers[n], VInt(1), Some(f), env) == Ok(Sample(Some(f), None));
      var none: seq<Event> := [];
      assert EventsOf(None) == none && none + none == none;
    }
  }

  /** The state a fresh manager's playback starts from. */
  function Fresh(endFunc: Option<nat>): Ctx {
    Ctx([], [], false, endFunc)
  }

  /** The root a manager plays: the actions wrapped in a Sequential group and copied. */
  function Root(actions: seq<Action>): Action {
    Copy(MakeGroup(Sequential, Count(1), actions))
  }

  /**
   * `ActionManager(sprite, actions, end_func)`: playback starts only when the first action is
   * truthy; the root generator is run to its first `yield` at once, and a root that finishes
   * there lets StopIteration escape the constructor.
   */
  function Start(actions: seq<Action>, endFunc: Option<nat>, env: Env): (r: Result<Manager>)
    ensures !(|actions| > 0 && IsTruthy(actions[0])) ==> r == Ok(Manager(None, None, Fresh(endFunc)))
    ensures |actions| > 0 && IsTruthy(actions[0]) ==>
              var p := Prime(Root(actions), env);
              (p.Err? ==> r == Err(p.error))
              && (p == Ok(None) ==> r == Err(StopIteration))
              && (p.Ok? && p.value.Some? ==> r == Ok(Manager(Some(Root(actions)), p.value, Fresh(endFunc))))
    ensures r.Ok? ==> Valid(r.value) && r.value.ctx == Fresh(endFunc)
  {
    if |actions| > 0 && IsTruthy(actions[0]) then
      var root := Root(actions);
      var p :- Prime(root, env);
      if p.None? then Err(StopIteration) else Ok(Manager(Some(root), p, Fresh(endFunc)))
    else Ok(Manager(None, None, Fresh(endFunc)))
  }

  /** The manager and the frame the sprite shows after a call to `update`. */
  datatype Updated = Updated(m: Manager, shown: Frame)

  /**
   * `ActionManager.update`: the covers are folded over the sprite's original frame and the result
   * is sent into the generator. A yielded frame is shown, None keeps the current one. When the
   * generator finishes it is dropped and the end function, if any, is called.
   */
  function Update(m: Manager, shown: Frame, now: int, env: Env): (r: Result<Updated>)
    requires Valid(m)
    ensures m.gen.None? ==> r == Ok(Updated(m, shown))
    ensures r.Ok? ==> Valid(r.value.m) && r.value.m.actions == m.actions && r.value.m.ctx.endFunc == m.ctx.endFunc
    ensures r.Ok? && m.gen.Some? && r.value.m.gen.None? ==>
              r.value.shown == shown
              && (m.ctx.endFunc.Some? ==>
                    |r.value.m.ctx.events| > 0 && r.value.m.ctx.events[|r.value.m.ctx.events| - 1] == EndCalled)
  {
    if m.gen.None? then Ok(Updated(m, shown))
    else
      var folded :- FoldCovers(m.ctx.covers, Some(Frame(env.origImage, env.origRect)), env);
      var ctx := m.ctx.(events := m.ctx.events + folded.events);
      var o :- Step(m.gen.value, folded.upd, now, env, ctx);
      match o
      case Yield(out, run, c) => Ok(Updated(Manager(m.actions, Some(run), c), if out.Some? then out.value else shown))
      case Done(c) =>
        Ok(Updated(Manager(m.actions, None, c.(events := c.events + (if c.endFunc.Some? then [EndCalled] else []))), shown))
  }

  /** Once the generator has finished, further updates change nothing: the end function runs once. */
  lemma UpdateAfterFinishIsIdle(m: Manager, shown: Frame, now: int, later: int, env: Env)
    requires Valid(m) && m.gen.Some? && Update(m, shown, now, env).Ok?
    requires Update(m, shown, now, env).value.m.gen.None?
    ensures var u := Update(m, shown, now, env).value;
            Update(u.m, u.shown, later, env) == Ok(u)
  {
  }

  /** A frame the generator yields is what the sprite shows; a None tick keeps the old frame. */
  lemma UpdateShowsYieldedFrame(m: Manager, shown: Frame, now: int, env: Env)
    requires Valid(m) && m.gen.Some? && Update(m, shown, now, env).Ok?
    requires Update(m, shown, now, env).value.m.gen.Some?
    ensures var folded := FoldCovers(m.ctx.covers, Some(Frame(env.origImage, env.origRect)), env).value;
            var o := Step(m.gen.value, folded.upd, now, env, m.ctx.(events := m.ctx.events + folded.events)).value;
            var u := Update(m, shown, now, env).value;
            o.Yield? && u.m.gen == Some(o.run) && u.shown == (if o.out.Some? then o.out.value else shown)
  {
  }

  /** The leaves whose final effect persists, in tree order. */
  function CoverLeaves(leaves: seq<Action>): (r: seq<Action>)
    ensures forall l :: l in r ==> l in leaves && l.cover
    ensures forall l :: l in leaves && l.cover ==> l in r
    ensures |r| <= |leaves|
  {
    if |leaves| == 0 then []
    else if leaves[0].cover then [leaves[0]] + CoverLeaves(leaves[1..])
    else CoverLeaves(leaves[1..])
  }

  /**
   * The covers `recover` rebuilds: for every cover leaf in order, `get_cover` re-runs its `init`
   * and keeps its `get` at 1.
   */
  function RecoverCovers(leaves: seq<Action>, env: Env): (r: Result<seq<Action>>)
    requires forall i :: 0 <= i < |leaves| ==> leaves[i].Leaf?
    ensures r.Ok? <==> forall l :: l in CoverLeaves(leaves) ==> Init(l, env).Ok?
    ensures r.Ok? ==> |r.value| == |CoverLeaves(leaves)|
                      && forall i :: 0 <= i < |r.value| ==> Init(CoverLeaves(leaves)[i], env) == Ok(r.value[i])
  {
    if |leaves| == 0 then Ok([])
    else if !leaves[0].cover then RecoverCovers(leaves[1..], env)
    else
      var c :- Init(leaves[0], env);
      var rest :- RecoverCovers(leaves[1..], env);
      Ok([c] + rest)
  }

  /**
   * `recover()`: the covers are rebuilt from every cover leaf of the tree. A manager that never
   * started has no tree to walk. The rebuilt covers are re-initialised copies; the leaves the
   * generator is playing keep their state.
   */
  function Recover(m: Manager, env: Env): (r: Result<Manager>)
    requires Valid(m)
    ensures m.actions.None? ==> r == Err(AttributeError)
    ensures r.Ok? ==> Valid(r.value) && r.value.actions == m.actions && r.value.gen == m.gen
                      && r.value.ctx == m.ctx.(covers := r.value.ctx.covers)
    ensures m.actions.Some? ==> r.Ok? == RecoverCovers(Leaves(m.actions.value), env).Ok?
    ensures r.Ok? ==> RecoverCovers(Leaves(m.actions.value), env) == Ok(r.value.ctx.covers)
  {
    if m.actions.None? then Err(AttributeError)
    else
      var leaves := Leaves(m.actions.value);
      assert forall i :: 0 <= i < |leaves| ==> leaves[i].Leaf? by {
        forall i | 0 <= i < |leaves| ensures leaves[i].Leaf? { assert leaves[i] in leaves; }
      }
      var covers :- RecoverCovers(leaves, env);
      Ok(m.(ctx := m.ctx.(covers := covers)))
  }

  /**
   * A rebuilt cover is its leaf as `init` leaves it, and initialising it again changes nothing:
   * it is the same leaf a finished pass registers.
   */
  lemma {:induction false} RecoveredCoversAreStable(leaves: seq<Action>, env: Env)
    requires forall i :: 0 <= i < |leaves| ==> leaves[i].Leaf?
    ensures RecoverCovers(leaves, env).Ok? ==>
              forall i :: 0 <= i < |RecoverCovers(leaves, env).value| ==>
                var c := RecoverCovers(leaves, env).value[i];
                c.Leaf? && c.cover && Init(c, env) == Ok(c)
  {
    if RecoverCovers(leaves, env).Err? { return; }
    var cs := RecoverCovers(leaves, env).value;
    var ls := CoverLeaves(leaves);
    forall i | 0 <= i < |cs|
      ensures cs[i].Leaf? && cs[i].cover && Init(cs[i], env) == Ok(cs[i])
    {
      assert ls[i] in ls;
      InitIdempotent(ls[i], env);
    }
  }

  /**
   * An `ActionObject` (a sprite that plays actions): its end function, its manager (None before
   * `act` and after `stop`), the frame it shows, and whether an End action has run its `end()`.
   * `end()` removes the manager and the end function, turns `act` into None and replaces `update`
   * by one that ignores actions; the model keeps the last manager only as the record of what ran.
   */
  datatype Actor = Actor(endFunc: Option<nat>, manager: Option<Manager>, shown: Frame, ended: bool)

  /** A manager is well formed, and the sprite has ended exactly when its playback has detached it. */
  predicate ActorValid(x: Actor) {
    x.manager.Some? ==> Valid(x.manager.value) && (x.manager.value.ctx.detached <==> x.ended)
  }

  /** After `end()` the sprite plays no actions; `stop` does not undo this. */
  predicate Ended(x: Actor) {
    x.ended
  }

  /** `act(*actions, end_func=None)`: a truthy end function replaces the kept one; a new manager starts. */
  function Act(x: Actor, actions: seq<Action>, endFunc: Option<nat>, env: Env): (r: Result<Actor>)
    ensures Ended(x) ==> r == Err(TypeError)
    ensures r.Ok? ==> ActorValid(r.value) && r.value.shown == x.shown && !Ended(r.value)
                      && r.value.endFunc == (if endFunc.Some? then endFunc else x.endFunc)
                      && r.value.manager.Some? && r.value.manager.value.ctx == Fresh(r.value.endFunc)
    ensures !Ended(x) ==> r.Ok? == Start(actions, if endFunc.Some? then endFunc else x.endFunc, env).Ok?
  {
    if Ended(x) then Err(TypeError)
    else
      var ef := if endFunc.Some? then endFunc else x.endFunc;
      var m :- Start(actions, ef, env);
      Ok(x.(endFunc := ef, manager := Some(m)))
  }

  /** `ActionObject(actions, end_func)`: `act` runs only when some action was given. */
  function NewActor(actions: seq<Action>, endFunc: Option<nat>, shown: Frame, env: Env): (r: Result<Actor>)
    ensures |actions| == 0 ==> r == Ok(Actor(endFunc, None, shown, false))
    ensures r.Ok? ==> ActorValid(r.value) && r.value.endFunc == endFunc && !Ended(r.value)
    ensures |actions| > 0 ==> r.Ok? == Start(actions, endFunc, env).Ok?
  {
    if |actions| > 0 then Act(Actor(endFunc, None, shown, false), actions, endFunc, env)
    else Ok(Actor(endFunc, None, shown, false))
  }

  /**
   * `stop(call_end_func)`: the manager is dropped; when asked, the end function is called first,
   * which needs an end function (gone after `end()`), a manager to read the actions from, and
   * something callable. Whether the sprite has ended is kept.
   */
  function Stop(x: Actor, callEndFunc: bool): (r: Result<(Actor, bool)>)
    ensures !callEndFunc ==> r == Ok((x.(manager := None), false))
    ensures callEndFunc ==>
              (r.Ok? <==> !Ended(x) && x.manager.Some? && x.endFunc.Some?)
              && (r.Ok? ==> r.value == (x.(manager := None), true))
              && (Ended(x) || x.manager.None? ==> r == Err(AttributeError))
              && (x.manager.Some? && !Ended(x) && x.endFunc.None? ==> r == Err(TypeError))
    ensures r.Ok? ==> r.value.0.manager.None? && (Ended(r.value.0) <==> Ended(x))
    ensures ActorValid(x) && r.Ok? ==> ActorValid(r.value.0)
  {
    if !callEndFunc then Ok((x.(manager := None), false))
    else if Ended(x) || x.manager.None? then Err(AttributeError)
    else if x.endFunc.None? then Err(TypeError)
    else Ok((x.(manager := None), true))
  }

  /**
   * `ActionObject.update`: the manager, if any, is updated, and the sprite has ended once that
   * update ran an End action; an ended sprite's `update` no longer touches actions.
   */
  function ActorUpdate(x: Actor, now: int, env: Env): (r: Result<Actor>)
    requires ActorValid(x)
    ensures x.manager.None? || Ended(x) ==> r == Ok(x)
    ensures r.Ok? ==> ActorValid(r.value) && r.value.endFunc == x.endFunc
                      && (r.value.manager.Some? <==> x.manager.Some?)
                      && (Ended(x) ==> Ended(r.value))
    ensures r.Ok? && x.manager.Some? && !Ended(x) ==>
              Update(x.manager.value, x.shown, now, env) == Ok(Updated(r.value.manager.value, r.value.shown))
              && (Ended(r.value) <==> r.value.manager.value.ctx.detached)
  {
    if x.manager.None? || Ended(x) then Ok(x)
    else
      var u :- Update(x.manager.value, x.shown, now, env);
      Ok(x.(manager := Some(u.m), shown := u.shown, ended := u.m.ctx.detached))
  }

  /**
   * `stop(False)` after `end()` leaves the sprite ended: `act` is None, so calling it raises
   * TypeError, and `update` still ignores actions.
   */
  lemma StoppedEndedStaysEnded(x: Actor, actions: seq<Action>, endFunc: Option<nat>, now: int, env: Env)
    requires ActorValid(x) && Ended(x)
    ensures Stop(x, false).Ok?
    ensures var y := Stop(x, false).value.0;
            Ended(y) && ActorValid(y)
            && Act(y, actions, endFunc, env) == Err(TypeError)
            && ActorUpdate(y, now, env) == Ok(y)
            && Stop(y, true) == Err(AttributeError)
  {
  }
}

=== FILE: mixing.dfy ===
/** Interpolation, counting and rounding helpers of epg/math.py. Floats are exact reals here. */
module Mixing {
  import opened Errors
  import opened Values
  import Py

  /** `mix(a, b, t)` on scalars: the point a fraction t of the way from a to b. */
  function Mix(a: real, b: real, t: real): (r: real)
    ensures t == 0.0 ==> r == a
    ensures t == 1.0 ==> r == b
    ensures a == b ==> r == a
    ensures a <= b && 0.0 <= t <= 1.0 ==> a <= r <= b
    ensures b <= a && 0.0 <= t <= 1.0 ==> b <= r <= a
  {
    MixBetween(a, b, t);
    a + t * (b - a)
  }

  lemma MixBetween(a: real, b: real, t: real)
    ensures a <= b && 0.0 <= t <= 1.0 ==> 0.0 <= t * (b - a) <= b - a
    ensures b <= a && 0.0 <= t <= 1.0 ==> b - a <= t * (b - a) <= 0.0
  {
    if 0.0 <= t <= 1.0 {
      if a <= b {
        MulNonneg(t, b - a);
        MulNonneg(1.0 - t, b - a);
      } else {
        MulNonneg(t, a - b);
        MulNonneg(1.0 - t, a - b);
      }
    }
  }

  lemma MulNonneg(x: real, y: real)
    requires x >= 0.0 && y >= 0.0
    ensures x * y >= 0.0
  {
  }

  /**
   * `a + pos * (b - a)` on two numbers. Python keeps the result an int when all three are ints
   * (the first and last frames pass the int positions 0 and 1).
   */
  function MixScalar(a: Val, b: Val, pos: Val): (r: Val)
    requires IsNumber(a) && IsNumber(b) && IsNumber(pos)
    ensures IsNumber(r) && NumValue(r) == Mix(NumValue(a), NumValue(b), NumValue(pos))
    ensures r.VInt? <==> IsIntLike(a) && IsIntLike(b) && IsIntLike(pos)
  {
    if IsIntLike(a) && IsIntLike(b) && IsIntLike(pos) then
      var x, y, t := IntValue(a), IntValue(b), IntValue(pos);
      assert (x + t * (y - x)) as real == x as real + t as real * (y as real - x as real);
      VInt(x + t * (y - x))
    else VReal(Mix(NumValue(a), NumValue(b), NumValue(pos)))
  }

  /** `mix(a, b, pos)` on keyword values: scalar arithmetic first, element-wise over `zip` when that raises. */
  function MixVal(a: Val, b: Val, pos: Val): (r: Result<Val>)
    requires IsNumber(pos)
    ensures IsNumber(a) && IsNumber(b) ==> r == Ok(MixScalar(a, b, pos))
    ensures !(IsNumber(a) && IsNumber(b)) && !(IsSeq(a) && IsSeq(b)) ==> r == Err(TypeError)
    ensures IsSeq(a) && IsSeq(b) && r.Ok? ==>
              r.value.VList? && |r.value.items| == Min(|Elements(a)|, |Elements(b)|)
    ensures IsSeq(a) && IsSeq(b) && r.Ok? ==>
              forall k :: 0 <= k < |r.value.items| ==>
                IsNumber(Elements(a)[k]) && IsNumber(Elements(b)[k]) &&
                r.value.items[k] == MixScalar(Elements(a)[k], Elements(b)[k], pos)
    ensures IsSeq(a) && IsSeq(b) ==>
              (r.Ok? <==> forall k :: 0 <= k < Min(|Elements(a)|, |Elements(b)|) ==>
                             IsNumber(Elements(a)[k]) && IsNumber(Elements(b)[k]))
  {
    if IsNumber(a) && IsNumber(b) then Ok(MixScalar(a, b, pos))
    else if IsSeq(a) && IsSeq(b) then
      var xs :- ZipMix(Elements(a), Elements(b), pos);
      Ok(VList(xs))
    else Err(TypeError)
  }

  /** Mixing at position 0 gives the start value back, numerically. */
  lemma MixValStart(a: Val, b: Val)
    requires IsNumber(a) && IsNumber(b)
    ensures NumValue(MixVal(a, b, VInt(0)).value) == NumValue(a)
    ensures IsIntLike(a) && IsIntLike(b) ==> MixVal(a, b, VInt(0)) == Ok(VInt(IntValue(a)))
  {
  }

  /** Mixing at position 1 gives the end value, numerically. */
  lemma MixValEnd(a: Val, b: Val)
    requires IsNumber(a) && IsNumber(b)
    ensures NumValue(MixVal(a, b, VInt(1)).value) == NumValue(b)
    ensures IsIntLike(a) && IsIntLike(b) ==> MixVal(a, b, VInt(1)) == Ok(VInt(IntValue(b)))
  {
  }

  /** Mixing two int pairs at an int position stays in ints, coordinate by coordinate. */
  lemma MixIntPairs(a0: int, a1: int, b0: int, b1: int, t: int)
    ensures MixVal(IntPair(a0, a1), IntPair(b0, b1), VInt(t))
            == Ok(VList([VInt(a0 + t * (b0 - a0)), VInt(a1 + t * (b1 - a1))]))
  {
    var a, b := IntPair(a0, a1), IntPair(b0, b1);
    assert Elements(a) == [VInt(a0), VInt(a1)];
    assert Elements(b) == [VInt(b0), VInt(b1)];
    var r := MixVal(a, b, VInt(t)).value;
    assert |r.items| == 2;
    assert r.items[0] == MixScalar(VInt(a0), VInt(b0), VInt(t)) == VInt(a0 + t * (b0 - a0));
    assert r.items[1] == MixScalar(VInt(a1), VInt(b1), VInt(t)) == VInt(a1 + t * (b1 - a1));
    assert r.items == [VInt(a0 + t * (b0 - a0)), VInt(a1 + t * (b1 - a1))];
  }

  function Min(a: int, b: int): int {
    if a < b then a else b
  }

  /** `[xa + pos*(xb - xa) for xa, xb in zip(a, b)]`; a non-numeric pair raises. */
  function ZipMix(xs: seq<Val>, ys: seq<Val>, pos: Val): (r: Result<seq<Val>>)
    requires IsNumber(pos)
    ensures r.Ok? ==> |r.value| == Min(|xs|, |ys|)
    ensures r.Ok? ==> forall k :: 0 <= k < |r.value| ==>
              IsNumber(xs[k]) && IsNumber(ys[k]) && r.value[k] == MixScalar(xs[k], ys[k], pos)
    ensures r.Ok? <==> forall k :: 0 <= k < Min(|xs|, |ys|) ==> IsNumber(xs[k]) && IsNumber(ys[k])
  {
    if |xs| == 0 || |ys| == 0 then Ok([])
    else if IsNumber(xs[0]) && IsNumber(ys[0]) then
      var rest :- ZipMix(xs[1..], ys[1..], pos);
      Ok([MixScalar(xs[0], ys[0], pos)] + rest)
    else Err(TypeError)
  }

  /** What `counter` yields: a finite `range`, or the endless progression start, start+step, ... */
  datatype Counter = Bounded(values: seq<int>) | Unbounded(first: int, step: int)

  /** `counter(start, stop, step)`; a missing or zero `stop` means "never stop". */
  function Count(start: int, stop: Option<int>, step: int): (r: Result<Counter>)
    ensures (stop == None || stop == Some(0)) ==> r == Ok(Unbounded(start, step))
    ensures stop.Some? && stop.value != 0 && step == 0 ==> r == Err(ValueError)
    ensures stop.Some? && stop.value != 0 && step != 0 ==>
              r.Ok? && r.value.Bounded? && |r.value.values| == RangeLen(start, stop.value, step)
              && forall k :: 0 <= k < |r.value.values| ==> r.value.values[k] == start + k * step
  {
    if stop == None || stop == Some(0) then Ok(Unbounded(start, step))
    else if step == 0 then Err(ValueError)
    else Ok(Bounded(Range(start, stop.value, step)))
  }

  /** The k-th value of an endless counter. */
  function Nth(c: Counter, k: nat): (r: Option<int>)
    ensures c.Unbounded? ==> r == Some(c.first + k * c.step)
    ensures c.Bounded? ==> (r.Some? <==> k < |c.values|)
  {
    match c
    case Bounded(vs) => if k < |vs| then Some(vs[k]) else None
    case Unbounded(f, s) => Some(f + k * s)
  }

  /** The number of values in `range(start, stop, step)`, counted independently of the walk. */
  function RangeLen(start: int, stop: int, step: int): nat
    requires step != 0
  {
    if step > 0 then (if start < stop then (stop - start - 1) / step + 1 else 0)
    else (if start > stop then (start - stop - 1) / (-step) + 1 else 0)
  }

  /** Python's `range(start, stop, step)` with step != 0. */
  function Range(start: int, stop: int, step: int): (r: seq<int>)
    requires step != 0
    ensures |r| == RangeLen(start, stop, step)
    ensures forall k :: 0 <= k < |r| ==> r[k] == start + k * step
    decreases if step > 0 then stop - start else start - stop
  {
    if (step > 0 && start < stop) || (step < 0 && start > stop) then
      var rest := Range(start + step, stop, step);
      RangeLenStep(start, stop, step);
      [start] + rest
    else []
  }

  lemma RangeLenStep(start: int, stop: int, step: int)
    requires (step > 0 && start < stop) || (step < 0 && start > stop)
    ensures RangeLen(start + step, stop, step) + 1 == RangeLen(start, stop, step)
  {
    if step > 0 {
      CountDown(stop - start - 1, step);
    } else {
      CountDown(start - stop - 1, -step);
    }
  }

  /** One step less to go leaves one value fewer: the arithmetic behind `RangeLenStep`. */
  lemma CountDown(d: int, s: int)
    requires d >= 0 && s > 0
    ensures (if d >= s then (d - s) / s + 1 else 0) + 1 == d / s + 1
  {
    if d >= s {
      DivShift(d - s, s);
      assert d - s + s == d;
    } else {
      DivUnique(d, s, 0, d);
    }
  }

  /** Multiplying by a non-negative factor keeps the order. */
  lemma MulMonotone(a: int, b: int, c: int)
    requires a <= b && c >= 0
    ensures a * c <= b * c
  {
    assert b * c - a * c == (b - a) * c;
  }

  lemma DivShift(x: int, s: int)
    requires x >= 0 && s > 0
    ensures (x + s) / s == x / s + 1
  {
    var q, r := x / s, x % s;
    assert x == q * s + r && 0 <= r < s;
    assert x + s == (q + 1) * s + r;
    DivUnique(x + s, s, q + 1, r);
  }

  lemma DivUnique(n: int, s: int, q: int, r: int)
    requires s > 0 && 0 <= r < s && n == q * s + r
    ensures n / s == q
  {
    var q', r' := n / s, n % s;
    assert n == q' * s + r' && 0 <= r' < s;
    if q' < q {
      MulAtLeast(q - q', s);
    } else if q' > q {
      MulAtLeast(q' - q, s);
    }
  }

  lemma MulAtLeast(k: int, s: int)
    requires k >= 1 && s > 0
    ensures k * s >= s
  {
    assert k * s == (k - 1) * s + s;
    assert (k - 1) * s >= 0;
  }

  /** Every value `range` yields lies on the start side of `stop`. */
  lemma {:induction false} RangeStaysBeforeStop(start: int, stop: int, step: int)
    requires step != 0
    ensures step > 0 ==> forall v :: v in Range(start, stop, step) ==> start <= v < stop
    ensures step < 0 ==> forall v :: v in Range(start, stop, step) ==> stop < v <= start
    decreases if step > 0 then stop - start else start - stop
  {
    if (step > 0 && start < stop) || (step < 0 && start > stop) {
      RangeStaysBeforeStop(start + step, stop, step);
      assert Range(start, stop, step) == [start] + Range(start + step, stop, step);
    }
  }

  /** `round_to_int(x)`: nearest integer with halves rounded up for x >= 0; truncation for x < 0. */
  function RoundToInt(x: real): (r: int)
    ensures x >= 0.0 ==> r as real - 0.5 <= x < r as real + 0.5
    ensures x < 0.0 ==> r as real - 1.0 < x <= r as real
  {
    var i := Py.Trunc(x);
    if x - i as real < 0.5 then i else i + 1
  }
}

=== FILE: playback.dfy ===
/**
 * Playback of action trees (epg/action.py): the Python generators become explicit run states
 * and one `Step` per `send`. The clock reading `now` and the composed base frame are inputs;
 * each step yields an optional frame and a new state, or reports that the generator finished.
 */
module Playback {
  import opened Errors
  import opened Values
  import opened Actions
  import opened Effects
  import Geometry

  /** Where a leaf's current pass stands. */
  datatype Phase =
    | Primed                                     // init done, parked at the bare `yield`
    | Sampling(pos: Val, start: int, last: int)  // the last progress yielded, pass start, last resample
    | Closing                                    // get(1) yielded; the next send ends the pass

  datatype Stage = Armed | Fired

  /** A suspended generator, with the action it plays. */
  datatype Run =
    | LeafRun(src: Action, live: Action, pass: nat, phase: Phase)   // live: the leaf after init
    | SpecialRun(src: Action, stage: Stage)
    | SeqRun(src: Action, pass: nat, idx: nat, child: Run)          // AsyncActions: child idx running
    | ParFresh(src: Action)                                         // SyncActions before the first send
    | ParRun(src: Action, gens: seq<Live>)                          // SyncActions: the live children

  /** A live child generator of a Parallel group and the index of the child it plays. */
  datatype Live = Live(index: nat, run: Run)

  /** The part of the world a step touches: the manager's covers, the calls made, the sprite's state. */
  datatype Ctx = Ctx(covers: seq<Action>, events: seq<Event>, detached: bool, endFunc: Option<nat>)

  /** Every registered cover is a leaf (its `get` at 1). */
  predicate CoversOK(ctx: Ctx) {
    forall i :: 0 <= i < |ctx.covers| ==> ctx.covers[i].Leaf?
  }

  datatype Outcome = Yield(out: Option<Frame>, run: Run, ctx: Ctx) | Done(ctx: Ctx)

  /** A run state that `generate` can actually reach for its action. */
  predicate WF(r: Run)
    decreases r
  {
    match r
    case LeafRun(a, live, _, phase) =>
      a.Leaf? && !IsSpecial(a.kind) && live.Leaf? && (phase.Sampling? ==> IsPos(phase.pos))
    case SpecialRun(a, _) => a.Leaf? && IsSpecial(a.kind)
    case SeqRun(g, _, idx, child) =>
      g.Group? && g.mode.Sequential? && idx < |g.children| && child.src == g.children[idx] && WF(child)
    case ParFresh(g) => g.Group? && g.mode.Parallel?
    case ParRun(g, ls) =>
      g.Group? && g.mode.Parallel? && |ls| > 0
      && forall k :: 0 <= k < |ls| ==>
           ls[k].index < |g.children| && ls[k].run.src == g.children[ls[k].index] && WF(ls[k].run)
  }

  /** A live child generator that plays child `l.index` of g. */
  predicate LiveOf(g: Action, l: Live)
    requires g.Group?
  {
    l.index < |g.children| && l.run.src == g.children[l.index] && WF(l.run)
  }

  /**
   * Starting a generator and running it to its first `yield`. None: it finished while being
   * started (an empty Sequential group, or one whose children all finish that way).
   */
  function Prime(a: Action, env: Env): (r: Result<Option<Run>>)
    ensures r.Ok? && r.value.Some? ==> WF(r.value.value) && r.value.value.src == a
    ensures a.Leaf? && IsSpecial(a.kind) ==> r == Ok(Some(SpecialRun(a, Armed)))
    ensures a.Leaf? && !IsSpecial(a.kind) ==>
              (r.Ok? <==> Init(a, env).Ok?) && (r.Ok? ==> r.value == Some(LeafRun(a, Init(a, env).value, 0, Primed)))
    ensures a.Group? && a.mode.Parallel? ==> r == Ok(Some(ParFresh(a)))
    decreases a, 2, 0
  {
    match a
    case Leaf(_, _, _, _, _, _, _, _, _) =>
      if IsSpecial(a.kind) then Ok(Some(SpecialRun(a, Armed)))
      else
        var live :- Init(a, env);
        Ok(Some(LeafRun(a, live, 0, Primed)))
    case Group(_, _, _, _, _, _, _) =>
      if a.mode.Parallel? then Ok(Some(ParFresh(a))) else PrimeSeq(a, 0, 0, env)
  }

  /** The first child from position `from` on whose generator does not finish while starting. */
  function FirstLive(g: Action, from: nat, env: Env): (r: Result<Option<(nat, Run)>>)
    requires g.Group?
    ensures r.Ok? && r.value.Some? ==>
              from <= r.value.value.0 < |g.children| && WF(r.value.value.1)
              && r.value.value.1.src == g.children[r.value.value.0]
              && Prime(g.children[r.value.value.0], env) == Ok(Some(r.value.value.1))
    ensures r.Ok? ==> forall k :: from <= k < |g.children| && (r.value.None? || k < r.value.value.0) ==>
              Prime(g.children[k], env) == Ok(None)
    decreases g, 0, |g.children| - from
  {
    if from >= |g.children| then Ok(None)
    else
      var p :- Prime(g.children[from], env);
      if p.Some? then Ok(Some((from, p.value))) else FirstLive(g, from + 1, env)
  }

  /**
   * `AsyncActions.generate` resumed at child `from` of pass `pass`: `yield from` each child in
   * turn, on each of `total` passes. When no child of a whole pass gets as far as a `yield`, no
   * later pass does either, so an endless total never yields again.
   */
  function PrimeSeq(g: Action, pass: nat, from: nat, env: Env): (r: Result<Option<Run>>)
    requires g.Group? && g.mode.Sequential?
    ensures r.Ok? && r.value.Some? ==> WF(r.value.value) && r.value.value.src == g && r.value.value.SeqRun?
    ensures r.Ok? && r.value.Some? ==> var run := r.value.value;
              Below(run.pass, g.total) && Prime(g.children[run.idx], env) == Ok(Some(run.child))
    ensures !Below(pass, g.total) ==> r == Ok(None)
    decreases g, 1, 0
  {
    if !Below(pass, g.total) then Ok(None)
    else
      var f :- FirstLive(g, from, env);
      if f.Some? then Ok(Some(SeqRun(g, pass, f.value.0, f.value.1)))
      else if !Below(pass + 1, g.total) then Ok(None)
      else
        var f2 :- FirstLive(g, 0, env);
        if f2.Some? then Ok(Some(SeqRun(g, pass + 1, f2.value.0, f2.value.1)))
        else if g.total.PosInf? then Err(Unterminated)
        else Ok(None)
  }

  /** `pos = (now - start) / duration`, capped at the int 1. */
  function Progress(now: int, start: int, duration: int): (p: Val)
    requires duration != 0
    ensures IsPos(p)
    ensures var q := (now - start) as real / duration as real;
            (q > 1.0 ==> p == VInt(1)) && (q <= 1.0 ==> p == VReal(q))
    ensures duration > 0 && now >= start ==> 0.0 <= NumValue(p) <= 1.0
  {
    var q := (now - start) as real / duration as real;
    if q > 1.0 then VInt(1) else VReal(q)
  }

  function Note(ctx: Ctx, e: Option<Event>): (c: Ctx)
    ensures c.covers == ctx.covers && c.detached == ctx.detached && c.endFunc == ctx.endFunc
    ensures c.events == ctx.events + (if e.Some? then [e.value] else [])
  {
    if e.Some? then ctx.(events := ctx.events + [e.value]) else ctx
  }

  /** Pass `i` of a leaf begins: the start time is now, and the first frame is get(0). */
  function StartPass(a: Action, live: Action, i: nat, upd: Option<Frame>, now: int, env: Env, ctx: Ctx): (r: Result<Outcome>)
    requires a.Leaf? && !IsSpecial(a.kind) && live.Leaf?
    ensures !Below(i, live.total) ==> r == Ok(Done(ctx))
    ensures Below(i, live.total) ==>
              (r.Ok? <==> Get(live, VInt(0), upd, env).Ok?)
              && (r.Ok? ==> r.value == Yield(Get(live, VInt(0), upd, env).value.out,
                                             LeafRun(a, live, i, Sampling(VInt(0), now, now)),
                                             Note(ctx, Get(live, VInt(0), upd, env).value.event)))
  {
    if !Below(i, live.total) then Ok(Done(ctx))
    else
      var s :- Get(live, VInt(0), upd, env);
      Ok(Yield(s.out, LeafRun(a, live, i, Sampling(VInt(0), now, now)), Note(ctx, s.event)))
  }

  /** What a special action does when it fires. After `end()` the sprite has no manager any more. */
  function Fire(a: Action, ctx: Ctx): (r: Result<Ctx>)
    requires a.Leaf? && IsSpecial(a.kind)
    ensures r.Ok? && !a.kind.Clear? ==> r.value.covers == ctx.covers
    ensures r.Ok? && a.kind.Clear? ==> r.value.covers == []
    ensures r.Ok? && !a.kind.End? ==> r.value.detached == ctx.detached
    ensures r.Ok? && a.kind.End? ==> !ctx.detached && r.value.detached && r.value.events == ctx.events + [Ended]
    ensures r.Ok? ==> r.value.endFunc == ctx.endFunc
    ensures r.Ok? && a.kind.Kill? ==>
              "call_end_func" in a.kw
              && r.value.events == ctx.events
                   + (if Truthy(a.kw["call_end_func"]) && ctx.endFunc.Some? then [EndCalled] else []) + [Killed]
  {
    match a.kind
    case Call =>
      var f :- Kw(a, "func");
      if !Truthy(f) then Ok(ctx)
      else if f.VFunc? then Ok(ctx.(events := ctx.events + [Called(f.fid)]))
      else Err(TypeError)
    case Clear => if ctx.detached then Err(AttributeError) else Ok(ctx.(covers := []))
    case Kill =>
      var flag :- Kw(a, "call_end_func");
      if Truthy(flag) && ctx.detached then Err(AttributeError)
      else
        var called := if Truthy(flag) && ctx.endFunc.Some? then [EndCalled] else [];
        Ok(ctx.(events := ctx.events + called + [Killed]))
    case End => if ctx.detached then Err(AttributeError) else Ok(ctx.(detached := true, events := ctx.events + [Ended]))
    case Remain => Ok(ctx)
  }

  /**
   * `get_cover` at the end of a pass: a covering leaf runs `init` again against the sprite as it
   * is now, so both the cover and every later pass play from the re-resolved state. A leaf that
   * does not cover is left alone.
   */
  function Reinit(live: Action, env: Env): (r: Result<Action>)
    requires live.Leaf?
    ensures !live.cover ==> r == Ok(live)
    ensures live.cover ==> r == Init(live, env)
    ensures r.Ok? ==> r.value.Leaf? && r.value.kind == live.kind && r.value.total == live.total
                      && r.value.duration == live.duration && r.value.interval == live.interval
                      && r.value.cover == live.cover && r.value.origKw == live.origKw
  {
    if live.cover then Init(live, env) else Ok(live)
  }

  /**
   * The end of a leaf pass: the cover (the leaf re-initialised, sampled at 1) is registered. The
   * cover is a snapshot of the leaf as it is now, not a reference that later re-inits update.
   */
  function Register(live: Action, ctx: Ctx): (r: Result<Ctx>)
    requires live.Leaf?
    ensures !live.cover ==> r == Ok(ctx)
    ensures live.cover && !ctx.detached ==> r == Ok(ctx.(covers := ctx.covers + [live]))
    ensures live.cover && ctx.detached ==> r == Err(AttributeError)
  {
    if !live.cover then Ok(ctx)
    else if ctx.detached then Err(AttributeError)
    else Ok(ctx.(covers := ctx.covers + [live]))
  }

  /**
   * Ending a pass of a covering leaf: an error from the fresh `init` comes first, then the missing
   * manager; otherwise the re-initialised leaf is both the registered cover and what the next
   * pass plays.
   */
  lemma ClosingReinitialises(a: Action, live: Action, pass: nat, upd: Option<Frame>, now: int, env: Env, ctx: Ctx)
    requires a.Leaf? && !IsSpecial(a.kind) && live.Leaf? && live.cover
    ensures var o := Step(LeafRun(a, live, pass, Closing), upd, now, env, ctx);
            (Init(live, env).Err? ==> o == Err(Init(live, env).error))
            && (Init(live, env).Ok? && ctx.detached ==> o == Err(AttributeError))
            && (Init(live, env).Ok? && !ctx.detached ==>
                  o == StartPass(a, Init(live, env).value, pass + 1, upd, now, env,
                                 ctx.(covers := ctx.covers + [Init(live, env).value])))
  {
  }

  /**
   * Against the sprite `generate` started from, the re-run `init` changes nothing: the cover is
   * the leaf as it was primed.
   */
  lemma ReinitSameSprite(a: Action, env: Env)
    requires a.Leaf? && Init(a, env).Ok?
    ensures Reinit(Init(a, env).value, env) == Init(a, env)
  {
    InitIdempotent(a, env);
  }

  /**
   * Once the sprite's original rect has moved, a MoveTo cover whose range starts with None picks
   * up the anchor point of the rect as it is now, not the one the leaf was primed with.
   */
  lemma MoveToCoverFollowsSprite(live: Action, env: Env)
    requires live.Leaf? && live.kind.MoveTo? && live.cover
    requires "anchor" in live.kw && AttrOf(live.kw["anchor"]).Ok?
    requires "range" in live.origKw && live.origKw["range"].VTuple? && |live.origKw["range"].items| == 2
    requires live.origKw["range"].items[0] == VNone && Truthy(live.origKw["range"].items[1])
    ensures Reinit(live, env).Ok?
    ensures Reinit(live, env).value.kw["range"]
            == VList([Geometry.GetAttr(env.origRect, AttrOf(live.kw["anchor"]).value), live.origKw["range"].items[1]])
  {
    var items := live.origKw["range"].items;
    assert Elements(live.origKw["range"])[0 := Geometry.GetAttr(env.origRect, AttrOf(live.kw["anchor"]).value)]
           == [Geometry.GetAttr(env.origRect, AttrOf(live.kw["anchor"]).value), items[1]];
  }

  /** One `send(upd)` into a suspended generator. */
  function Step(r: Run, upd: Option<Frame>, now: int, env: Env, ctx: Ctx): (o: Result<Outcome>)
    requires WF(r)
    ensures o.Ok? && o.value.Yield? ==> WF(o.value.run) && o.value.run.src == r.src
    ensures o.Ok? ==> o.value.ctx.endFunc == ctx.endFunc
    ensures o.Ok? && CoversOK(ctx) ==> CoversOK(o.value.ctx)
    decreases r.src, 2, 0
  {
    match r
    case LeafRun(a, live, pass, phase) =>
      (match phase
       case Primed => StartPass(a, live, 0, upd, now, env, ctx)
       case Sampling(pos, start, last) =>
         if live.duration != 0 && NumValue(pos) < 1.0 then
           var resample := now - last > live.interval;
           var pos' := if resample then Progress(now, start, live.duration) else pos;
           var last' := if resample then now else last;
           var s :- Get(live, pos', upd, env);
           Ok(Yield(s.out, LeafRun(a, live, pass, Sampling(pos', start, last')), Note(ctx, s.event)))
         else
           var s :- Get(live, VInt(1), upd, env);
           Ok(Yield(s.out, LeafRun(a, live, pass, Closing), Note(ctx, s.event)))
       case Closing =>
         var live' :- Reinit(live, env);
         var ctx' :- Register(live', ctx);
         StartPass(a, live', pass + 1, upd, now, env, ctx'))
    case SpecialRun(a, stage) =>
      if stage.Armed? then
        var ctx' :- Fire(a, ctx);
        Ok(Yield(None, SpecialRun(a, Fired), ctx'))
      else if a.kind.Remain? then Ok(Yield(None, r, ctx))
      else Ok(Done(ctx))
    case SeqRun(g, pass, idx, child) =>
      var o :- Step(child, upd, now, env, ctx);
      (match o
       case Yield(out, c', ctx') => Ok(Yield(out, SeqRun(g, pass, idx, c'), ctx'))
       case Done(ctx') =>
         var next :- PrimeSeq(g, pass, idx + 1, env);
         if next.Some? then Ok(Yield(None, next.value, ctx')) else Ok(Done(ctx')))
    case ParFresh(g) =>
      if !Below(0, g.total) then Ok(Done(ctx))
      else if |g.children| == 0 then
        // each pass is empty and ends at once; an endless total never returns
        if g.total.PosInf? then Err(Unterminated) else Ok(Done(ctx))
      else ParPass(g, upd, now, env, ctx)
    case ParRun(g, gens) =>
      var ro :- Round(g, gens, 0, upd, now, env, ctx, 0);
      if |ro.gens| > 0 then Ok(Yield(ro.upd, ParRun(g, ro.gens), ro.ctx))
      else if !Below(ro.last + 1, g.total) then Ok(Done(ro.ctx))
      else ParPass(g, ro.upd, now, env, ro.ctx)
  }

  /** The result of one sweep over a Parallel group's live children. */
  datatype Swept = Swept(gens: seq<Live>, upd: Option<Frame>, last: int, ctx: Ctx)

  /**
   * `for i, g in enumerate(gens)` from position j: each live child is sent the previous child's
   * output; a finished child is removed on the spot, which shifts the next one under the cursor
   * so it is skipped this tick. `last` is the enumerate index, which overwrites the pass counter.
   */
  function Round(g: Action, gens: seq<Live>, j: nat, upd: Option<Frame>, now: int, env: Env, ctx: Ctx, last: int)
    : (r: Result<Swept>)
    requires g.Group? && forall k :: 0 <= k < |gens| ==> LiveOf(g, gens[k])
    ensures r.Ok? ==> forall k :: 0 <= k < |r.value.gens| ==> LiveOf(g, r.value.gens[k])
    ensures r.Ok? ==> r.value.ctx.endFunc == ctx.endFunc
    ensures r.Ok? && CoversOK(ctx) ==> CoversOK(r.value.ctx)
    ensures r.Ok? ==> |r.value.gens| >= Min(j, |gens|) && r.value.gens[..Min(j, |gens|)] == gens[..Min(j, |gens|)]
    ensures j >= |gens| ==> r == Ok(Swept(gens, upd, last, ctx))
    decreases g, 0, |gens| - j
  {
    if j >= |gens| then Ok(Swept(gens, upd, last, ctx))
    else
      assert LiveOf(g, gens[j]);
      var o :- Step(gens[j].run, upd, now, env, ctx);
      match o
      case Yield(out, run', ctx') =>
        var kept := gens[j := Live(gens[j].index, run')];
        assert kept[..j] == gens[..j];
        Round(g, kept, j + 1, out, now, env, ctx', j)
      case Done(ctx') =>
        var rest := gens[..j] + gens[j + 1..];
        assert rest[..j] == gens[..j];
        assert forall k :: 0 <= k < |rest| ==> rest[k] == (if k < j then gens[k] else gens[k + 1]);
        Round(g, rest, j + 1, upd, now, env, ctx', j)
  }

  function Min(a: int, b: int): int {
    if a < b then a else b
  }

  /** Fresh generators for every child, each run to its first `yield`; one that finishes there raises. */
  function PrimeAll(g: Action, k: nat, env: Env): (r: Result<seq<Live>>)
    requires g.Group? && k <= |g.children|
    ensures r.Ok? ==> |r.value| == |g.children| - k
    ensures r.Ok? ==> forall i :: 0 <= i < |r.value| ==>
              LiveOf(g, r.value[i]) && r.value[i].index == k + i && Prime(g.children[k + i], env) == Ok(Some(r.value[i].run))
    decreases |g.children| - k
  {
    if k == |g.children| then Ok([])
    else
      var p :- Prime(g.children[k], env);
      if p.None? then Err(RuntimeError)
      else
        var rest :- PrimeAll(g, k + 1, env);
        Ok([Live(k, p.value)] + rest)
  }

  /**
   * A fresh pass of a Parallel group: prime every child, then sweep. A fresh pass that ends in its
   * own first sweep leaves the state as it found it, so when another pass is due Python repeats it
   * forever inside this one `send`.
   */
  function ParPass(g: Action, upd: Option<Frame>, now: int, env: Env, ctx: Ctx): (o: Result<Outcome>)
    requires g.Group? && g.mode.Parallel? && |g.children| > 0
    ensures o.Ok? && o.value.Yield? ==> WF(o.value.run) && o.value.run.src == g
    ensures o.Ok? ==> o.value.ctx.endFunc == ctx.endFunc
    ensures o.Ok? && CoversOK(ctx) ==> CoversOK(o.value.ctx)
    decreases g, 1, 0
  {
    var started :- PrimeAll(g, 0, env);
    var ro :- Round(g, started, 0, upd, now, env, ctx, 0);
    if |ro.gens| > 0 then Ok(Yield(ro.upd, ParRun(g, ro.gens), ro.ctx))
    else if !Below(ro.last + 1, g.total) then Ok(Done(ro.ctx))
    else Err(Unterminated)
  }

  /** Between resamples a leaf keeps sampling at the progress it last computed. */
  lemma LeafHoldsBetweenResamples(r: Run, upd: Option<Frame>, now: int, env: Env, ctx: Ctx)
    requires WF(r) && r.LeafRun? && r.phase.Sampling?
    requires r.live.duration != 0 && NumValue(r.phase.pos) < 1.0 && now - r.phase.last <= r.live.interval
    ensures var s := Get(r.live, r.phase.pos, upd, env);
            Step(r, upd, now, env, ctx) == if s.Err? then Err(s.error) else Ok(Yield(s.value.out, r, Note(ctx, s.value.event)))
  {
  }

  /**
   * Once the throttle interval has passed, the progress is recomputed from the pass start, and it
   * never exceeds 1 for a pass that runs forward in time.
   */
  lemma LeafResamples(r: Run, upd: Option<Frame>, now: int, env: Env, ctx: Ctx)
    requires WF(r) && r.LeafRun? && r.phase.Sampling?
    requires r.live.duration != 0 && NumValue(r.phase.pos) < 1.0 && now - r.phase.last > r.live.interval
    requires Step(r, upd, now, env, ctx).Ok?
    ensures var o := Step(r, upd, now, env, ctx).value;
            var p := Progress(now, r.phase.start, r.live.duration);
            o.Yield? && o.run == r.(phase := Sampling(p, r.phase.start, now))
            && o.out == Get(r.live, p, upd, env).value.out
            && (r.live.duration > 0 && now >= r.phase.start ==> 0.0 <= NumValue(p) <= 1.0)
  {
  }

  /**
   * An instant leaf played once: the first send yields get(0), the second get(1), and the third
   * registers the cover and finishes the generator.
   */
  lemma {:induction false} InstantLeafTrace(a: Action, u0: Frame, u1: Frame, u2: Frame, t0: int, t1: int, t2: int,
                                            env: Env, ctx: Ctx)
    requires a.Leaf? && !IsSpecial(a.kind) && a.duration == 0 && a.total == Count(1) && Init(a, env).Ok?
    requires !ctx.detached
    requires Get(Init(a, env).value, VInt(0), Some(u0), env).Ok? && Get(Init(a, env).value, VInt(1), Some(u1), env).Ok?
    ensures var live := Init(a, env).value;
            var s0 := Get(live, VInt(0), Some(u0), env).value;
            var s1 := Get(live, VInt(1), Some(u1), env).value;
            var r0 := LeafRun(a, live, 0, Primed);
            var r1 := LeafRun(a, live, 0, Sampling(VInt(0), t0, t0));
            var r2 := LeafRun(a, live, 0, Closing);
            var c1 := Note(ctx, s0.event);
            var c2 := Note(c1, s1.event);
            Prime(a, env) == Ok(Some(r0))
            && Step(r0, Some(u0), t0, env, ctx) == Ok(Yield(s0.out, r1, c1))
            && Step(r1, Some(u1), t1, env, c1) == Ok(Yield(s1.out, r2, c2))
            && Step(r2, Some(u2), t2, env, c2)
               == Ok(Done(if a.cover then c2.(covers := c2.covers + [live]) else c2))
  {
    var live := Init(a, env).value;
    var c1 := Note(ctx, Get(live, VInt(0), Some(u0), env).value.event);
    var c2 := Note(c1, Get(live, VInt(1), Some(u1), env).value.event);
    var r2 := LeafRun(a, live, 0, Closing);
    var c3 := if a.cover then c2.(covers := c2.covers + [live]) else c2;
    InitIdempotent(a, env);
    assert Reinit(live, env) == Ok(live);
    assert Register(live, c2) == Ok(c3);
    assert !Below(1, live.total);
    assert StartPass(a, live, 1, Some(u2), t2, env, c3) == Ok(Done(c3));
  }

  /** A special action does its work on the first send and yields nothing. */
  lemma SpecialFiresOnFirstSend(a: Action, upd: Option<Frame>, now: int, env: Env, ctx: Ctx)
    requires a.Leaf? && IsSpecial(a.kind)
    ensures var f := Fire(a, ctx);
            Prime(a, env) == Ok(Some(SpecialRun(a, Armed)))
            && Step(SpecialRun(a, Armed), upd, now, env, ctx)
               == if f.Err? then Err(f.error) else Ok(Yield(None, SpecialRun(a, Fired), f.value))
  {
  }

  /** On the second send a special action finishes, except Remain, which yields None forever. */
  lemma SpecialSecondSend(a: Action, upd: Option<Frame>, now: int, env: Env, ctx: Ctx)
    requires a.Leaf? && IsSpecial(a.kind)
    ensures Step(SpecialRun(a, Fired), upd, now, env, ctx)
            == if a.kind.Remain? then Ok(Yield(None, SpecialRun(a, Fired), ctx)) else Ok(Done(ctx))
  {
  }

  /**
   * When a Sequential group's child finishes and a later child takes over, that send yields
   * nothing: the next child's generator only reaches its bare `yield`.
   */
  lemma SequentialHandoverYieldsNothing(r: Run, upd: Option<Frame>, now: int, env: Env, ctx: Ctx)
    requires WF(r) && r.SeqRun?
    requires Step(r.child, upd, now, env, ctx).Ok? && Step(r.child, upd, now, env, ctx).value.Done?
    requires Step(r, upd, now, env, ctx).Ok? && Step(r, upd, now, env, ctx).value.Yield?
    ensures var o := Step(r, upd, now, env, ctx).value;
            o.out.None? && o.ctx == Step(r.child, upd, now, env, ctx).value.ctx
            && o.run.SeqRun? && (o.run.pass == r.pass ==> o.run.idx > r.idx)
  {
  }

  /**
   * Removing a finished child shifts its successor under the cursor: that successor is not sent
   * anything in this sweep and is the first live child afterwards.
   */
  lemma RoundSkipsSuccessor(g: Action, gens: seq<Live>, upd: Option<Frame>, now: int, env: Env, ctx: Ctx)
    requires g.Group? && |gens| >= 2 && forall k :: 0 <= k < |gens| ==> LiveOf(g, gens[k])
    requires WF(gens[0].run) && Step(gens[0].run, upd, now, env, ctx).Ok? && Step(gens[0].run, upd, now, env, ctx).value.Done?
    requires Round(g, gens, 0, upd, now, env, ctx, 0).Ok?
    ensures var sw := Round(g, gens, 0, upd, now, env, ctx, 0).value;
            |sw.gens| >= 1 && sw.gens[0] == gens[1]
  {
    var c := Step(gens[0].run, upd, now, env, ctx).value.ctx;
    var rest := gens[..0] + gens[1..];
    assert Round(g, gens, 0, upd, now, env, ctx, 0) == Round(g, rest, 1, upd, now, env, c, 0);
    assert rest[..1] == gens[1..2];
  }

  /** Within a sweep each live child receives the frame the previous one produced. */
  lemma {:induction false} RoundPipes(g: Action, l0: Live, l1: Live, upd: Option<Frame>, now: int, env: Env, ctx: Ctx)
    requires g.Group? && LiveOf(g, l0) && LiveOf(g, l1)
    requires Step(l0.run, upd, now, env, ctx).Ok? && Step(l0.run, upd, now, env, ctx).value.Yield?
    ensures var o0 := Step(l0.run, upd, now, env, ctx).value;
            var o1 := Step(l1.run, o0.out, now, env, o0.ctx);
            Round(g, [l0, l1], 0, upd, now, env, ctx, 0)
            == if o1.Err? then Err(o1.error)
               else if o1.value.Yield? then
                 Ok(Swept([Live(l0.index, o0.run), Live(l1.index, o1.value.run)], o1.value.out, 1, o1.value.ctx))
               else Ok(Swept([Live(l0.index, o0.run)], o0.out, 1, o1.value.ctx))
  {
    var o0 := Step(l0.run, upd, now, env, ctx).value;
    var gs := [l0, l1][0 := Live(l0.index, o0.run)];
    assert gs == [Live(l0.index, o0.run), l1];
    assert Round(g, [l0, l1], 0, upd, now, env, ctx, 0) == Round(g, gs, 1, o0.out, now, env, o0.ctx, 0);
    var o1 := Step(l1.run, o0.out, now, env, o0.ctx);
    if o1.Ok? {
      if o1.value.Yield? {
        assert gs[1 := Live(l1.index, o1.value.run)] == [Live(l0.index, o0.run), Live(l1.index, o1.value.run)];
      } else {
        assert gs[..1] + gs[2..] == [Live(l0.index, o0.run)];
      }
    }
  }

  /**
   * A sweep from the front empties the list only when a single child was left and it finished;
   * the enumerate index it leaves behind is then 0, so the pass counter becomes 1.
   */
  lemma {:induction false} RoundEmptiesOnlySingleton(g: Action, gens: seq<Live>, upd: Option<Frame>, now: int,
                                                     env: Env, ctx: Ctx, last: int)
    requires g.Group? && forall k :: 0 <= k < |gens| ==> LiveOf(g, gens[k])
    requires Round(g, gens, 0, upd, now, env, ctx, last).Ok? && |Round(g, gens, 0, upd, now, env, ctx, last).value.gens| == 0
    ensures |gens| <= 1 && (|gens| == 1 ==> Round(g, gens, 0, upd, now, env, ctx, last).value.last == 0)
  {
    if |gens| > 0 {
      assert LiveOf(g, gens[0]);
      var o := Step(gens[0].run, upd, now, env, ctx).value;
      if o.Done? {
        var gs := gens[..0] + gens[1..];
        assert Round(g, gens, 0, upd, now, env, ctx, last) == Round(g, gs, 1, upd, now, env, o.ctx, 0);
      }
    }
  }

  /**
   * The pass counter of a Parallel group is 1 after every pass, so with a total above 1 and at
   * least one child the group never finishes: every send either yields or fails.
   */
  lemma {:induction false} ParallelNeverFinishes(r: Run, upd: Option<Frame>, now: int, env: Env, ctx: Ctx)
    requires WF(r) && (r.ParFresh? || r.ParRun?) && Below(1, r.src.total) && |r.src.children| > 0
    ensures Step(r, upd, now, env, ctx).Ok? ==> Step(r, upd, now, env, ctx).value.Yield?
  {
    var g := r.src;
    assert Below(0, g.total);
    if r.ParRun? {
      var ro := Round(g, r.gens, 0, upd, now, env, ctx, 0);
      if ro.Ok? && |ro.value.gens| == 0 {
        RoundEmptiesOnlySingleton(g, r.gens, upd, now, env, ctx, 0);
        ParPassNeverFinishes(g, ro.value.upd, now, env, ro.value.ctx);
      }
    } else {
      ParPassNeverFinishes(g, upd, now, env, ctx);
    }
  }

  lemma {:induction false} ParPassNeverFinishes(g: Action, upd: Option<Frame>, now: int, env: Env, ctx: Ctx)
    requires g.Group? && g.mode.Parallel? && |g.children| > 0 && Below(1, g.total)
    ensures ParPass(g, upd, now, env, ctx).Ok? ==> ParPass(g, upd, now, env, ctx).value.Yield?
  {
    var started := PrimeAll(g, 0, env);
    if started.Ok? {
      var ro := Round(g, started.value, 0, upd, now, env, ctx, 0);
      if ro.Ok? && |ro.value.gens| == 0 {
        RoundEmptiesOnlySingleton(g, started.value, upd, now, env, ctx, 0);
      }
    }
  }
}

=== FILE: py.dfy ===
/** Python integer and sequence operations whose semantics differ from Dafny's. */
module Py {
  import opened Errors

  /** Python's `a // b`: division rounding toward negative infinity. */
  function FloorDiv(a: int, b: int): (q: int)
    requires b != 0
    ensures b > 0 ==> q * b <= a < q * b + b
    ensures b < 0 ==> q * b + b < a <= q * b
  {
    if b > 0 then a / b else (-a) / (-b)
  }

  /** Python's `a % b`: the remainder has the sign of the divisor. */
  function Mod(a: int, b: int): (m: int)
    requires b != 0
    ensures a == FloorDiv(a, b) * b + m
    ensures b > 0 ==> 0 <= m < b
    ensures b < 0 ==> b < m <= 0
  {
    a - FloorDiv(a, b) * b
  }

  /** C's `a / 2` on ints (truncation toward zero), as pygame uses for rect centres. */
  function Half(a: int): (h: int)
    ensures a >= 0 ==> 0 <= h && 2 * h <= a < 2 * h + 2
    ensures a < 0 ==> h <= 0 && 2 * h - 2 < a <= 2 * h
  {
    if a >= 0 then a / 2 else -((-a) / 2)
  }

  /** Python's `int(x)` on a float: truncation toward zero. */
  function Trunc(x: real): (i: int)
    ensures x >= 0.0 ==> i as real <= x < i as real + 1.0
    ensures x < 0.0 ==> i as real - 1.0 < x <= i as real
  {
    if x >= 0.0 then x.Floor else -((-x).Floor)
  }

  /** Python's `s[k]`: negative indices count from the end. */
  function Index<T>(s: seq<T>, k: int): (r: Result<T>)
    ensures r.Ok? <==> -|s| <= k < |s|
    ensures 0 <= k < |s| ==> r == Ok(s[k])
    ensures -|s| <= k < 0 ==> r == Ok(s[|s| + k])
  {
    if 0 <= k < |s| then Ok(s[k])
    else if -|s| <= k < 0 then Ok(s[|s| + k])
    else Err(IndexError)
  }

  function Reverse<T>(s: seq<T>): (r: seq<T>)
    ensures |r| == |s|
    ensures forall i :: 0 <= i < |s| ==> r[i] == s[|s| - 1 - i]
  {
    seq(|s|, i requires 0 <= i < |s| => s[|s| - 1 - i])
  }

  lemma {:induction false} ReverseReverse<T>(s: seq<T>)
    ensures Reverse(Reverse(s)) == s
  {
    var r := Reverse(Reverse(s));
    assert |r| == |s|;
    forall i | 0 <= i < |s|
      ensures r[i] == s[i]
    {
      assert r[i] == Reverse(s)[|s| - 1 - i];
    }
  }

  /** `sum(s)`, adding from the left. */
  function Sum(s: seq<int>): (r: int)
    ensures (forall i :: 0 <= i < |s| ==> s[i] >= 0) ==> r >= 0
  {
    if |s| == 0 then 0
    else
      assert forall i :: 0 <= i < |s| - 1 ==> s[..|s| - 1][i] == s[i];
      Sum(s[..|s| - 1]) + s[|s| - 1]
  }

  /** Extending a prefix by one element adds that element to its sum. */
  lemma SumStep(s: seq<int>, i: int)
    requires 0 <= i < |s|
    ensures Sum(s[..i + 1]) == Sum(s[..i]) + s[i]
  {
    assert s[..i + 1][..i] == s[..i];
  }

  /** Prefix sums of non-negative numbers grow with the prefix. */
  lemma {:induction false} SumMonotone(s: seq<int>, i: int, j: int)
    requires forall k :: 0 <= k < |s| ==> s[k] >= 0
    requires 0 <= i <= j <= |s|
    ensures Sum(s[..i]) <= Sum(s[..j])
    decreases j - i
  {
    if i < j {
      SumMonotone(s, i, j - 1);
      SumStep(s, j - 1);
    }
  }

  function Max(s: seq<int>): (m: int)
    requires |s| > 0
    ensures forall i :: 0 <= i < |s| ==> s[i] <= m
    ensures exists i :: 0 <= i < |s| && s[i] == m
  {
    if |s| == 1 then s[0]
    else
      var m := Max(s[..|s| - 1]);
      assert forall i :: 0 <= i < |s| - 1 ==> s[..|s| - 1][i] == s[i];
      if s[|s| - 1] > m then s[|s| - 1] else m
  }

  /** `[f(x) for x in xs]` where `f` may raise: the first exception ends the comprehension. */
  function MapR<A, B>(xs: seq<A>, f: A -> Result<B>): (r: Result<seq<B>>)
    ensures r.Ok? ==> |r.value| == |xs|
  {
    if |xs| == 0 then Ok([])
    else
      var first := f(xs[0]);
      if first.Err? then Err(first.error)
      else
        var rest := MapR(xs[1..], f);
        if rest.Err? then
          assert forall k :: 0 <= k < |xs| - 1 ==> xs[1..][k] == xs[k + 1];
          Err(rest.error)
        else
          assert forall k :: 0 <= k < |xs| - 1 ==> xs[1..][k] == xs[k + 1];
          Ok([first.value] + rest.value)
  }

  /** A comprehension succeeds exactly when every element does, and then holds their images in order. */
  lemma {:induction false} MapRElements<A, B>(xs: seq<A>, f: A -> Result<B>)
    ensures MapR(xs, f).Ok? <==> forall i :: 0 <= i < |xs| ==> f(xs[i]).Ok?
    ensures MapR(xs, f).Ok? ==> forall i :: 0 <= i < |xs| ==> f(xs[i]) == Ok(MapR(xs, f).value[i])
  {
    if |xs| > 0 {
      var ys := xs[1..];
      MapRElements(ys, f);
      assert forall k :: 0 <= k < |ys| ==> ys[k] == xs[k + 1];
      if MapR(xs, f).Ok? {
        var r := MapR(xs, f).value;
        assert r == [f(xs[0]).value] + MapR(ys, f).value;
        forall i | 0 <= i < |xs| ensures f(xs[i]) == Ok(r[i]) {
          if i > 0 {
            assert r[i] == MapR(ys, f).value[i - 1];
          }
        }
      } else if f(xs[0]).Ok? {
        var j :| 0 <= j < |ys| && f(ys[j]).Err?;
        assert f(xs[j + 1]).Err?;
      }
    }
  }

  /** A failing comprehension fails with the error of its first failing element. */
  lemma {:induction false} MapRFirstError<A, B>(xs: seq<A>, f: A -> Result<B>)
    requires MapR(xs, f).Err?
    ensures exists i :: 0 <= i < |xs| && f(xs[i]) == Err(MapR(xs, f).error) && forall k :: 0 <= k < i ==> f(xs[k]).Ok?
  {
    if f(xs[0]).Ok? {
      var ys := xs[1..];
      MapRFirstError(ys, f);
      var j :| 0 <= j < |ys| && f(ys[j]) == Err(MapR(ys, f).error) && forall k :: 0 <= k < j ==> f(ys[k]).Ok?;
      assert xs[j + 1] == ys[j];
      assert forall k :: 1 <= k < j + 1 ==> xs[k] == ys[k - 1];
    }
  }

  /** Mapping one more element extends the mapped prefix by that element's image. */
  lemma {:induction false} MapRGrows<A, B>(xs: seq<A>, i: int, f: A -> Result<B>)
    requires 0 <= i < |xs| && MapR(xs[..i], f).Ok?
    ensures MapR(xs[..i + 1], f) == if f(xs[i]).Err? then Err(f(xs[i]).error)
                                    else Ok(MapR(xs[..i], f).value + [f(xs[i]).value])
    decreases i
  {
    var none: seq<B> := [];
    if i > 0 {
      var ys := xs[1..];
      assert xs[..i][0] == xs[0] && xs[..i][1..] == ys[..i - 1];
      assert xs[..i + 1][0] == xs[0] && xs[..i + 1][1..] == ys[..i];
      var head := f(xs[0]);
      assert head.Ok? && MapR(ys[..i - 1], f).Ok?;
      assert MapR(xs[..i], f) == Ok([head.value] + MapR(ys[..i - 1], f).value);
      MapRGrows(ys, i - 1, f);
      assert ys[i - 1] == xs[i];
      var rest := MapR(ys[..i], f);
      assert MapR(xs[..i + 1], f) == if rest.Err? then Err(rest.error) else Ok([head.value] + rest.value);
      if f(xs[i]).Ok? {
        var v := f(xs[i]).value;
        assert [head.value] + (MapR(ys[..i - 1], f).value + [v]) == ([head.value] + MapR(ys[..i - 1], f).value) + [v];
      }
    } else {
      assert xs[..0] == [] && xs[..1][1..] == [] && xs[..1][0] == xs[0];
      assert MapR(xs[..0], f) == Ok(none);
      assert MapR(xs[..1][1..], f) == Ok(none);
      if f(xs[0]).Ok? {
        assert [f(xs[0]).value] + none == none + [f(xs[0]).value];
      }
    }
  }

  /** Once a prefix maps, the whole maps to that prefix's images followed by the rest's. */
  lemma MapRSplit<A, B>(xs: seq<A>, i: int, f: A -> Result<B>)
    requires 0 <= i <= |xs| && MapR(xs[..i], f).Ok?
    ensures var rest := MapR(xs[i..], f);
            MapR(xs, f) == if rest.Err? then Err(rest.error) else Ok(MapR(xs[..i], f).value + rest.value)
  {
    assert xs[..i] + xs[i..] == xs;
    MapRConcat(xs[..i], xs[i..], f);
  }

  /** Mapping a concatenation maps the first part, then (if that succeeded) the second. */
  lemma {:induction false} MapRConcat<A, B>(a: seq<A>, b: seq<A>, f: A -> Result<B>)
    ensures var x := MapR(a, f);
            MapR(a + b, f) == if x.Err? then Err(x.error)
                              else var y := MapR(b, f);
                                   if y.Err? then Err(y.error) else Ok(x.value + y.value)
    decreases |a|
  {
    if |a| == 0 {
      assert a + b == b;
      var none: seq<B> := [];
      assert MapR(a, f) == Ok(none);
      if MapR(b, f).Ok? {
        assert none + MapR(b, f).value == MapR(b, f).value;
      }
    } else {
      MapRCons(a + b, f);
      MapRCons(a, f);
      assert (a + b)[0] == a[0] && (a + b)[1..] == a[1..] + b;
      MapRConcat(a[1..], b, f);
      var x := MapR(a[1..], f);
      var y := MapR(b, f);
      if f(a[0]).Ok? && x.Ok? && y.Ok? {
        assert [f(a[0]).value] + (x.value + y.value) == ([f(a[0]).value] + x.value) + y.value;
      }
    }
  }

  /** A non-empty comprehension maps its first element, then the rest. */
  lemma MapRCons<A, B>(xs: seq<A>, f: A -> Result<B>)
    requires |xs| > 0
    ensures MapR(xs, f) == if f(xs[0]).Err? then Err(f(xs[0]).error)
                           else var rest := MapR(xs[1..], f);
                                if rest.Err? then Err(rest.error) else Ok([f(xs[0]).value] + rest.value)
  {
  }
}

=== FILE: renderer.dfy ===
/**
 * The layout arithmetic of epg/renderer.py: padding a surface, laying items out in a row
 * (`render`) or stacking lines in a column (`renders`), and the keyword `Style` objects.
 * Pixels are not modelled: a composed surface records its size, its fill and where each part
 * is blitted.
 */
module Renderer {
  import opened Errors
  import opened Values
  import opened Geometry
  import Py

  /** A surface: one drawn by code outside this model, or a canvas with parts blitted on it. */
  datatype Picture =
    | Drawn(token: nat, w: nat, h: nat)
    | Canvas(w: nat, h: nat, fill: Val, parts: seq<Placed>)

  /** A part and the top-left corner it is blitted at. */
  datatype Placed = Placed(pic: Picture, x: int, y: int)

  /** `(0, 0, 0, 0)`: the transparent fill of a padded surface and the default background. */
  const Transparent: Val := VTuple([VInt(0), VInt(0), VInt(0), VInt(0)])

  const BadResolution: string := "Invalid resolution for Surface"

  /** `epg.Surface((w, h))` filled with `fill`: pygame refuses a negative size. */
  function NewCanvas(w: int, h: int, fill: Val, parts: seq<Placed>): (r: Result<Picture>)
    ensures r.Ok? <==> w >= 0 && h >= 0
    ensures r.Ok? ==> r.value.w == w && r.value.h == h && r.value.Canvas? && r.value.parts == parts
    ensures r.Err? ==> r.error == PgError(BadResolution)
  {
    if w >= 0 && h >= 0 then Ok(Canvas(w, h, fill, parts)) else Err(PgError(BadResolution))
  }

  /**
   * `get_padded`: with a non-zero `padx` or `pady` the surface is blitted at (padx, pady) on a
   * transparent one 2·padx wider and 2·pady taller; with neither it is returned as it is.
   */
  function Pad(p: Picture, padx: int, pady: int): (r: Result<Picture>)
    ensures padx == 0 && pady == 0 ==> r == Ok(p)
    ensures (padx != 0 || pady != 0) ==>
              (r.Ok? <==> p.w + 2 * padx >= 0 && p.h + 2 * pady >= 0)
              && (r.Ok? ==> r.value.w == p.w + 2 * padx && r.value.h == p.h + 2 * pady
                            && r.value.Canvas? && r.value.fill == Transparent
                            && r.value.parts == [Placed(p, padx, pady)])
  {
    if padx != 0 || pady != 0 then
      NewCanvas(p.w + padx * 2, p.h + pady * 2, Transparent, [Placed(p, padx, pady)])
    else Ok(p)
  }

  /** A padded surface has equal margins: the content sits in the middle of the canvas. */
  lemma PadCentres(p: Picture, padx: int, pady: int)
    requires Pad(p, padx, pady).Ok? && (padx != 0 || pady != 0)
    ensures var c := Pad(p, padx, pady).value;
            var part := c.parts[0];
            part.pic == p && part.x == c.w - (part.x + p.w) && part.y == c.h - (part.y + p.h)
  {
  }

  /** The padding keywords a padded call takes out of its keyword map, and the rest. */
  function PadArgs(kw: map<string, Val>): (r: Result<(int, int, map<string, Val>)>)
    ensures r.Ok? <==> ("padx" in kw ==> IsIntLike(kw["padx"])) && ("pady" in kw ==> IsIntLike(kw["pady"]))
    ensures r.Err? ==> r.error == TypeError
    ensures r.Ok? ==> r.value.2 == kw - {"padx", "pady"}
    ensures r.Ok? ==> r.value.0 == (if "padx" in kw then IntValue(kw["padx"]) else 0)
                      && r.value.1 == (if "pady" in kw then IntValue(kw["pady"]) else 0)
  {
    var px := if "padx" in kw then kw["padx"] else VInt(0);
    var py := if "pady" in kw then kw["pady"] else VInt(0);
    if IsIntLike(px) && IsIntLike(py) then Ok((IntValue(px), IntValue(py), kw - {"padx", "pady"}))
    else Err(TypeError)
  }

  /** `epg.text_render`: text drawing is outside this model and comes in as a parameter. */
  type TextRender = (string, map<string, Val>) -> Picture

  /** `Text(s, **kw)`: the drawn text, padded as its keywords say. */
  function Text(s: string, kw: map<string, Val>, text: TextRender): (r: Result<Picture>)
    ensures PadArgs(kw).Err? ==> r == Err(TypeError)
    ensures PadArgs(kw).Ok? ==>
              var (px, py, rest) := PadArgs(kw).value;
              r == Pad(text(s, rest), px, py)
  {
    var (px, py, rest) :- PadArgs(kw);
    Pad(text(s, rest), px, py)
  }

  /** An argument of `render`: a string to draw, or a surface. */
  datatype Item = Words(s: string) | Pic(p: Picture)

  /** The keyword arguments of one `render` call: the anchor name, the background, the text style. */
  datatype Options = Options(anchor: string, bg: Val, textKw: map<string, Val>)

  const DefaultOptions: Options := Options("center", Transparent, map[])

  /** One argument of `render` as a surface: a string is drawn with the text style's keywords. */
  function ItemPicture(it: Item, textKw: map<string, Val>, text: TextRender): (r: Result<Picture>)
    ensures it.Pic? ==> r == Ok(it.p)
    ensures it.Words? ==> r == Text(it.s, textKw, text)
  {
    if it.Pic? then Ok(it.p) else Text(it.s, textKw, text)
  }

  /** The surfaces of a row's items, in order; the first failure is the row's. */
  function Realise(items: seq<Item>, textKw: map<string, Val>, text: TextRender): Result<seq<Picture>> {
    Py.MapR(items, (it: Item) => ItemPicture(it, textKw, text))
  }

  function Widths(ps: seq<Picture>): (ws: seq<int>)
    ensures |ws| == |ps| && forall i :: 0 <= i < |ps| ==> ws[i] == ps[i].w
  {
    seq(|ps|, i requires 0 <= i < |ps| => ps[i].w)
  }

  function Heights(ps: seq<Picture>): (hs: seq<int>)
    ensures |hs| == |ps| && forall i :: 0 <= i < |ps| ==> hs[i] == ps[i].h
  {
    seq(|ps|, i requires 0 <= i < |ps| => ps[i].h)
  }

  /**
   * `setattr(box, a, getattr(cell, a))`: the box moved (or, for a size attribute, resized) so
   * that its attribute `a` matches the cell's.
   */
  function Align(box: Rect, a: Attr, cell: Rect): (r: Rect)
    ensures SetAttr(box, a, GetAttr(cell, a)) == Ok(r)
    ensures IsPositional(a) ==> GetAttr(r, a) == GetAttr(cell, a) && r.w == box.w && r.h == box.h
    ensures !IsPositional(a) ==> r.x == box.x && r.y == box.y
  {
    SetAttr(box, a, GetAttr(cell, a)).value
  }

  /** Centring a length inside a longer one leaves a non-negative margin on each side. */
  lemma HalfMargins(inner: int, outer: int)
    requires 0 <= inner <= outer
    ensures 0 <= Py.Half(outer) - Py.Half(inner) && Py.Half(outer) - Py.Half(inner) + inner <= outer
  {
  }

  /**
   * A box no larger than its cell, sharing the cell's corner, stays inside the cell whatever the
   * anchor; along an axis where box and cell have the same length it keeps the cell's coordinate.
   */
  lemma {:induction false} AlignWithin(box: Rect, a: Attr, cell: Rect)
    requires box.x == cell.x && box.y == cell.y
    requires 0 <= box.w <= cell.w && 0 <= box.h <= cell.h
    ensures var r := Align(box, a, cell);
            cell.x <= r.x && r.x + box.w <= cell.x + cell.w && cell.y <= r.y && r.y + box.h <= cell.y + cell.h
    ensures box.w == cell.w ==> Align(box, a, cell).x == cell.x
    ensures box.h == cell.h ==> Align(box, a, cell).y == cell.y
  {
    var r := Align(box, a, cell);
    HalfMargins(box.w, cell.w);
    HalfMargins(box.h, cell.h);
    match a
    case Point(hs, vs) =>
      assert GetH(r, hs) == GetH(cell, hs) && GetV(r, vs) == GetV(cell, vs);
    case Horizontal(hs) =>
      assert GetH(r, hs) == GetH(cell, hs);
    case Vertical(vs) =>
      assert GetV(r, vs) == GetV(cell, vs);
    case _ =>
  }

  /** Where the i-th of a row's pictures is blitted: its own box anchored in its column cell. */
  function RowSlot(ps: seq<Picture>, a: Attr, i: int): (r: Rect)
    requires |ps| > 0 && 0 <= i < |ps|
  {
    var ws := Widths(ps);
    var x := Py.Sum(ws[..i]);
    Align(Rect(x, 0, ws[i], ps[i].h), a, Rect(x, 0, ws[i], Py.Max(Heights(ps))))
  }

  /** The row `render` composes from its pictures: as wide as all of them, as tall as the tallest. */
  function Row(ps: seq<Picture>, a: Attr, bg: Val): (r: Picture)
    requires |ps| > 0
  {
    Canvas(Py.Sum(Widths(ps)), Py.Max(Heights(ps)), bg, RowParts(ps, a))
  }

  function RowParts(ps: seq<Picture>, a: Attr): (parts: seq<Placed>)
    requires |ps| > 0
    ensures |parts| == |ps|
  {
    seq(|ps|, i requires 0 <= i < |ps| => Placed(ps[i], RowSlot(ps, a, i).x, RowSlot(ps, a, i).y))
  }

  /**
   * The columns of a row tile its width: column i starts where column i - 1 ends, the first
   * starts at 0, the last ends at the row's width, and no two overlap.
   */
  lemma {:induction false} ColumnsTile(ps: seq<Picture>, i: int, j: int)
    requires |ps| > 0 && 0 <= i < j < |ps|
    ensures var ws := Widths(ps);
            Py.Sum(ws[..0]) == 0
            && Py.Sum(ws[..i]) + ws[i] == Py.Sum(ws[..i + 1])
            && Py.Sum(ws[..i]) + ws[i] <= Py.Sum(ws[..j])
            && Py.Sum(ws[..|ps| - 1]) + ws[|ps| - 1] == Py.Sum(ws)
  {
    var ws := Widths(ps);
    Py.SumStep(ws, i);
    Py.SumMonotone(ws, i + 1, j);
    Py.SumStep(ws, |ps| - 1);
    assert ws[..|ps|] == ws;
  }

  /**
   * Every picture of a row lies inside its column cell, which spans the full row height: it
   * starts exactly at its column, and vertically the anchor only chooses where in the cell it sits.
   */
  lemma {:induction false} RowItemsFitTheirCells(ps: seq<Picture>, a: Attr, bg: Val, i: int)
    requires |ps| > 0 && 0 <= i < |ps|
    ensures var part := Row(ps, a, bg).parts[i];
            part.pic == ps[i] && part.x == Py.Sum(Widths(ps)[..i])
            && 0 <= part.y && part.y + ps[i].h <= Row(ps, a, bg).h
  {
    var ws := Widths(ps);
    var x := Py.Sum(ws[..i]);
    var m := Py.Max(Heights(ps));
    assert Heights(ps)[i] == ps[i].h;
    AlignWithin(Rect(x, 0, ws[i], ps[i].h), a, Rect(x, 0, ws[i], m));
  }

  /** The same anchor point of each picture and of its cell coincide. */
  lemma RowAnchorsMatchCells(ps: seq<Picture>, a: Attr, bg: Val, i: int)
    requires |ps| > 0 && 0 <= i < |ps| && IsPositional(a)
    ensures var part := Row(ps, a, bg).parts[i];
            var x := Py.Sum(Widths(ps)[..i]);
            GetAttr(Rect(part.x, part.y, ps[i].w, ps[i].h), a) == GetAttr(Rect(x, 0, ps[i].w, Row(ps, a, bg).h), a)
  {
  }

  /**
   * `render(*items, anchor=…, bgcolor=…, textstyle=…)`. The strings are drawn first; then the
   * row surface is made, which raises on an empty row as `max` of no heights does; then each item
   * is anchored in its column, an unknown anchor name raising on the first item.
   */
  function RenderRow(items: seq<Item>, opts: Options, text: TextRender): (r: Result<Picture>)
    ensures Realise(items, opts.textKw, text).Err? ==> r == Err(Realise(items, opts.textKw, text).error)
    ensures |items| == 0 ==> r == Err(ValueError)
    ensures |items| > 0 && Realise(items, opts.textKw, text).Ok? ==>
              (r.Ok? <==> ParseAttr(opts.anchor).Some?) && (r.Err? ==> r.error == AttributeError)
    ensures r.Ok? ==> var ps := Realise(items, opts.textKw, text).value;
                      r.value.w == Py.Sum(Widths(ps)) && r.value.h == Py.Max(Heights(ps))
                      && r.value.Canvas? && |r.value.parts| == |items|
                      && forall i :: 0 <= i < |items| ==> r.value.parts[i].pic == ps[i]
  {
    var ps :- Realise(items, opts.textKw, text);
    if |ps| == 0 then Err(ValueError)
    else
      var a := ParseAttr(opts.anchor);
      if a.None? then Err(AttributeError) else Ok(Row(ps, a.value, opts.bg))
  }

  /** `render` computed as the source does: draw the items, then place them left to right. */
  method Render(items: seq<Item>, opts: Options, text: TextRender) returns (r: Result<Picture>)
    ensures r == RenderRow(items, opts, text)
  {
    var drawn := DrawItems(items, opts.textKw, text);
    if drawn.Err? {
      return Err(drawn.error);
    }
    var ps := drawn.value;
    if |ps| == 0 {
      return Err(ValueError);
    }
    var a := ParseAttr(opts.anchor);
    if a.None? {
      return Err(AttributeError);
    }
    var row := PlaceRow(ps, a.value, opts.bg);
    return Ok(row);
  }

  /** The first loop of `render`: each string is drawn as it is reached. */
  method DrawItems(items: seq<Item>, kw: map<string, Val>, text: TextRender) returns (r: Result<seq<Picture>>)
    ensures r == Realise(items, kw, text)
  {
    var f := (it: Item) => ItemPicture(it, kw, text);
    var ps: seq<Picture> := [];
    var i := 0;
    while i < |items|
      invariant 0 <= i <= |items|
      invariant Py.MapR(items[..i], f) == Ok(ps)
    {
      var p;
      if items[i].Pic? {
        p := items[i].p;
      } else {
        var t := Text(items[i].s, kw, text);
        if t.Err? {
          Py.MapRSplit(items, i, f);
          assert items[i..][0] == items[i];
          return Err(t.error);
        }
        p := t.value;
      }
      Py.MapRGrows(items, i, f);
      ps := ps + [p];
      i := i + 1;
    }
    assert items[..i] == items;
    return Ok(ps);
  }

  /** The second loop of `render`: a running x, each picture anchored in its column cell. */
  method PlaceRow(ps: seq<Picture>, a: Attr, bg: Val) returns (c: Picture)
    requires |ps| > 0
    ensures c == Row(ps, a, bg)
  {
    var ws := Widths(ps);
    var hs := Heights(ps);
    var maxh := Py.Max(hs);
    var parts: seq<Placed> := [];
    var x := 0;
    var j := 0;
    while j < |ps|
      invariant 0 <= j <= |ps| && |parts| == j
      invariant x == Py.Sum(ws[..j])
      invariant parts == RowParts(ps, a)[..j]
    {
      var slot := Align(Rect(x, 0, ws[j], hs[j]), a, Rect(x, 0, ws[j], maxh));
      assert slot == RowSlot(ps, a, j);
      assert RowParts(ps, a)[..j + 1] == RowParts(ps, a)[..j] + [RowParts(ps, a)[j]];
      parts := parts + [Placed(ps[j], slot.x, slot.y)];
      Py.SumStep(ws, j);
      x := x + ws[j];
      j := j + 1;
    }
    assert parts == RowParts(ps, a);
    c := Canvas(Py.Sum(ws), maxh, bg, parts);
  }

  /** `Ln(*items, padx=…, pady=…, **opts)`: a rendered row, padded. */
  method Ln(items: seq<Item>, opts: Options, padx: int, pady: int, text: TextRender) returns (r: Result<Picture>)
    ensures RenderRow(items, opts, text).Err? ==> r == Err(RenderRow(items, opts, text).error)
    ensures RenderRow(items, opts, text).Ok? ==> r == Pad(RenderRow(items, opts, text).value, padx, pady)
  {
    var row := Render(items, opts, text);
    if row.Err? {
      return Err(row.error);
    }
    r := Pad(row.value, padx, pady);
  }

  /** An argument of `renders`: a surface, a sequence of row items, or a string. */
  datatype Line = LinePic(p: Picture) | LineItems(items: seq<Item>) | LineText(s: string)

  /** `render(*obj)` on a line that is not a surface: a string is unpacked into its characters. */
  function RowItems(l: Line): (items: seq<Item>)
    requires !l.LinePic?
    ensures l.LineItems? ==> items == l.items
    ensures l.LineText? ==> |items| == |l.s| && forall i :: 0 <= i < |l.s| ==> items[i] == Words([l.s[i]])
  {
    if l.LineItems? then l.items else seq(|l.s|, i requires 0 <= i < |l.s| => Words([l.s[i]]))
  }

  /** Where the i-th of a column's pictures is blitted: its own box anchored in its row cell. */
  function ColumnSlot(ps: seq<Picture>, a: Attr, i: int): (r: Rect)
    requires |ps| > 0 && 0 <= i < |ps|
  {
    var hs := Heights(ps);
    var y := Py.Sum(hs[..i]);
    Align(Rect(0, y, ps[i].w, hs[i]), a, Rect(0, y, Py.Max(Widths(ps)), hs[i]))
  }

  /** The column `renders` composes: as wide as the widest line, as tall as all of them. */
  function Column(ps: seq<Picture>, a: Attr, bg: Val): (r: Picture)
    requires |ps| > 0
  {
    Canvas(Py.Max(Widths(ps)), Py.Sum(Heights(ps)), bg, ColumnParts(ps, a))
  }

  function ColumnParts(ps: seq<Picture>, a: Attr): (parts: seq<Placed>)
    requires |ps| > 0
    ensures |parts| == |ps|
  {
    seq(|ps|, i requires 0 <= i < |ps| => Placed(ps[i], ColumnSlot(ps, a, i).x, ColumnSlot(ps, a, i).y))
  }

  /** Every line of a column lies inside its row cell, which spans the full column width. */
  lemma {:induction false} ColumnLinesFitTheirCells(ps: seq<Picture>, a: Attr, bg: Val, i: int)
    requires |ps| > 0 && 0 <= i < |ps|
    ensures var part := Column(ps, a, bg).parts[i];
            part.pic == ps[i] && part.y == Py.Sum(Heights(ps)[..i])
            && 0 <= part.x && part.x + ps[i].w <= Column(ps, a, bg).w
  {
    var hs := Heights(ps);
    var y := Py.Sum(hs[..i]);
    var m := Py.Max(Widths(ps));
    assert Widths(ps)[i] == ps[i].w;
    AlignWithin(Rect(0, y, ps[i].w, hs[i]), a, Rect(0, y, m, hs[i]));
  }

  /** The rows of a column tile its height, as the columns of a row tile its width. */
  lemma {:induction false} RowsTile(ps: seq<Picture>, i: int, j: int)
    requires |ps| > 0 && 0 <= i < j < |ps|
    ensures var hs := Heights(ps);
            Py.Sum(hs[..i]) + hs[i] <= Py.Sum(hs[..j])
            && Py.Sum(hs[..|ps| - 1]) + hs[|ps| - 1] == Py.Sum(hs)
  {
    var hs := Heights(ps);
    Py.SumStep(hs, i);
    Py.SumMonotone(hs, i + 1, j);
    Py.SumStep(hs, |ps| - 1);
    assert hs[..|ps|] == hs;
  }

  /** One argument of `renders` as a surface: a surface as it is, anything else rendered as a row. */
  function LinePicture(l: Line, lnOpts: Options, text: TextRender): (r: Result<Picture>)
    ensures l.LinePic? ==> r == Ok(l.p)
    ensures !l.LinePic? ==> r == RenderRow(RowItems(l), lnOpts, text)
  {
    if l.LinePic? then Ok(l.p) else RenderRow(RowItems(l), lnOpts, text)
  }

  /**
   * `renders(*lines, anchor=…, bgcolor=…, lnstyle=…)`: each line that is not a surface is
   * rendered as a row with the line style's options, then the lines are stacked.
   */
  function RenderColumn(lines: seq<Line>, anchor: string, bg: Val, lnOpts: Options, text: TextRender)
    : (r: Result<Picture>)
    ensures var ps := Py.MapR(lines, (l: Line) => LinePicture(l, lnOpts, text));
            (ps.Err? ==> r == Err(ps.error))
            && (|lines| == 0 ==> r == Err(ValueError))
            && (|lines| > 0 && ps.Ok? ==> (r.Ok? <==> ParseAttr(anchor).Some?) && (r.Err? ==> r.error == AttributeError))
            && (r.Ok? ==> r.value.w == Py.Max(Widths(ps.value)) && r.value.h == Py.Sum(Heights(ps.value))
                          && r.value.Canvas? && |r.value.parts| == |lines|
                          && forall i :: 0 <= i < |lines| ==> r.value.parts[i].pic == ps.value[i])
  {
    var ps :- Py.MapR(lines, (l: Line) => LinePicture(l, lnOpts, text));
    if |ps| == 0 then Err(ValueError)
    else
      var a := ParseAttr(anchor);
      if a.None? then Err(AttributeError) else Ok(Column(ps, a.value, bg))
  }

  /** A string line is the row of its characters, each drawn on its own. */
  lemma TextLineIsCharacterRow(s: string, lnOpts: Options, text: TextRender)
    ensures LinePicture(LineText(s), lnOpts, text)
            == RenderRow(seq(|s|, i requires 0 <= i < |s| => Words([s[i]])), lnOpts, text)
  {
    assert RowItems(LineText(s)) == seq(|s|, i requires 0 <= i < |s| => Words([s[i]]));
  }

  /** `renders` computed as the source does: draw the lines, then stack them top to bottom. */
  method Renders(lines: seq<Line>, anchor: string, bg: Val, lnOpts: Options, text: TextRender)
    returns (r: Result<Picture>)
    ensures r == RenderColumn(lines, anchor, bg, lnOpts, text)
  {
    var drawn := DrawLines(lines, lnOpts, text);
    if drawn.Err? {
      return Err(drawn.error);
    }
    var ps := drawn.value;
    if |ps| == 0 {
      return Err(ValueError);
    }
    var a := ParseAttr(anchor);
    if a.None? {
      return Err(AttributeError);
    }
    var column := PlaceColumn(ps, a.value, bg);
    return Ok(column);
  }

  /** The first loop of `renders`: each line that is not a surface is rendered as it is reached. */
  method DrawLines(lines: seq<Line>, lnOpts: Options, text: TextRender) returns (r: Result<seq<Picture>>)
    ensures r == Py.MapR(lines, (l: Line) => LinePicture(l, lnOpts, text))
  {
    var f := (l: Line) => LinePicture(l, lnOpts, text);
    var ps: seq<Picture> := [];
    var i := 0;
    while i < |lines|
      invariant 0 <= i <= |lines|
      invariant Py.MapR(lines[..i], f) == Ok(ps)
    {
      var p;
      if lines[i].LinePic? {
        p := lines[i].p;
      } else {
        var row := Render(RowItems(lines[i]), lnOpts, text);
        if row.Err? {
          Py.MapRSplit(lines, i, f);
          assert lines[i..][0] == lines[i];
          return Err(row.error);
        }
        p := row.value;
      }
      Py.MapRGrows(lines, i, f);
      ps := ps + [p];
      i := i + 1;
    }
    assert lines[..i] == lines;
    return Ok(ps);
  }

  /** The second loop of `renders`: a running y, each picture anchored in its row cell. */
  method PlaceColumn(ps: seq<Picture>, a: Attr, bg: Val) returns (c: Picture)
    requires |ps| > 0
    ensures c == Column(ps, a, bg)
  {
    var ws := Widths(ps);
    var hs := Heights(ps);
    var maxw := Py.Max(ws);
    var parts: seq<Placed> := [];
    var y := 0;
    var j := 0;
    while j < |ps|
      invariant 0 <= j <= |ps| && |parts| == j
      invariant y == Py.Sum(hs[..j])
      invariant parts == ColumnParts(ps, a)[..j]
    {
      var slot := Align(Rect(0, y, ws[j], hs[j]), a, Rect(0, y, maxw, hs[j]));
      assert slot == ColumnSlot(ps, a, j);
      assert ColumnParts(ps, a)[..j + 1] == ColumnParts(ps, a)[..j] + [ColumnParts(ps, a)[j]];
      parts := parts + [Placed(ps[j], slot.x, slot.y)];
      Py.SumStep(hs, j);
      y := y + hs[j];
      j := j + 1;
    }
    assert parts == ColumnParts(ps, a);
    c := Canvas(maxw, Py.Sum(hs), bg, parts);
  }

  /** A keyword bundle passed on with `**style.get()`. */
  datatype Style = Style(kw: map<string, Val>)

  /** `style.get()`. */
  function Get(s: Style): (kw: map<string, Val>)
    ensures kw == s.kw
  {
    s.kw
  }

  /** `style.set(**kw)`: the old keywords are cleared, then the new ones stored. */
  function Set(s: Style, kw: map<string, Val>): (r: Style)
    ensures forall k :: k in s.kw && k !in kw ==> k !in r.kw
  {
    Style(map k | k in kw :: kw[k])
  }

  /** After `set`, `get` returns exactly the keywords given, whatever the style held before. */
  lemma SetThenGet(s: Style, kw: map<string, Val>)
    ensures Get(Set(s, kw)) == kw
    ensures Set(Set(s, kw), kw) == Set(s, kw)
  {
  }
}

=== FILE: sheets.dfy ===
/**
 * Sprite sheets and animations of epg/image.py: the grid a sheet image is cut into, the
 * frame-index arithmetic, the optional frame cache, and the time throttle of an animation.
 * Surfaces are symbolic: an image of a known size, or a sub-rectangle of another surface.
 */
module Sheets {
  import opened Errors
  import Py
  import Epg
  import Mixing
  import opened Geometry

  datatype Surface = Picture(id: nat, w: int, h: int) | Part(src: Surface, box: Rect)

  function SizeOf(s: Surface): (int, int) {
    match s
    case Picture(_, w, h) => (w, h)
    case Part(_, box) => (box.w, box.h)
  }

  /** `surf.subsurface(box)`: the box must lie inside the surface. */
  function Subsurface(s: Surface, box: Rect): (r: Result<Surface>)
    ensures r.Ok? <==> 0 <= box.x && 0 <= box.y && 0 <= box.w && 0 <= box.h
                       && box.x + box.w <= SizeOf(s).0 && box.y + box.h <= SizeOf(s).1
    ensures r.Ok? ==> r.value == Part(s, box) && SizeOf(r.value) == (box.w, box.h)
    ensures r.Err? ==> r.error == ValueError
  {
    var (w, h) := SizeOf(s);
    if 0 <= box.x && 0 <= box.y && 0 <= box.w && 0 <= box.h && box.x + box.w <= w && box.y + box.h <= h
    then Ok(Part(s, box))
    else Err(ValueError)
  }

  /** What `get_pos_by_id` returns: a grid cell, or for a file sheet the index itself. */
  datatype Pos = Cell(col: int, row: int) | Flat(index: int)

  /**
   * A `SpriteSheet` cut into an x-by-y grid of `tile`-sized cells, or a `FileSheet` holding one
   * surface per frame. `id` is the current frame; `cache` is the frame list built at construction.
   */
  datatype Sheet =
    | Grid(image: Surface, x: int, y: int, tile: (int, int), id: int, cache: Option<seq<Surface>>)
    | Files(surfs: seq<Surface>, id: int, tile: (int, int))

  /** `len(sheet)`: the number of cells, or of files. Python rejects a negative length. */
  function Len(s: Sheet): (r: Result<int>)
    ensures s.Grid? ==> (r.Ok? <==> s.x * s.y >= 0) && (r.Ok? ==> r.value == s.x * s.y)
    ensures s.Files? ==> r == Ok(|s.surfs|)
    ensures r.Err? ==> r.error == ValueError
  {
    match s
    case Grid(_, x, y, _, _, _) => if x * y < 0 then Err(ValueError) else Ok(x * y)
    case Files(surfs, _, _) => Ok(|surfs|)
  }

  /** The sheet with its frame index set to `id`. */
  function WithId(s: Sheet, id: int): (r: Sheet)
    ensures r.id == id && r.tile == s.tile
    ensures s.Grid? ==> r.Grid? && r.image == s.image && r.x == s.x && r.y == s.y && r.cache == s.cache
    ensures s.Files? ==> r.Files? && r.surfs == s.surfs
  {
    match s
    case Grid(image, x, y, tile, _, cache) => Grid(image, x, y, tile, id, cache)
    case Files(surfs, _, tile) => Files(surfs, id, tile)
  }

  /** Setting the index back restores the sheet. */
  lemma WithIdRestores(s: Sheet, id: int)
    ensures WithId(WithId(s, id), s.id) == s
  {
  }

  /** `if self.cached:` a missing or empty cache is falsy. */
  predicate HasCache(s: Sheet) {
    match s
    case Grid(_, _, _, _, _, cache) => cache.Some? && |cache.value| > 0
    case Files(surfs, _, _) => |surfs| > 0
  }

  function Frames(s: Sheet): seq<Surface>
    requires HasCache(s)
  {
    match s
    case Grid(_, _, _, _, _, cache) => cache.value
    case Files(surfs, _, _) => surfs
  }

  /** `get_pos_by_id(id)`: row-major (id % x, id // x) on a grid; the identity on a file sheet. */
  function GetPosById(s: Sheet, id: int): (r: Result<Pos>)
    ensures s.Files? ==> r == Ok(Flat(id))
    ensures s.Grid? ==> (r.Ok? <==> s.x != 0) && (r.Err? ==> r.error == ZeroDivisionError)
    ensures s.Grid? && r.Ok? ==> r.value.Cell? && r.value.row * s.x + r.value.col == id
    ensures s.Grid? && s.x > 0 && r.Ok? ==> 0 <= r.value.col < s.x
  {
    match s
    case Grid(_, x, _, _, _, _) => if x == 0 then Err(ZeroDivisionError) else Ok(Cell(Py.Mod(id, x), Py.FloorDiv(id, x)))
    case Files(_, _, _) => Ok(Flat(id))
  }

  /** Row-major indexing is inverted by `get_pos_by_id` on a grid with a positive width. */
  lemma PosOfIndex(s: Sheet, col: int, row: int)
    requires s.Grid? && s.x > 0 && 0 <= col < s.x
    ensures GetPosById(s, row * s.x + col) == Ok(Cell(col, row))
  {
    Mixing.DivUnique(row * s.x + col, s.x, row, col);
  }

  /** The cell of the sheet image at grid position (col, row). */
  function Crop(s: Sheet, col: int, row: int): (r: Result<Surface>)
    requires s.Grid?
    ensures r == Subsurface(s.image, Rect(col * s.tile.0, row * s.tile.1, s.tile.0, s.tile.1))
  {
    Subsurface(s.image, Rect(col * s.tile.0, row * s.tile.1, s.tile.0, s.tile.1))
  }

  /**
   * `get_surface()`: a sheet with a cache returns the cached entry at `id` (Python indexing, so a
   * negative id counts from the end); otherwise the cell at `id`'s position is cut out. A file
   * sheet has no `orginal_image` to cut from, so reaching that branch raises AttributeError.
   */
  function GetSurface(s: Sheet): (r: Result<Surface>)
    ensures HasCache(s) ==> r == Py.Index(Frames(s), s.id)
    ensures !HasCache(s) && s.Grid? ==>
              r == (if s.x == 0 then Err(ZeroDivisionError)
                    else Crop(s, Py.Mod(s.id, s.x), Py.FloorDiv(s.id, s.x)))
    ensures !HasCache(s) && s.Files? ==> r == Err(AttributeError)
  {
    if HasCache(s) then Py.Index(Frames(s), s.id)
    else
      var pos :- GetPosById(s, s.id);
      if pos.Cell? then Crop(s, pos.col, pos.row) else Err(AttributeError)
  }

  /** The frame index after one `next_image`: one on, wrapping to 0 only when it reaches the length. */
  function NextId(id: int, n: int): int {
    if id + 1 == n then 0 else id + 1
  }

  lemma NextIdInRange(id: int, n: int)
    requires 0 <= id < n
    ensures 0 <= NextId(id, n) < n && NextId(id, n) == (id + 1) % n
  {
  }

  /** `next_image()`: the current frame is returned, then the index advances. */
  function NextImage(s: Sheet): (r: Result<(Sheet, Surface)>)
    ensures r.Ok? <==> GetSurface(s).Ok? && Len(s).Ok?
    ensures r.Ok? ==> r.value.1 == GetSurface(s).value
                      && r.value.0 == WithId(s, NextId(s.id, Len(s).value))
  {
    var surf :- GetSurface(s);
    var n :- Len(s);
    Ok((WithId(s, NextId(s.id, n)), surf))
  }

  /** The index after k advances. */
  function IdAfter(id: int, n: int, k: nat): int
    decreases k
  {
    if k == 0 then id else IdAfter(NextId(id, n), n, k - 1)
  }

  lemma {:induction false} IdAfterWraps(id: int, n: int, k: nat)
    requires 0 <= id < n
    ensures IdAfter(id, n, k) == (id + k) % n
    decreases k
  {
    if k > 0 {
      NextIdInRange(id, n);
      IdAfterWraps(NextId(id, n), n, k - 1);
      if id + 1 == n {
        var a := k - 1;
        Mixing.DivShift(a, n);
        assert (a + n) % n == a % n;
        assert id + k == a + n;
      }
    }
  }

  /** n advances over n frames bring an in-range index back to itself. */
  lemma FullCircle(id: int, n: int)
    requires 0 <= id < n
    ensures IdAfter(id, n, n) == id
  {
    IdAfterWraps(id, n, n);
    Mixing.DivUnique(id + n, n, 1, id);
  }

  /** `[self.update() for i in range(k)]` on a sheet with no cache yet. */
  function Fill(s: Sheet, k: nat): (r: Result<(Sheet, seq<Surface>)>)
    requires s.Grid? && !HasCache(s) && Len(s).Ok?
    ensures r.Ok? ==> r.value.0 == WithId(s, IdAfter(s.id, Len(s).value, k)) && |r.value.1| == k
    ensures r.Ok? ==> forall j :: 0 <= j < k ==>
              GetSurface(WithId(s, IdAfter(s.id, Len(s).value, j))) == Ok(r.value.1[j])
    decreases k
  {
    if k == 0 then Ok((s, []))
    else
      var step :- NextImage(s);
      var rest :- Fill(step.0, k - 1);
      Ok((rest.0, [step.1] + rest.1))
  }

  /** The grid a `SpriteSheet` is cut into: its column count, row count and tile size. */
  datatype Layout = Layout(x: int, y: int, tile: (int, int))

  /**
   * Given truthy x and y and no tile, the tile is the image size floor-divided by them; given a
   * tile, a missing x or y is the image size floor-divided by the tile; given neither, it raises.
   */
  function GridOf(w: int, h: int, x: Option<int>, y: Option<int>, tile: Option<(int, int)>): (r: Result<Layout>)
    ensures x.Some? && x.value != 0 && y.Some? && y.value != 0 && tile.None? ==>
              r == Ok(Layout(x.value, y.value, (Py.FloorDiv(w, x.value), Py.FloorDiv(h, y.value))))
    ensures tile.Some? ==> (r.Ok? <==> (x.Some? || tile.value.0 != 0) && (y.Some? || tile.value.1 != 0))
    ensures tile.Some? && r.Err? ==> r.error == ZeroDivisionError
    ensures tile.Some? && r.Ok? ==>
              r.value.tile == tile.value
              && r.value.x == (if x.Some? then x.value else Py.FloorDiv(w, tile.value.0))
              && r.value.y == (if y.Some? then y.value else Py.FloorDiv(h, tile.value.1))
    ensures tile.None? && !(x.Some? && x.value != 0 && y.Some? && y.value != 0) ==>
              r == Epg.Throw("", "Miss")
  {
    if x.Some? && x.value != 0 && y.Some? && y.value != 0 && tile.None? then
      Ok(Layout(x.value, y.value, (Py.FloorDiv(w, x.value), Py.FloorDiv(h, y.value))))
    else if tile.Some? then
      var (tw, th) := tile.value;
      if x.None? && tw == 0 then Err(ZeroDivisionError)
      else
        var cx := if x.Some? then x.value else Py.FloorDiv(w, tw);
        if y.None? && th == 0 then Err(ZeroDivisionError)
        else
          var cy := if y.Some? then y.value else Py.FloorDiv(h, th);
          Ok(Layout(cx, cy, tile.value))
    else Epg.Throw("", "Miss")
  }

  /**
   * `SpriteSheet(surf, x, y, tile, id, cached)`. With `cached`, the constructor calls `update`
   * once per frame on the uncached sheet and keeps the results; the index is left where those
   * calls leave it.
   */
  function NewGrid(image: Surface, x: Option<int>, y: Option<int>, tile: Option<(int, int)>, id: int, cached: bool)
    : (r: Result<Sheet>)
    ensures var g := GridOf(SizeOf(image).0, SizeOf(image).1, x, y, tile);
            g.Err? ==> r == Err(g.error)
    ensures r.Ok? ==> var g := GridOf(SizeOf(image).0, SizeOf(image).1, x, y, tile).value;
                      r.value.Grid? && r.value.image == image && r.value.x == g.x && r.value.y == g.y
                      && r.value.tile == g.tile
    ensures !cached && r.Ok? ==> r.value.id == id && r.value.cache.None?
    ensures cached && r.Ok? ==> r.value.cache.Some? && |r.value.cache.value| == r.value.x * r.value.y
                                && r.value.id == IdAfter(id, r.value.x * r.value.y, r.value.x * r.value.y)
  {
    var g :- GridOf(SizeOf(image).0, SizeOf(image).1, x, y, tile);
    var s := Grid(image, g.x, g.y, g.tile, id, None);
    if !cached then Ok(s)
    else
      var n :- Len(s);
      var f :- Fill(s, n);
      Ok(f.0.(cache := Some(f.1)))
  }

  /** Building the cache advances the index len times, which brings an in-range index back to where it was. */
  lemma CacheKeepsIndex(image: Surface, x: Option<int>, y: Option<int>, tile: Option<(int, int)>, id: int)
    requires NewGrid(image, x, y, tile, id, true).Ok?
    requires var s := NewGrid(image, x, y, tile, id, true).value; 0 <= id < s.x * s.y
    ensures NewGrid(image, x, y, tile, id, true).value.id == id
  {
    var s := NewGrid(image, x, y, tile, id, true).value;
    var n := s.x * s.y;
    assert s.id == IdAfter(id, n, n);
    FullCircle(id, n);
  }

  /**
   * The cache is filled starting from the construction index, so entry j is the frame at index
   * id + j (mod len), and a cached sheet built at id shows the frame at 2·id: the cache is rotated
   * unless the sheet starts at 0.
   */
  lemma {:induction false} CacheIsRotated(image: Surface, x: Option<int>, y: Option<int>, tile: Option<(int, int)>,
                                          id: int, j: int)
    requires NewGrid(image, x, y, tile, id, true).Ok?
    requires var s := NewGrid(image, x, y, tile, id, true).value; 0 <= id < s.x * s.y && 0 <= j < s.x * s.y
    ensures var s := NewGrid(image, x, y, tile, id, true).value;
            var plain := NewGrid(image, x, y, tile, id, false).value;
            Ok(s.cache.value[j]) == GetSurface(WithId(plain, (id + j) % (s.x * s.y)))
  {
    var s := NewGrid(image, x, y, tile, id, true).value;
    var plain := NewGrid(image, x, y, tile, id, false).value;
    var n := s.x * s.y;
    assert Len(plain) == Ok(n);
    IdAfterWraps(id, n, j);
    var f := Fill(plain, n).value;
    assert s.cache.value == f.1;
  }

  /**
   * Iterating a grid visits the rows top to bottom and the columns left to right within a row,
   * cutting each cell; a sheet with a cache yields its current cached frame for every cell.
   * A file sheet has no grid to iterate.
   */
  function Iter(s: Sheet): (r: Result<seq<Surface>>)
    ensures s.Files? ==> r == Err(AttributeError)
    ensures s.Grid? && r.Ok? ==> |r.value| == (if s.x > 0 && s.y > 0 then s.x * s.y else 0)
  {
    if s.Files? then Err(AttributeError) else IterRows(s, 0)
  }

  function IterRows(s: Sheet, row: int): (r: Result<seq<Surface>>)
    requires s.Grid?
    ensures r.Ok? ==> |r.value| == (if row < s.y && s.x > 0 then (s.y - row) * s.x else 0)
    ensures r.Ok? && HasCache(s) ==> forall i :: 0 <= i < |r.value| ==> GetSurface(s) == Ok(r.value[i])
    decreases s.y - row
  {
    if row >= s.y then Ok([])
    else
      var line :- IterCols(s, row, 0);
      var rest :- IterRows(s, row + 1);
      Ok(line + rest)
  }

  /** Item k·x + c of the rows from `row` on is the cell in column c of row row + k. */
  lemma {:induction false} IterRowsCell(s: Sheet, row: int, k: int, c: int)
    requires s.Grid? && !HasCache(s) && IterRows(s, row).Ok? && 0 <= c < s.x && 0 <= k < s.y - row
    ensures 0 <= k * s.x + c < |IterRows(s, row).value|
    ensures Crop(s, c, row + k) == Ok(IterRows(s, row).value[k * s.x + c])
    decreases k
  {
    var line := IterCols(s, row, 0).value;
    var rest := IterRows(s, row + 1);
    assert IterRows(s, row).value == line + rest.value;
    if k > 0 {
      IterRowsCell(s, row + 1, k - 1, c);
      assert k * s.x + c == |line| + ((k - 1) * s.x + c);
    }
  }

  function IterCols(s: Sheet, row: int, col: int): (r: Result<seq<Surface>>)
    requires s.Grid?
    ensures r.Ok? ==> |r.value| == (if col < s.x then s.x - col else 0)
    ensures r.Ok? && !HasCache(s) ==> forall c :: col <= c < s.x ==> Crop(s, c, row) == Ok(r.value[c - col])
    ensures r.Ok? && HasCache(s) ==> forall i :: 0 <= i < |r.value| ==> GetSurface(s) == Ok(r.value[i])
    decreases s.x - col
  {
    if col >= s.x then Ok([])
    else
      var cell :- if HasCache(s) then Py.Index(Frames(s), s.id) else Crop(s, col, row);
      var rest :- IterCols(s, row, col + 1);
      Ok([cell] + rest)
  }

  /** On an uncached grid, iteration yields the frames in index order: item i is the frame at index i. */
  lemma IterIsIndexOrder(s: Sheet, i: int)
    requires s.Grid? && !HasCache(s) && s.x > 0 && Iter(s).Ok? && 0 <= i < |Iter(s).value|
    ensures GetSurface(WithId(s, i)) == Ok(Iter(s).value[i])
  {
    var c, k := i % s.x, i / s.x;
    assert i == k * s.x + c && 0 <= c < s.x && k >= 0;
    assert k < s.y by {
      if k >= s.y {
        Mixing.MulMonotone(s.y, k, s.x);
      }
    }
    IterCell(s, k, c);
  }

  /** The frame at index k·x + c is the cell in column c of row k, and iteration yields it there. */
  lemma IterCell(s: Sheet, k: int, c: int)
    requires s.Grid? && !HasCache(s) && Iter(s).Ok? && 0 <= c < s.x && 0 <= k < s.y
    ensures 0 <= k * s.x + c < |Iter(s).value|
    ensures GetSurface(WithId(s, k * s.x + c)) == Ok(Iter(s).value[k * s.x + c])
  {
    PosOfIndex(WithId(s, k * s.x + c), c, k);
    IterRowsCell(s, 0, k, c);
  }

  /** `FileSheet(surfs, id)`: one frame per surface; the tile is the first one's size. */
  function NewFiles(surfs: seq<Surface>, id: int): (r: Result<Sheet>)
    ensures |surfs| == 0 ==> r == Epg.Throw("No images in this sheet", "")
    ensures |surfs| > 0 ==> r == Ok(Files(surfs, id, SizeOf(surfs[0])))
    ensures r.Ok? ==> HasCache(r.value) && Len(r.value) == Ok(|surfs|)
  {
    if |surfs| == 0 then Epg.Throw("No images in this sheet", "") else Ok(Files(surfs, id, SizeOf(surfs[0])))
  }

  /** An `Animation` over a sheet with its throttle, or a `StaticAnimation` showing one image. */
  datatype Animation = Animated(sheet: Sheet, interval: int, last: int) | Still(image: Surface)

  /** `Animation(sheet, delay, interval)` created at time `now`: a delay postpones the first advance. */
  function NewAnimation(sheet: Sheet, delay: Option<int>, interval: int, now: int): (a: Animation)
    ensures a.Animated? && a.sheet == sheet && a.interval == interval
    ensures a.last == now + (if delay.Some? then delay.value else 0)
  {
    Animated(sheet, interval, if delay.Some? then now + delay.value else now)
  }

  /** `animation.id`: a static animation is always at frame 0. */
  function Id(a: Animation): (i: int)
    ensures a.Still? ==> i == 0
    ensures a.Animated? ==> i == a.sheet.id
  {
    if a.Still? then 0 else a.sheet.id
  }

  /** `animation.id = v`: ignored by a static animation. */
  function SetId(a: Animation, v: int): (r: Animation)
    ensures a.Still? ==> r == a
    ensures a.Animated? ==> r.Animated? && Id(r) == v && r.interval == a.interval && r.last == a.last
  {
    if a.Still? then a else a.(sheet := WithId(a.sheet, v))
  }

  /**
   * `update(reset)` at time `now`: an animation advances when told to reset or when more than
   * `interval` has passed since the last advance, and then records `now`; otherwise nothing
   * happens. A static animation returns its image only on a reset and never changes.
   */
  function Update(a: Animation, now: int, reset: bool): (r: Result<(Animation, Option<Surface>)>)
    ensures a.Still? ==> r == Ok((a, if reset then Some(a.image) else None))
    ensures a.Animated? && !reset && now - a.last <= a.interval ==> r == Ok((a, None))
    ensures a.Animated? && (reset || now - a.last > a.interval) ==>
              (r.Ok? <==> NextImage(a.sheet).Ok?)
              && (r.Ok? ==> r.value == (Animated(NextImage(a.sheet).value.0, a.interval, now), Some(NextImage(a.sheet).value.1)))
  {
    match a
    case Still(image) => Ok((a, if reset then Some(image) else None))
    case Animated(sheet, interval, last) =>
      if reset || now - last > interval then
        var step :- NextImage(sheet);
        Ok((Animated(step.0, interval, now), Some(step.1)))
      else Ok((a, None))
  }

  /** A fresh animation created at t0 with a delay first advances, unprompted, only after delay + interval. */
  lemma DelayPostponesFirstFrame(sheet: Sheet, delay: int, interval: int, t0: int, now: int)
    requires NextImage(sheet).Ok?
    ensures var a := NewAnimation(sheet, Some(delay), interval, t0);
            Update(a, now, false).value.1.Some? <==> now > t0 + delay + interval
  {
  }
}

=== FILE: traces.dfy ===
/**
 * A concrete run of the engine: a sprite that plays `Delay(0) >> Kill()`. The Kill fires on the
 * fourth update, not the second: the delay yields get(0), then get(1), then hands over to the
 * Kill with a None tick, and only the next send runs it.
 */
module Traces {
  import opened Errors
  import opened Values
  import opened Actions
  import opened Effects
  import opened Playback
  import opened Managers

  const KillKw: map<string, Val> := map["call_end_func" := VBool(true)]

  /** `Delay(0)` and `Kill()` as the constructors build them. */
  const DelayLeaf: Action := Leaf(Delay, 0, 0, Count(1), MixInterp, false, map[], map[], None)
  const KillLeaf: Action := Leaf(Kill, 0, 0, Count(1), MixInterp, false, KillKw, KillKw, None)
  const Chain: Action := Group(Sequential, 0, 0, Count(1), MixInterp, false, [DelayLeaf, KillLeaf])
  const RootGroup: Action := Group(Sequential, 0, 0, Count(1), MixInterp, false, [Chain])

  lemma DelayIsBuilt()
    ensures Make(Delay, 0, 0, Count(1), MixInterp, VNone, map[]) == Ok(DelayLeaf)
  {
    assert Defaults(Delay) + map[] == map[];
  }

  lemma KillIsBuilt()
    ensures Make(Kill, 0, 0, Count(1), MixInterp, VNone, map[]) == Ok(KillLeaf)
  {
    var none: map<string, Val> := map[];
    assert Defaults(Kill) == KillKw;
    assert none.Keys <= KillKw.Keys;
    assert Defaults(Kill) + none == KillKw;
    assert !DefaultCover(Kill);
  }

  /** `>>` on two leaves that do not merge gives the two-child chain. */
  lemma ChainIsBuilt()
    ensures Then(DelayLeaf, Action(KillLeaf)) == Chain
  {
    var base := MakeGroup(Sequential, Count(1), [DelayLeaf]);
    assert Copy(DelayLeaf) == DelayLeaf;
    assert Copy(base).children == [DelayLeaf];
    assert !Same(DelayLeaf, KillLeaf);
    assert Append([DelayLeaf], KillLeaf) == [DelayLeaf, KillLeaf];
  }

  lemma RootIsBuilt()
    ensures Root([Chain]) == RootGroup
  {
    assert Copy(DelayLeaf) == DelayLeaf;
    assert Copy(KillLeaf) == KillLeaf;
    assert Copy(Chain).children == Chain.children;
    assert Copy(MakeGroup(Sequential, Count(1), [Chain])).children == [Chain];
  }

  /** The run states the root generator passes through. */
  function R0(): Run { SeqRun(RootGroup, 0, 0, SeqRun(Chain, 0, 0, LeafRun(DelayLeaf, DelayLeaf, 0, Primed))) }
  function R1(t: int): Run {
    SeqRun(RootGroup, 0, 0, SeqRun(Chain, 0, 0, LeafRun(DelayLeaf, DelayLeaf, 0, Sampling(VInt(0), t, t))))
  }
  function R2(): Run { SeqRun(RootGroup, 0, 0, SeqRun(Chain, 0, 0, LeafRun(DelayLeaf, DelayLeaf, 0, Closing))) }
  function R3(): Run { SeqRun(RootGroup, 0, 0, SeqRun(Chain, 0, 1, SpecialRun(KillLeaf, Armed))) }

  lemma SampledIsWellFormed(t: int)
    ensures WF(R1(t))
  {
    assert IsPos(VInt(0));
    assert WF(R1(t).child.child);
    assert WF(R1(t).child);
  }

  lemma PrimeRoot(env: Env)
    ensures Prime(RootGroup, env) == Ok(Some(R0()))
  {
    assert Prime(DelayLeaf, env) == Ok(Some(LeafRun(DelayLeaf, DelayLeaf, 0, Primed)));
    assert FirstLive(Chain, 0, env) == Ok(Some((0, LeafRun(DelayLeaf, DelayLeaf, 0, Primed))));
    assert Prime(Chain, env) == Ok(Some(SeqRun(Chain, 0, 0, LeafRun(DelayLeaf, DelayLeaf, 0, Primed))));
    assert FirstLive(RootGroup, 0, env) == Ok(Some((0, R0().child)));
  }

  lemma Send1(f: Frame, t: int, env: Env, ctx: Ctx)
    ensures Step(R0(), Some(f), t, env, ctx) == Ok(Yield(Some(f), R1(t), ctx))
  {
    assert Get(DelayLeaf, VInt(0), Some(f), env) == Ok(Sample(Some(f), None));
    var leaf := LeafRun(DelayLeaf, DelayLeaf, 0, Primed);
    assert Step(leaf, Some(f), t, env, ctx) == Ok(Yield(Some(f), R1(t).child.child, ctx));
    assert Step(R0().child, Some(f), t, env, ctx) == Ok(Yield(Some(f), R1(t).child, ctx));
  }

  lemma Send2(f: Frame, t0: int, t: int, env: Env, ctx: Ctx)
    ensures Step(R1(t0), Some(f), t, env, ctx) == Ok(Yield(Some(f), R2(), ctx))
  {
    assert Get(DelayLeaf, VInt(1), Some(f), env) == Ok(Sample(Some(f), None));
    var leaf := R1(t0).child.child;
    assert Step(leaf, Some(f), t, env, ctx) == Ok(Yield(Some(f), R2().child.child, ctx));
    assert Step(R1(t0).child, Some(f), t, env, ctx) == Ok(Yield(Some(f), R2().child, ctx));
  }

  lemma Send3(f: Frame, t: int, env: Env, ctx: Ctx)
    ensures Step(R2(), Some(f), t, env, ctx) == Ok(Yield(None, R3(), ctx))
  {
    var leaf := R2().child.child;
    assert Reinit(DelayLeaf, env) == Ok(DelayLeaf);
    assert Register(DelayLeaf, ctx) == Ok(ctx);
    assert Step(leaf, Some(f), t, env, ctx) == Ok(Done(ctx));
    assert Prime(KillLeaf, env) == Ok(Some(SpecialRun(KillLeaf, Armed)));
    assert FirstLive(Chain, 1, env) == Ok(Some((1, SpecialRun(KillLeaf, Armed))));
    assert PrimeSeq(Chain, 0, 1, env) == Ok(Some(R3().child));
    assert Step(R2().child, Some(f), t, env, ctx) == Ok(Yield(None, R3().child, ctx));
  }

  lemma Send4(f: Frame, t: int, env: Env, ctx: Ctx)
    requires !ctx.detached
    ensures var killed := ctx.(events := ctx.events + (if ctx.endFunc.Some? then [EndCalled] else []) + [Killed]);
            Step(R3(), Some(f), t, env, ctx)
            == Ok(Yield(None, SeqRun(RootGroup, 0, 0, SeqRun(Chain, 0, 1, SpecialRun(KillLeaf, Fired))), killed))
  {
    var killed := ctx.(events := ctx.events + (if ctx.endFunc.Some? then [EndCalled] else []) + [Killed]);
    assert Fire(KillLeaf, ctx) == Ok(killed);
    assert Step(R3().child, Some(f), t, env, ctx) == Ok(Yield(None, SeqRun(Chain, 0, 1, SpecialRun(KillLeaf, Fired)), killed));
  }

  /** The sprite after `n` updates, with the state its generator is parked in. */
  function Sprite(endFunc: Option<nat>, run: Run, shown: Frame): Actor {
    Actor(endFunc, Some(Manager(Some(RootGroup), Some(run), Fresh(endFunc))), shown, false)
  }

  lemma Created(endFunc: Option<nat>, shown: Frame, env: Env)
    ensures NewActor([Chain], endFunc, shown, env) == Ok(Sprite(endFunc, R0(), shown))
  {
    RootIsBuilt();
    PrimeRoot(env);
    assert IsTruthy(Chain);
    assert Start([Chain], endFunc, env) == Ok(Manager(Some(RootGroup), Some(R0()), Fresh(endFunc)));
  }

  /** With no covers registered, a manager sends the sprite's original frame. */
  lemma Uncovered(m: Manager, shown: Frame, now: int, env: Env)
    requires Valid(m) && m.gen.Some? && m.ctx.covers == []
    ensures var orig := Frame(env.origImage, env.origRect);
            var o := Step(m.gen.value, Some(orig), now, env, m.ctx);
            Update(m, shown, now, env)
            == if o.Err? then Err(o.error)
               else if o.value.Yield? then
                 Ok(Updated(Manager(m.actions, Some(o.value.run), o.value.ctx), if o.value.out.Some? then o.value.out.value else shown))
               else Ok(Updated(Manager(m.actions, None, o.value.ctx.(events := o.value.ctx.events
                                 + (if o.value.ctx.endFunc.Some? then [EndCalled] else []))), shown))
  {
    var none: seq<Event> := [];
    assert m.ctx.events + none == m.ctx.events;
    assert m.ctx.(events := m.ctx.events + none) == m.ctx;
  }

  lemma Update1(endFunc: Option<nat>, shown: Frame, t: int, env: Env)
    ensures ActorUpdate(Sprite(endFunc, R0(), shown), t, env) == Ok(Sprite(endFunc, R1(t), Frame(env.origImage, env.origRect)))
  {
    var x := Sprite(endFunc, R0(), shown);
    Uncovered(x.manager.value, shown, t, env);
    Send1(Frame(env.origImage, env.origRect), t, env, Fresh(endFunc));
  }

  lemma Update2(endFunc: Option<nat>, shown: Frame, t0: int, t: int, env: Env)
    requires WF(R1(t0))
    ensures ActorUpdate(Sprite(endFunc, R1(t0), shown), t, env) == Ok(Sprite(endFunc, R2(), Frame(env.origImage, env.origRect)))
  {
    var x := Sprite(endFunc, R1(t0), shown);
    Uncovered(x.manager.value, shown, t, env);
    Send2(Frame(env.origImage, env.origRect), t0, t, env, Fresh(endFunc));
  }

  lemma Update3(endFunc: Option<nat>, shown: Frame, t: int, env: Env)
    ensures ActorUpdate(Sprite(endFunc, R2(), shown), t, env) == Ok(Sprite(endFunc, R3(), shown))
  {
    var x := Sprite(endFunc, R2(), shown);
    Uncovered(x.manager.value, shown, t, env);
    Send3(Frame(env.origImage, env.origRect), t, env, Fresh(endFunc));
  }

  lemma Update4(endFunc: Option<nat>, shown: Frame, t: int, env: Env)
    ensures var x := ActorUpdate(Sprite(endFunc, R3(), shown), t, env);
            x.Ok? && x.value.manager.Some? && x.value.manager.value.ctx.events == (if endFunc.Some? then [EndCalled] else []) + [Killed]
  {
    var x := Sprite(endFunc, R3(), shown);
    Uncovered(x.manager.value, shown, t, env);
    Send4(Frame(env.origImage, env.origRect), t, env, Fresh(endFunc));
  }

  /**
   * A sprite created with `Delay(0) >> Kill()`: three updates pass without the Kill; the fourth
   * calls the end function, if there is one, and kills the sprite.
   */
  lemma {:induction false} KillFiresOnFourthUpdate(endFunc: Option<nat>, shown: Frame, t1: int, t2: int, t3: int, t4: int,
                                                   env: Env)
    ensures NewActor([Chain], endFunc, shown, env).Ok?
    ensures var x0 := NewActor([Chain], endFunc, shown, env).value;
            var x1 := ActorUpdate(x0, t1, env);
            x1.Ok? && x1.value.manager.Some? && x1.value.manager.value.ctx.events == []
            && var x2 := ActorUpdate(x1.value, t2, env);
            x2.Ok? && x2.value.manager.Some? && x2.value.manager.value.ctx.events == []
            && var x3 := ActorUpdate(x2.value, t3, env);
            x3.Ok? && x3.value.manager.Some? && x3.value.manager.value.ctx.events == []
            && var x4 := ActorUpdate(x3.value, t4, env);
            x4.Ok? && x4.value.manager.Some?
            && x4.value.manager.value.ctx.events == (if endFunc.Some? then [EndCalled] else []) + [Killed]
  {
    var orig := Frame(env.origImage, env.origRect);
    Created(endFunc, shown, env);
    Update1(endFunc, shown, t1, env);
    SampledIsWellFormed(t1);
    Update2(endFunc, orig, t1, t2, env);
    Update3(endFunc, orig, t3, env);
    Update4(endFunc, orig, t4, env);
  }
}

=== FILE: values.dfy ===
/** The dynamically typed values held in an action's keyword map, with Python's truthiness and `==`. */
module Values {
  import opened Errors
  import Py

  /** A keyword value. Functions and surfaces are identity tokens. */
  datatype Val =
    | VNone
    | VBool(b: bool)
    | VInt(i: int)
    | VReal(r: real)
    | VStr(s: string)
    | VTuple(items: seq<Val>)
    | VList(items: seq<Val>)
    | VFunc(fid: nat)
    | VImage(img: nat)

  function Pair(a: Val, b: Val): Val {
    VTuple([a, b])
  }

  function IntPair(a: int, b: int): Val {
    VTuple([VInt(a), VInt(b)])
  }

  /** Python's `bool(v)`. */
  predicate Truthy(v: Val) {
    match v
    case VNone => false
    case VBool(b) => b
    case VInt(i) => i != 0
    case VReal(r) => r != 0.0
    case VStr(s) => |s| > 0
    case VTuple(items) => |items| > 0
    case VList(items) => |items| > 0
    case VFunc(_) => true
    case VImage(_) => true
  }

  predicate IsNumber(v: Val) {
    v.VBool? || v.VInt? || v.VReal?
  }

  /** `isinstance(v, int)`: bool is a subclass of int in Python. */
  predicate IsIntLike(v: Val) {
    v.VBool? || v.VInt?
  }

  function NumValue(v: Val): real
    requires IsNumber(v)
  {
    match v
    case VBool(b) => if b then 1.0 else 0.0
    case VInt(i) => i as real
    case VReal(r) => r
  }

  function IntValue(v: Val): (n: int)
    requires IsIntLike(v)
    ensures n as real == NumValue(v)
  {
    match v
    case VBool(b) => if b then 1 else 0
    case VInt(i) => i
  }

  /** Values that `zip`, `list()` and `[::-1]` can walk over. */
  predicate IsSeq(v: Val) {
    v.VTuple? || v.VList? || v.VStr?
  }

  /** The elements `iter(v)` yields; a string yields one-character strings. */
  function Elements(v: Val): (r: seq<Val>)
    requires IsSeq(v)
    ensures |r| == (if v.VStr? then |v.s| else |v.items|)
  {
    match v
    case VTuple(items) => items
    case VList(items) => items
    case VStr(s) => seq(|s|, i requires 0 <= i < |s| => VStr([s[i]]))
  }

  /** `v[k]` for the indexable values, Python indexing rules included. */
  function Item(v: Val, k: int): (r: Result<Val>)
    ensures !IsSeq(v) ==> r == Err(TypeError)
    ensures IsSeq(v) && 0 <= k < |Elements(v)| ==> r == Ok(Elements(v)[k])
    ensures r.Ok? ==> IsSeq(v) && -|Elements(v)| <= k < |Elements(v)|
    ensures IsSeq(v) && !(-|Elements(v)| <= k < |Elements(v)|) ==> r == Err(IndexError)
  {
    if IsSeq(v) then Py.Index(Elements(v), k) else Err(TypeError)
  }

  /** `v[::-1]`. */
  function Reversed(v: Val): (r: Result<Val>)
    ensures r.Ok? <==> IsSeq(v)
    ensures r.Ok? ==> r.value.VStr? == v.VStr? && r.value.VTuple? == v.VTuple? && Truthy(r.value) == Truthy(v)
  {
    match v
    case VTuple(items) => Ok(VTuple(Py.Reverse(items)))
    case VList(items) => Ok(VList(Py.Reverse(items)))
    case VStr(s) => Ok(VStr(Py.Reverse(s)))
    case _ => Err(TypeError)
  }

  lemma ReversedTwice(v: Val)
    requires IsSeq(v)
    ensures Reversed(Reversed(v).value) == Ok(v)
  {
    match v
    case VTuple(items) => Py.ReverseReverse(items);
    case VList(items) => Py.ReverseReverse(items);
    case VStr(s) => Py.ReverseReverse(s);
  }

  /** Python's `a == b`: numbers compare by value across bool/int/float, a tuple never equals a list. */
  predicate ValEq(a: Val, b: Val)
    decreases a
  {
    if IsNumber(a) && IsNumber(b) then NumValue(a) == NumValue(b)
    else match (a, b)
      case (VTuple(x), VTuple(y)) => |x| == |y| && forall i :: 0 <= i < |x| ==> ValEq(x[i], y[i])
      case (VList(x), VList(y)) => |x| == |y| && forall i :: 0 <= i < |x| ==> ValEq(x[i], y[i])
      case (VNone, VNone) => true
      case (VStr(x), VStr(y)) => x == y
      case (VFunc(x), VFunc(y)) => x == y
      case (VImage(x), VImage(y)) => x == y
      case _ => false
  }

  lemma {:induction false} ValEqRefl(a: Val)
    ensures ValEq(a, a)
    decreases a
  {
    match a
    case VTuple(x) =>
      forall i | 0 <= i < |x| ensures ValEq(x[i], x[i]) { ValEqRefl(x[i]); }
    case VList(x) =>
      forall i | 0 <= i < |x| ensures ValEq(x[i], x[i]) { ValEqRefl(x[i]); }
    case _ =>
  }

  lemma {:induction false} ValEqSym(a: Val, b: Val)
    requires ValEq(a, b)
    ensures ValEq(b, a)
    decreases a
  {
    match (a, b)
    case (VTuple(x), VTuple(y)) =>
      forall i | 0 <= i < |y| ensures ValEq(y[i], x[i]) { ValEqSym(x[i], y[i]); }
    case (VList(x), VList(y)) =>
      forall i | 0 <= i < |y| ensures ValEq(y[i], x[i]) { ValEqSym(x[i], y[i]); }
    case _ =>
  }

  /** Python dict equality over keyword maps. */
  predicate KwEq(m: map<string, Val>, n: map<string, Val>) {
    m.Keys == n.Keys && forall k :: k in m ==> ValEq(m[k], n[k])
  }

  lemma KwEqRefl(m: map<string, Val>)
    ensures KwEq(m, m)
  {
    forall k | k in m ensures ValEq(m[k], m[k]) { ValEqRefl(m[k]); }
  }

  lemma KwEqSym(m: map<string, Val>, n: map<string, Val>)
    requires KwEq(m, n)
    ensures KwEq(n, m)
  {
    forall k | k in n ensures ValEq(n[k], m[k]) { ValEqSym(m[k], n[k]); }
  }

  /** `a * b` for a keyword value and a number: arithmetic, or repetition of a sequence. */
  function Times(a: Val, b: Val): (r: Result<Val>)
    ensures IsNumber(a) && IsNumber(b) ==>
              r.Ok? && IsNumber(r.value) && NumValue(r.value) == NumValue(a) * NumValue(b)
  {
    if IsIntLike(a) && IsIntLike(b) then Ok(VInt(IntValue(a) * IntValue(b)))
    else if IsNumber(a) && IsNumber(b) then Ok(VReal(NumValue(a) * NumValue(b)))
    else if IsSeq(a) && IsIntLike(b) then
      var k := IntValue(b);
      match a
      case VTuple(x) => Ok(VTuple(Repeat(x, k)))
      case VList(x) => Ok(VList(Repeat(x, k)))
      case VStr(x) => Ok(VStr(Repeat(x, k)))
    else Err(TypeError)
  }

  function Repeat<T>(s: seq<T>, k: int): (r: seq<T>)
    ensures |r| == if k > 0 then k * |s| else 0
    decreases k
  {
    if k <= 0 then [] else s + Repeat(s, k - 1)
  }
}
